=== FILE: README.md ===
# flowmaker core in Dafny

flowmaker draws flow diagrams in the browser. Nodes carry ports, and links join an
output port of one node to an input port of another. This project models the parts of
flowmaker that hold logic rather than drawing code, as pure functions over immutable
values, and proves what they promise:

- **Tidy-tree layout** (`src/util/Layout.js`, modules `LayoutTree`, `TreeLayout`,
  `TreeLayoutProps`, `TreeLayoutSuccess`, `TreeLayoutFixture`). This is Walker's algorithm in the linear-time form of Buchheim,
  Juenger and Leipert.
  - The `LayoutTree` objects become two arenas indexed in pre-order. One is the static
    `Shape`: id, parent, children, depth and sibling number. The other is a sequence of
    mutable `Cell`s: x, y, thread, mod, ancestor, change and shift.
  - Coordinates are exact rationals (`real`).
  - Every walk, loop and helper of the source has its own function.
  - The proofs show that `calc()` never fails. It returns one entry per tree node, in
    pre-order, with `y` the depth and `x` never negative.
  - On the tree of the test suite, `calc()` returns exactly the seven positions that
    the test asserts.
- **Connection check** (`src/core/Validator.js`, module `Validator`).
  - `isConnectable` appears twice: as written, and with the index slip corrected.
  - Each version carries a closed form of its result.
- **Event bus** (`src/core/EventBus.js`, module `EventBus`).
  - Covers `on`, `off` (including its backwards splice loop) and `emit`.
  - `emit` calls listeners from the last registered to the first and stops at
    `cancel()`.
- **Links** (`src/core/Link.js`, module `Links`).
  - The id string and the link map.
  - The two bus listeners a link registers and removes.
  - The rule that an input port keeps only the newest link.
  - The redraw guard on node moves.
- **Ports** (`src/core/Port.js`, module `Ports`): defaults, accessors, entry into a
  node's port map, and the mouse-down guard.
- **Nodes** (`src/core/Node.js`, modules `Nodes` and `Flows`): option defaults, and
  `addToFlow` with its error cases, id counter, registration and position.
- **Stamps** (`src/util/CommonUtil.js`, module `CommonUtil`): `stamp` and its
  module-wide counter.

How the model represents the program:

- JavaScript objects that the code compares by identity are named by handles (`nat`):
  - the link that is a listener's context;
  - the node that owns a port;
  - an object that receives a stamp.
- A callback is a handle too, since `off` compares callbacks with `===`.
- A thrown exception becomes the `Failure` case of a `Result`.
- The `undefined` value becomes `None`.

The flow object holds its node map and id counter (src/core/Flow.js:14-15). The model
also gives it the link map `_links` and the listener registry that `Link.js` and
`Port.js` use through `flow._links`, `flow.on`, `flow.off` and `flow.emit`. Flow.js
itself does not define those members. The model takes them to be a plain map and the
`EventBus` registry. In the same way it gives every node the port map `_ports` that
`Port._addToNode` writes into (src/core/Port.js:38), empty when the node is built.

## Model

| member | source | states |
|---|---|---|
| `LayoutTree.Flatten` | src/util/Layout.js:19-39 | The constructor creates exactly one layout node per node of the input tree. |
| `LayoutTree.BuildValid` | src/util/Layout.js:19-29 | `new LayoutTree(tree)` builds a well-formed tree: one node per input node, with the ids in pre-order. Every subtree sits exactly where the constructor put it. |
| `LayoutTree.ChildFacts` | src/util/Layout.js:23-29 | Child `j` of a node comes after it, has that node as parent, is one level deeper, and has sibling number `j + 1`. |
| `LayoutTree.ChildrenDistinct` | src/util/Layout.js:23-26 | The children of one node are distinct nodes. |
| `TreeLayoutProps.RootDepth` | src/util/Layout.js:19-28 | The root has depth 0 and keeps its id. With `ChildFacts`, every node's depth is its distance from the root. |
| `TreeLayout.InitCells` | src/util/Layout.js:31-38 | Before any walk, every node has x = -1, y equal to its depth, no thread, zero mod, change and shift, and itself as ancestor. Threads and ancestors satisfy the link invariant from the start. |
| `TreeLayout.Left` | src/util/Layout.js:51-53 | `_left()` yields a node one level deeper. It is absent exactly when the node has neither a thread nor a child. |
| `TreeLayout.Right` | src/util/Layout.js:55-57 | `_right()` yields a node one level deeper. It is absent exactly when the node has neither a thread nor a child. |
| `TreeLayout.ScanBrother` | src/util/Layout.js:64-71 | The sibling scan returns the sibling just before the first occurrence of the node, or nothing when the node comes first. |
| `TreeLayout.LBrother` | src/util/Layout.js:59-75 | `_lbrother()`: a root has no left brother. Otherwise the result is the sibling just before the node in its parent's child list; it is never the node itself and is a child of the same parent. |
| `TreeLayout.LBrotherOfChild` | src/util/Layout.js:59-75 | The left brother of a parent's `j`-th child is child `j - 1`, and a first child has none. |
| `TreeLayout.LmostSibling` | src/util/Layout.js:77-83 | `_getLmostSibling()` is the parent's first child, and never the node itself. It exists whenever a left brother exists. |
| `TreeLayout.AncestorOf` | src/util/Layout.js:203-209 | `_ancestor` returns `vil`'s recorded ancestor exactly when `v` has a parent whose children include it. Otherwise it returns the default ancestor. |
| `TreeLayout.MoveSubtree` | src/util/Layout.js:181-188 | `_moveSubtree` moves `wr` and its whole subtree right by `shift` (x and mod rise together). It spreads `shift / (wr.number - wl.number)` as opposite changes on `wl` and `wr`, so their sum stays the same. No other node changes. |
| `TreeLayout.ExecuteShifts` | src/util/Layout.js:190-201 | Each child moves right, in both x and mod, by `ShiftBefore`. That is the sum, over the children to its right, of their shift plus the changes accumulated from there on. Every node that is not a child stays unchanged. |
| `TreeLayout.ShiftLoopEffect` | src/util/Layout.js:193-200 | While the two accumulators keep their closed forms, the right-to-left loop moves every child it visits by its closed-form shift. |
| `TreeLayout.AccumulatorStep` | src/util/Layout.js:198-199 | One pass of the loop keeps the `change` and `shift` accumulators equal to their closed forms. |
| `TreeLayout.PlaceLeaf` | src/util/Layout.js:103-105 | A leaf with no left brother (a first child or the root) goes to x = 0. Any other leaf goes one unit right of its left brother. No other node changes. |
| `TreeLayout.PlaceInternal` | src/util/Layout.js:114-124 | After the shifts, a node with no left brother sits at the midpoint of its first and last child, with mod unchanged. A node with a left brother sits one unit right of it, and its mod is its distance from that midpoint. |
| `TreeLayout.ContourStep` | src/util/Layout.js:144-162 | One pass of the contour loop advances the four cursors. It moves only `v` (with its subtree), and only to the right. It records `v` as the ancestor of `vor` and changes no thread and no other ancestor. |
| `TreeLayout.PushApart` | src/util/Layout.js:151-157 | A positive shift moves `v`'s subtree right, and any other shift moves nothing. No thread or ancestor changes. |
| `TreeLayout.StepFrame` | src/util/Layout.js:149-154 | Writing `vor._ancestor = v` and then moving `v` changes no thread. The only ancestor that changes is `vor`'s. |
| `TreeLayout.ApportionLoop` | src/util/Layout.js:143-163 | The contour loop ends when one of the two inner contours runs out. The cursors stay on one level, and no node moves except `v`, which moves right. |
| `TreeLayout.ApportionFinish` | src/util/Layout.js:165-175 | Threading the shorter contour onto the longer one moves no node. The new default ancestor is the old one or `v`. |
| `TreeLayout.Apportion` | src/util/Layout.js:130-179 | `_apportion` changes nothing for a node without a left brother. Otherwise it moves only `v` and only to the right, keeps the links valid, and returns the old default ancestor or `v`. |
| `TreeLayout.FirstWalk` | src/util/Layout.js:102-128 | The post-order first walk keeps threads and ancestors valid. |
| `TreeLayout.FirstWalkKids` | src/util/Layout.js:107-112 | The children loop of the first walk keeps threads and ancestors valid. |
| `TreeLayout.SecondWalk` | src/util/Layout.js:211-225 | The second walk never touches mod or thread. |
| `TreeLayoutProps.SecondWalkEffect` | src/util/Layout.js:211-225 | On a subtree, the second walk adds to every x the inherited `m` plus the mods of the ancestors inside the subtree. It sets each y to the depth, leaves every other node alone, and returns the least x. |
| `TreeLayoutProps.SecondWalkKidsEffect` | src/util/Layout.js:219-222 | The children loop of the second walk has the same effect on the subtrees of the remaining children. |
| `TreeLayoutProps.ThirdWalkEffect` | src/util/Layout.js:227-233 | `_thirdWalk(t, n)` adds exactly `n` to every x in the subtree and changes nothing else. |
| `TreeLayoutProps.ExtractRows` | src/util/Layout.js:85-100 | `_extractNodePositions` lists the subtree in pre-order as `{id, x, y}` entries. |
| `TreeLayoutProps.PlacementEffect` | src/util/Layout.js:41-43 | After the first walk, the second walk adds to each x the mods of all of its ancestors and sets y to the depth. The minimum it returns bounds every x from below and is one of them. |
| `TreeLayoutProps.NormalizeEffect` | src/util/Layout.js:44-46 | When the minimum is negative, every x rises by exactly `-min`. Otherwise nothing moves. |
| `TreeLayoutProps.LayoutEffect` | src/util/Layout.js:41-49 | `layout()` fails only when the walks fail. Its entries are the nodes in pre-order, each shifted by the same amount. |
| `TreeLayoutProps.CalcShape` | src/util/Layout.js:10-12 | `calc()` succeeds on every tree. It returns one entry per tree node, in pre-order. Each `y` is the node's depth and each `x` is at least 0. |
| `TreeLayoutSuccess.CalcSucceeds` | src/util/Layout.js:10-12 | `new Layout(tree).calc()` never fails: no contour cursor is ever missing and no shift divides by zero. |
| `TreeLayoutSuccess.LayoutSucceeds` | src/util/Layout.js:41-49 | On an arena the constructor built, the first walk, the second walk and `layout()` all succeed. |
| `TreeLayoutSuccess.FirstWalkOk` | src/util/Layout.js:102-128 | `_firstWalk(v)` on a subtree the constructor left untouched succeeds. Its threads and recorded ancestors stay inside the subtree, no link outside it changes, and both contours of `v` reach exactly the subtree's height. |
| `TreeLayoutSuccess.FirstWalkLeaf` | src/util/Layout.js:103-105 | A leaf's first walk succeeds, and neither of its contours goes below it. |
| `TreeLayoutSuccess.FirstWalkNodeOk` | src/util/Layout.js:106-125 | The same for an internal node: the children loop, then `v` is placed over its children. |
| `TreeLayoutSuccess.FirstWalkKidsOk` | src/util/Layout.js:107-112 | The `for` loop from child `j` on succeeds. Afterwards the left contour from the first child and the right contour from the last child both reach the greatest child height. |
| `TreeLayoutSuccess.KidWalkOk` | src/util/Layout.js:108-112 | One turn of that loop (walk child `j`, then apportion it) succeeds and extends the contour statement from children `0..j-1` to `0..j`. |
| `TreeLayoutSuccess.KidStep` | src/util/Layout.js:111 | Apportioning a walked child succeeds. The new default ancestor has a sibling number at most `j + 1`, and the untouched rest of the subtree stays untouched. |
| `TreeLayoutSuccess.ApportionOk` | src/util/Layout.js:130-179 | `_apportion` of child `j` succeeds. Afterwards the left contour of children `0..j` and the right contour of child `j` both reach the greater of the two heights. Threads and ancestors stay inside children `0..j`. |
| `TreeLayoutSuccess.LoopOk` | src/util/Layout.js:143-163 | The `while` loop never fails and stops on the last level the two inner contours share. Its cursors are then the nodes of the four contours on that level. It writes no thread and records ancestors only inside `v`'s subtree. |
| `TreeLayoutSuccess.LoopNext` | src/util/Layout.js:143-163 | Above that level the loop makes one pass and continues from the level below, with the same result. |
| `TreeLayoutSuccess.LoopBase` | src/util/Layout.js:143 | On the last shared level the loop condition fails and the loop stops. |
| `TreeLayoutSuccess.LoopAdvance` | src/util/Layout.js:144-162 | A pass above the last shared level succeeds and moves all four cursors one level down their contours. |
| `TreeLayoutSuccess.LoopStepOk` | src/util/Layout.js:149-157 | The ancestor a pass picks is `v`'s earlier sibling or the default ancestor, so its number is below `v`'s and `_moveSubtree` divides by a positive count. |
| `TreeLayoutSuccess.Cursors` | src/util/Layout.js:144-147 | `_right(vil)`, `_left(vir)`, `_left(vol)` and `_right(vor)` are the next nodes of the four contours. In particular `vol` is still a node while `vil` and `vir` go on. |
| `TreeLayoutSuccess.FinishDeeperLeft` | src/util/Layout.js:165-167 | When the left siblings reach deeper, `vor` is threaded onto `_right(vil)`. Then `v`'s right contour reaches their depth, and the default ancestor stays. |
| `TreeLayoutSuccess.FinishDeeperRight` | src/util/Layout.js:169-174 | When `v`'s subtree reaches deeper, `vol` is threaded onto `_left(vir)`. Then the siblings' left contour reaches `v`'s depth, and `v` becomes the default ancestor. |
| `TreeLayoutSuccess.FinishLevel` | src/util/Layout.js:165-175 | When both reach equally deep, nothing is threaded and `v` becomes the default ancestor. |
| `TreeLayoutSuccess.ThreadReaches` | src/util/Layout.js:166-170 | Threading the bottom of a shorter contour onto the next level of a longer one makes the shorter contour reach as deep as the longer one. |
| `TreeLayoutSuccess.Graft` | src/util/Layout.js:51-57 | After that threading, `_left()`/`_right()` steps from the grafted contour follow the longer contour level by level. |
| `TreeLayoutSuccess.ReachesIff` | src/util/Layout.js:51-57 | A contour that reaches `h` levels has a node on exactly the levels `0..h`. |
| `TreeLayoutSuccess.WalkDepth` | src/util/Layout.js:51-57 | Every step of `_left()`/`_right()` lands on an existing node one level deeper. |
| `TreeLayoutFixture.FixtureArena` | test/util/Layout.test.js:8-22 | The constructor flattens the test tree into the expected seven-node arena in pre-order (`0-0, 1-0, 1-1, 2-0..2-3`). |
| `TreeLayoutFixture.ExecuteShiftsIdle` | src/util/Layout.js:190-201 | With no pending change or shift, `_executeShifts` moves nothing. |
| `TreeLayoutFixture.FixtureFirstWalk` | src/util/Layout.js:102-128 | On the test tree the first walk places `1-1` at x 1 with mod -0.5, threads `1-0` to `2-0` with mod -0.5, and puts the root at 0.5. |
| `TreeLayoutFixture.FixturePlacement` | src/util/Layout.js:41-43 | After the second walk the x values are 0.5, 0, 1, -0.5, 0.5, 1.5, 2.5, and the least of them is -0.5. |
| `TreeLayoutFixture.FixtureLayout` | src/util/Layout.js:41-49 | The third walk raises every x by 0.5, and `layout()` returns the expected entries. |
| `TreeLayoutFixture.FixtureEntries` | test/util/Layout.test.js:26-62 | On the test tree `calc()` succeeds and returns exactly seven entries. The x values are 1, 0.5, 1.5, 0, 1, 2, 3 and the y values 0, 1, 1, 2, 2, 2, 2, for ids `0-0, 1-0, 1-1, 2-0..2-3`. |
| `Validator.DataTypes` | src/core/Validator.js:25-26 | A missing `dataTypes` reads as `undefined`. An array is read element by element. |
| `Validator.Endpoints` | src/core/Validator.js:4-22 | The check continues exactly when both nodes and both ports exist, the from-port is not an input and the to-port is not an output. |
| `Validator.IsConnectable` | src/core/Validator.js:3-46 | As written: false when a node or port is missing or a role is wrong. It throws when `dataTypes` is missing where the loop reads it. Otherwise it is true exactly when the to-list is non-empty and some `from[i]` meets `to[i]` at the same index (a missing `to[i]` matches only a from-type of 'any'). |
| `Validator.IsConnectableIntended` | src/core/Validator.js:3-46 | With `toDataTypes[j]`: the same guards, and true exactly when some from-type meets some to-type. |
| `Validator.IntendedMeaning` | src/core/Validator.js:29-39 | The intended test holds exactly when the lists share a type, or one side offers 'any' while the other side is non-empty. |
| `Validator.AsWrittenWithinIntended` | src/core/Validator.js:29-39 | As written, 'any' among the from-types connects to any non-empty to-list. Every match as written is also a match of the intended test. |
| `Validator.AsWrittenMissesSharedType` | src/core/Validator.js:33 | From `["number", "string"]` to `["string"]`: the code as written refuses the pair, while the intended test accepts it. |
| `EventBus.On` | src/core/EventBus.js:5-16 | `on` appends one listener at the end of that type's list, with the bus as context when none is given. Every other type is unchanged. |
| `EventBus.KeepMembers` | src/core/EventBus.js:27-34 | The filter keeps exactly the listeners that do not match the callback (and the context, when one is given). |
| `EventBus.SpliceDown` | src/core/EventBus.js:27-34 | The backwards splice loop gives exactly the order-preserving filter of the list. |
| `EventBus.Off` | src/core/EventBus.js:18-38 | Without a callback, `off` drops the type. With one, it leaves the type's list filtered, survivors in their order. Other types are unchanged. |
| `EventBus.OffNothing` | src/core/EventBus.js:19-22 | `off` on a bus that registered nothing leaves it empty. |
| `EventBus.OffUndoesOn` | src/core/EventBus.js:5-38 | A matching `off` restores a type's list after `on`, when nothing in that list matched before. |
| `EventBus.KeepNone` | src/core/EventBus.js:27-34 | When no listener matches, `off` leaves the list as it was. |
| `EventBus.Emit` | src/core/EventBus.js:40-66 | It throws exactly when the event or its type is missing or empty. Otherwise it calls the type's listeners from the last registered to the first and calls none when the event was already cancelled. It stops right after the first listener that cancels, and reports the event cancelled exactly when it was before or some call cancelled it. |
| `CommonUtil.Initial` | src/util/CommonUtil.js:3 | The counter starts at 1 and no object has an id. |
| `CommonUtil.Stamp` | src/util/CommonUtil.js:7-10 | The returned id is the one stored on the object. A non-zero id is kept and nothing changes. Otherwise the object gets the counter, which advances by one. No other object's id changes. |
| `CommonUtil.StampIssued` | src/util/CommonUtil.js:7-10 | Stamping keeps every id positive, below the counter and unique. A fresh object's id exceeds every earlier one. |
| `CommonUtil.StampIdempotent` | src/util/CommonUtil.js:8 | A second stamp of the same object returns the same id and changes nothing. |
| `CommonUtil.StampAll` | src/util/CommonUtil.js:7-10 | Stamping objects in turn gives exactly those objects an entry and keeps every id already set. Once the counter has started, each returned id is the one its object carries at the end. |
| `CommonUtil.StampFresh` | src/util/CommonUtil.js:3-10 | Distinct fresh objects receive consecutive, strictly increasing ids starting at the counter, so the first object ever stamped gets 1. |
| `Values.Assign` | src/core/Node.js:8-22 | `Object.assign` over defaults: the result has both key sets. The caller's value wins, and defaults the caller does not name stay. |
| `Flows.NewFlow` | src/core/Flow.js:14-15 | A new flow has counter 1 and no nodes. |
| `Nodes.NewNode` | src/core/Node.js:5-23 | A caller option overrides the default of the same name, key by key. Every default not named by the caller stays, and the node has no id or position yet. |
| `Nodes.AddToFlow` | src/core/Node.js:25-47 | It throws exactly when the flow is missing or lacks its node map or graph. It throws exactly when the node already has a truthy id. Otherwise the node takes the pre-incremented counter as id, is stored under it at position `(x, y)`, and every other node is kept. |
| `Nodes.AddAllIds` | src/core/Node.js:38-43 | Nodes added one after another receive consecutive ids after the counter. The ids are strictly increasing and each node is stored under its own id at its own position. Earlier nodes stay unless one shares an id just handed out. |
| `Nodes.FirstNodeId` | src/core/Node.js:38 | In a new flow, the first node added gets id 2. |
| `Ports.NewPort` | src/core/Port.js:3-17 | A caller option wins over the default of the same name. Every other default stays, and the port has no links, node or id. |
| `Ports.NewPortDefaults` | src/core/Port.js:3-25 | A fresh port is an input and not optional, unless the options say otherwise, and it is not connected. |
| `Ports.GetType` | src/core/Port.js:19-21 | `getType()` returns the stored `type` option, or `undefined` when there is none. |
| `Ports.IsOptional` | src/core/Port.js:23-25 | `isOptional()` returns the stored `optional` option, or `undefined` when there is none. |
| `Ports.IsConnected` | src/core/Port.js:27-29 | A port is connected exactly when its link list is non-empty. |
| `Ports.AddToNode` | src/core/Port.js:31-47 | It throws exactly when the port already has a node. Otherwise the port takes `idInNode` as id, records node and anchor, and is stored under that id in the node's port map. Every other port is kept. |
| `Ports.MouseDown` | src/core/Port.js:86-108 | A non-left button, or a port whose `type` is the string `'input'`, emits nothing. Otherwise it emits `portMouseDown` with the node id, port id and position; a detached port fails instead. |
| `Ports.DefaultPortSilent` | src/core/Port.js:3-9 | A port built with default options never emits on mouse-down. |
| `Links.NewLink` | src/core/Link.js:5-18 | The constructor stores the four endpoint ids unchanged. Caller options win over the defaults, and the link has no id and no flow. |
| `Links.Digits` | src/core/Link.js:32 | A non-negative number prints as a non-empty string of decimal digits, with one digit exactly for numbers below 10. |
| `Links.Decimal` | src/core/Link.js:32 | An integer prints without ':', and starts with '-' exactly when it is negative. |
| `Links.DecimalInjective` | src/core/Link.js:32 | Different integers print differently. |
| `Links.KeyInjective` | src/core/Link.js:32 | The id `from:fromPort-to:toPort` determines all four endpoints, provided the from-port id contains no ':' and the to-node id is not negative. |
| `Links.KeyCollision` | src/core/Link.js:32 | With a ':' in a port id, two different connections print the same id: `Key(1,"a-2:x",3,"y") == Key(1,"a",2,"x-3:y")`. |
| `Links.KeyCollisionNegative` | src/core/Link.js:32 | With a negative to-node id, two different connections print the same id: `Key(1,"p-",5,"q") == Key(1,"p",-5,"q")`. |
| `Links.SplitAtLast` | src/core/Link.js:32 | Cutting a string at the last occurrence of a separator recovers both parts; this is how the id's '-' before the to-node id is read back. |
| `Links.AddToFlow` | src/core/Link.js:24-43 | It throws exactly when the link is already in a flow. Otherwise the link's id is its endpoint string, it is stored under that id, and every other entry is kept. One `nodeMove` and one `linkEstablished` listener is appended, with the link as context. Every other listener type, the nodes and the counter are unchanged. |
| `Links.Remove` | src/core/Link.js:128-140 | It deletes only the link's own key from the link map. It removes exactly that link's two listeners and leaves all other listeners and types as they were. |
| `Links.RemoveUndoesAdd` | src/core/Link.js:24-43 | When the id was free and no listener of that link was registered, removing a just-added link restores the link map and every listener list. |
| `Links.UnregisterUndoesRegister` | src/core/Link.js:120-134 | Taking a link's two listeners off restores every list, when none of them was registered before. |
| `Links.OnLinkEstablished` | src/core/Link.js:153-169 | A link removes itself, with the full effect of `_remove()`, exactly when it has another id but the same to-node and to-port as the new link. Otherwise the flow is returned unchanged. |
| `Links.EstablishAllEffect` | src/core/Link.js:165-168 | After every link hears the event, exactly the displaced links are gone and every other entry is kept unchanged. |
| `Links.OneLinkPerInput` | src/core/Link.js:165-168 | After a `linkEstablished` event, the only link left on its input port is the new one. |
| `Links.OnNodeMove` | src/core/Link.js:142-151 | A node move redraws the link exactly when the moved node is one of its endpoints and both endpoint nodes are in the flow. This covers the guard of `_ensureShape` at lines 84-86. |

## Left out

- Layout errors:
  - `TreeLayout.Apportion` returns `MissingContour` where a contour cursor of `_apportion` would hold the number 0 instead of a node (what `_left()`/`_right()` return for a leaf without a thread, src/util/Layout.js:51-57). The source then calls `vol._left()` on it (lines 146 and 169), a TypeError in any mode, or assigns `vor._ancestor` (line 149), a TypeError in strict module code. Reading `(0)._mod` at line 161 alone would only turn `sol` into NaN; the model fails at the call or the assignment that follows.
  - It returns `NonFiniteShift` where `_moveSubtree` would divide by `wr._number - wl._number == 0`. JavaScript does not throw there; it goes on with infinite or NaN coordinates, which the model does not represent.
  - `TreeLayoutSuccess.CalcSucceeds` proves that neither error happens on a tree the constructor built.
- `TreeLayout.FirstWalk` and `TreeLayout.FirstWalkKids`: their contracts keep only link validity, and `TreeLayoutSuccess.FirstWalkOk` adds success and contour depth. The algorithm's separation guarantee (neighbouring subtrees at least one unit apart) is not proved. It would need an invariant on the x values along the contours, and the model's contracts track only their shape.
- `TreeLayout.Apportion`: it states that only `v` moves, and only to the right, that the links stay valid, and which default ancestor it returns. It does not state the per-level separation `_apportion` exists for: at every depth the two sides share, `v`'s left contour ends at least one unit right of the left siblings' right contour. Proving that needs the same x-value invariant, over the contour sums `sil`, `sir`, `sol` and `sor`, which the model does not carry.
- `_getLmostSibling`: its cache is not modelled. A node's children never change after construction, so the cached and the recomputed value agree.
- Drawing code is not modelled. It is browser DOM and SVG output with nothing to state:
  - `_initGraph`, `_updatePos`, `_updateSelected` and `_updateSize` of every class;
  - the selection and hover handlers (`Link.unselect`, `Link._onGraphClick`, `Port._onGraphMouseOver`, `Port._onGraphMouseOut`), which only restyle and emit an event;
  - `_addListeners` of Port;
  - the path geometry of `Link._ensureShape` (`Math.hypot`, path strings).
- `src/core/Temp.js` is not modelled. It handles dragging driven by mouse events.
- `src/protocol/JsonReceiver.js` is not modelled. It wraps `JSON.parse` and calls methods that no shown file defines.
- `src/util/DomUtil.js` and `rollup.config.js` are not modelled (DOM helpers and build configuration).
- `Flow.connect`, `getNode`, `getPort`, snapping and node removal are not defined in the shown files. `getNode` and `getPort` are modelled as map lookups.
- `Validator.IsConnectable`: JavaScript's loose `==` is modelled only between strings. Other coercions (`1 == '1'`, or a one-element array such as `["input"]` equal to `'input'`) are out of scope. It only reads its arguments: as a method over values it cannot change the flow, which the signature states rather than an `ensures`.
- `Ports.MouseDown`: the test `this._options.type == 'input'` (src/core/Port.js:94) is loose, so a `type` of `["input"]` also counts as an input there and the click emits nothing. The model compares with `Str("input")` only, so for `Strs(["input"])` it emits `portMouseDown`; other coercions are left out as for `Validator.IsConnectable`.
- `EventBus.Emit`: a listener is reduced to whether it calls `event.cancel()`. Listeners that register or remove listeners during an emit are not modelled, and neither are the event's `data` payload and `emit`'s return value.
- `Ports.AddToNode`: src/core/Node.js never creates `_ports`, so with a node built there the write `node._ports[id] = this` (src/core/Port.js:38) throws a TypeError on `undefined`. The model starts every node with an empty port map and lets the call succeed, because Port.js evidently expects the map to exist.
- `Validator.DataTypes`: a string `dataTypes` is split into Dafny characters, which are Unicode scalar values. JavaScript's `.length` and `[i]` count UTF-16 code units, so a string with a character outside the Basic Multilingual Plane splits differently.
- Numbers are unbounded rationals (`real`, `int`). JavaScript's floating point, NaN and 2^53 limit are not modelled. Neither is the wrap of the stamp and node counters, which cannot be reached in practice.

## Findings

| source | as written | input that shows it | evidently intended | confidence | as-written member | corrected member |
|---|---|---|---|---|---|---|
| src/core/Validator.js:33 | The inner loop over `j` reads `toDataTypes[i]`, so each from-type is compared only with the to-type at the same index. | from-port `dataTypes: ["number", "string"]`, to-port `dataTypes: ["string"]`: no link is allowed although both sides accept "string". | `toDataTypes[j]`: allow the link when any from-type meets any to-type (or either side offers 'any'). | not executed | `Validator.IsConnectable`, shown by `Validator.AsWrittenMissesSharedType` | `Validator.IsConnectableIntended`, characterised by `Validator.IntendedMeaning` |

=== FILE: common_util.dfy ===
/** `CommonUtil.stamp` (src/util/CommonUtil.js): give an object a numeric id, stored in
    its `__fm_id__` property, drawn from a module-wide counter that starts at 1. Objects
    are named by handles; the property each carries is a map entry. */
module CommonUtil {

  /** The counter `_stampId` and the `__fm_id__` property of every object that has one. */
  datatype Stamps = Stamps(next: int, ids: map<nat, int>)

  /** The module state before anything is stamped. */
  function Initial(): (s: Stamps)
    ensures s.next == 1 && s.ids == map[]
    ensures Issued(s)
  {
    Stamps(1, map[])
  }

  /** Every stored id came from the counter: positive, below the counter, and no two
      objects share one. */
  ghost predicate Issued(s: Stamps) {
    && s.next >= 1
    && (forall o | o in s.ids :: 1 <= s.ids[o] < s.next)
    && (forall o1, o2 | o1 in s.ids && o2 in s.ids && o1 != o2 :: s.ids[o1] != s.ids[o2])
  }

  /** `stamp(obj)`: keep a truthy (non-zero) id, otherwise take the counter and advance
      it. Returns the new state and the id now stored on the object. */
  function Stamp(s: Stamps, obj: nat): (r: (Stamps, int))
    ensures obj in r.0.ids && r.0.ids[obj] == r.1
    ensures obj in s.ids && s.ids[obj] != 0 ==> r == (s, s.ids[obj])
    ensures !(obj in s.ids && s.ids[obj] != 0) ==>
              r.1 == s.next && r.0.next == s.next + 1
    ensures forall o | o in s.ids && o != obj :: o in r.0.ids && r.0.ids[o] == s.ids[o]
    ensures r.0.ids.Keys == s.ids.Keys + {obj}
  {
    if obj in s.ids && s.ids[obj] != 0 then (s, s.ids[obj])
    else (Stamps(s.next + 1, s.ids[obj := s.next]), s.next)
  }

  /** The empty state is well formed, and stamping keeps it so. A fresh object's id is
      larger than, hence different from, every id given out before. */
  lemma {:induction false} StampIssued(s: Stamps, obj: nat)
    requires Issued(s)
    ensures Issued(Stamp(s, obj).0)
    ensures obj !in s.ids ==> forall o | o in s.ids :: s.ids[o] < Stamp(s, obj).1
  {
    var r := Stamp(s, obj);
    if obj !in s.ids || s.ids[obj] == 0 {
      assert obj !in s.ids;
      forall o1, o2 | o1 in r.0.ids && o2 in r.0.ids && o1 != o2
        ensures r.0.ids[o1] != r.0.ids[o2]
      {
        if o1 != obj && o2 != obj {
          assert r.0.ids[o1] == s.ids[o1] && r.0.ids[o2] == s.ids[o2];
        }
      }
    }
  }

  /** Stamping is idempotent: a second stamp returns the same id and changes nothing. */
  lemma {:induction false} StampIdempotent(s: Stamps, obj: nat)
    requires Issued(s)
    ensures var (s1, id) := Stamp(s, obj); Stamp(s1, obj) == (s1, id)
  {
    var (s1, id) := Stamp(s, obj);
    StampIssued(s, obj);
    assert id >= 1;
  }

  /** Stamp the objects in order, collecting the ids. Exactly the given objects gain an
      entry, every id already set stays, and, once the counter has started, each returned
      id is the one the object carries at the end. */
  function StampAll(s: Stamps, objs: seq<nat>): (r: (Stamps, seq<int>))
    ensures |r.1| == |objs|
    ensures r.0.ids.Keys == s.ids.Keys + (set k | 0 <= k < |objs| :: objs[k])
    ensures forall o | o in s.ids && s.ids[o] != 0 :: r.0.ids[o] == s.ids[o]
    ensures s.next >= 1 ==> s.next <= r.0.next
    ensures s.next >= 1 ==> forall k | 0 <= k < |objs| :: r.0.ids[objs[k]] == r.1[k]
    decreases |objs|
  {
    if objs == [] then (s, [])
    else
      var (s1, id) := Stamp(s, objs[0]);
      var (s2, ids) := StampAll(s1, objs[1..]);
      assert (set k | 0 <= k < |objs| :: objs[k]) == {objs[0]} + (set k | 0 <= k < |objs[1..]| :: objs[1..][k]);
      (s2, [id] + ids)
  }

  /** Distinct objects never stamped before receive the consecutive counter values, so
      their ids are strictly increasing and pairwise distinct; the first object ever
      stamped gets 1. */
  lemma {:induction false} StampFresh(s: Stamps, objs: seq<nat>)
    requires Issued(s)
    requires forall k | 0 <= k < |objs| :: objs[k] !in s.ids
    requires forall i, j | 0 <= i < j < |objs| :: objs[i] != objs[j]
    ensures Issued(StampAll(s, objs).0)
    ensures StampAll(s, objs).0.next == s.next + |objs|
    ensures forall k | 0 <= k < |objs| :: StampAll(s, objs).1[k] == s.next + k
    decreases |objs|
  {
    if objs != [] {
      var (s1, id) := Stamp(s, objs[0]);
      StampIssued(s, objs[0]);
      assert forall k | 1 <= k < |objs| :: objs[1..][k - 1] == objs[k];
      StampFresh(s1, objs[1..]);
    }
  }
}

=== FILE: event_bus.dfy ===
/** The listener registry of src/core/EventBus.js: per event type, the listeners in
    registration order. Callbacks are named by handles and compared by handle, as `===`
    compares functions; what a callback does is reduced to whether it cancels the event. */
module EventBus {
  import opened Results

  /** The object a callback is called on: the bus itself, or another object. */
  datatype Context = TheBus | Obj(handle: nat)

  datatype Listener = Listener(callback: nat, context: Context)

  /** The `__fm_listeners__` object. A bus that never registered anything has none,
      which behaves as the empty map everywhere. */
  type Listeners = map<string, seq<Listener>>

  /** `allListeners[type] || []`. */
  function ListOf(b: Listeners, typ: string): seq<Listener> {
    if typ in b then b[typ] else []
  }

  /** `on(type, callback, context)`: append one listener at the end of the type's list;
      without a context the listener is called on the bus itself. */
  function On(b: Listeners, typ: string, callback: nat, context: Option<Context>): (r: Listeners)
    ensures typ in r
    ensures |r[typ]| == |ListOf(b, typ)| + 1 && r[typ][..|ListOf(b, typ)|] == ListOf(b, typ)
    ensures r[typ][|ListOf(b, typ)|] == Listener(callback, if context.Some? then context.value else TheBus)
    ensures forall t | t in b && t != typ :: t in r && r[t] == b[t]
    ensures r.Keys == b.Keys + {typ}
  {
    var ls := ListOf(b, typ) + [Listener(callback, if context.Some? then context.value else TheBus)];
    assert ls[..|ListOf(b, typ)|] == ListOf(b, typ);
    b[typ := ls]
  }

  /** The removal test of `off`: same callback and, when a context is given, the same
      context. */
  predicate Matches(l: Listener, callback: nat, context: Option<Context>) {
    l.callback == callback && (context.None? || l.context == context.value)
  }

  /** Reference definition: the listeners that do not match, in their original order. */
  function Keep(ls: seq<Listener>, callback: nat, context: Option<Context>): (r: seq<Listener>)
    ensures |r| <= |ls|
  {
    if ls == [] then []
    else if Matches(ls[0], callback, context) then Keep(ls[1..], callback, context)
    else [ls[0]] + Keep(ls[1..], callback, context)
  }

  /** `Keep` removes exactly the matching listeners. */
  lemma {:induction false} KeepMembers(ls: seq<Listener>, callback: nat, context: Option<Context>, l: Listener)
    ensures l in Keep(ls, callback, context) <==> l in ls && !Matches(l, callback, context)
    decreases |ls|
  {
    if ls != [] {
      assert ls == [ls[0]] + ls[1..];
      KeepMembers(ls[1..], callback, context, l);
    }
  }

  lemma {:induction false} KeepSnoc(ls: seq<Listener>, l: Listener, callback: nat, context: Option<Context>)
    ensures Keep(ls + [l], callback, context)
         == Keep(ls, callback, context) + (if Matches(l, callback, context) then [] else [l])
    decreases |ls|
  {
    if ls == [] {
      assert ls + [l] == [l];
      assert [l][1..] == [];
    } else {
      assert (ls + [l])[1..] == ls[1..] + [l];
      KeepSnoc(ls[1..], l, callback, context);
    }
  }

  /** The loop of `off`: from index `i` down to 0, splice out every matching listener.
      It leaves the untouched suffix in place and filters the prefix. */
  function SpliceDown(ls: seq<Listener>, i: int, callback: nat, context: Option<Context>): (r: seq<Listener>)
    requires -1 <= i < |ls|
    ensures r == Keep(ls[..i + 1], callback, context) + ls[i + 1..]
    decreases i + 1
  {
    if i < 0 then
      assert ls[..0] == [];
      ls
    else if Matches(ls[i], callback, context) then
      SpliceRemoved(ls, i, callback, context);
      SpliceDown(ls[..i] + ls[i + 1..], i - 1, callback, context)
    else
      SpliceKept(ls, i, callback, context);
      SpliceDown(ls, i - 1, callback, context)
  }

  /** One step of the loop when `listeners[i]` matches and is spliced out. */
  lemma {:induction false} SpliceRemoved(ls: seq<Listener>, i: nat, callback: nat, context: Option<Context>)
    requires i < |ls| && Matches(ls[i], callback, context)
    ensures var ls1 := ls[..i] + ls[i + 1..];
            Keep(ls1[..i], callback, context) + ls1[i..] == Keep(ls[..i + 1], callback, context) + ls[i + 1..]
  {
    var ls1 := ls[..i] + ls[i + 1..];
    assert ls1[..i] == ls[..i];
    assert ls1[i..] == ls[i + 1..];
    assert ls[..i + 1] == ls[..i] + [ls[i]];
    KeepSnoc(ls[..i], ls[i], callback, context);
  }

  /** One step of the loop when `listeners[i]` stays. */
  lemma {:induction false} SpliceKept(ls: seq<Listener>, i: nat, callback: nat, context: Option<Context>)
    requires i < |ls| && !Matches(ls[i], callback, context)
    ensures Keep(ls[..i], callback, context) + ls[i..] == Keep(ls[..i + 1], callback, context) + ls[i + 1..]
  {
    assert ls[i..] == [ls[i]] + ls[i + 1..];
    assert ls[..i + 1] == ls[..i] + [ls[i]];
    KeepSnoc(ls[..i], ls[i], callback, context);
  }

  /** `off(type, callback, context)`: without a callback drop the whole type; otherwise
      remove the matching listeners of that type, the others keeping their order. */
  function Off(b: Listeners, typ: string, callback: Option<nat>, context: Option<Context>): (r: Listeners)
    ensures callback.None? ==> typ !in r && r.Keys == b.Keys - {typ}
    ensures callback.Some? ==> r.Keys == b.Keys && ListOf(r, typ) == Keep(ListOf(b, typ), callback.value, context)
    ensures forall t | t in b && t != typ :: t in r && r[t] == b[t]
  {
    if callback.None? then b - {typ}
    else if typ in b then
      var ls := b[typ];
      assert ls[..|ls|] == ls;
      b[typ := SpliceDown(ls, |ls| - 1, callback.value, context)]
    else
      b
  }

  /** `off` on a bus that registered nothing leaves it so. */
  lemma {:induction false} OffNothing(typ: string, callback: Option<nat>, context: Option<Context>)
    ensures Off(map[], typ, callback, context) == map[]
  {
    assert Off(map[], typ, callback, context).Keys == {};
  }

  /** `on` followed by the matching `off` restores the type's list, when no listener of
      that type matched before. */
  lemma {:induction false} OffUndoesOn(b: Listeners, typ: string, callback: nat, context: Option<Context>)
    requires forall k | 0 <= k < |ListOf(b, typ)| :: !Matches(ListOf(b, typ)[k], callback, context)
    ensures ListOf(Off(On(b, typ, callback, context), typ, Some(callback), context), typ) == ListOf(b, typ)
  {
    var ls := ListOf(b, typ);
    var l := Listener(callback, if context.Some? then context.value else TheBus);
    var b1 := On(b, typ, callback, context);
    assert b1[typ] == ls + [l];
    KeepSnoc(ls, l, callback, context);
    KeepNone(ls, callback, context);
  }

  /** Filtering a list in which nothing matches returns it unchanged. */
  lemma {:induction false} KeepNone(ls: seq<Listener>, callback: nat, context: Option<Context>)
    requires forall k | 0 <= k < |ls| :: !Matches(ls[k], callback, context)
    ensures Keep(ls, callback, context) == ls
    decreases |ls|
  {
    if ls != [] {
      var tl := ls[1..];
      forall k | 0 <= k < |tl|
        ensures !Matches(tl[k], callback, context)
      {
        assert tl[k] == ls[k + 1];
      }
      KeepNone(tl, callback, context);
      assert !Matches(ls[0], callback, context);
      assert Keep(ls, callback, context) == [ls[0]] + tl;
      assert [ls[0]] + tl == ls;
    }
  }

  /** The argument of `emit`: its `type`, if any, and whether `cancel()` was already
      called on it. */
  datatype Event = Event(typ: Option<string>, cancelled: bool)

  datatype BusError = NotAnEvent

  /** `emit(event)`: throw unless there is an event with a (non-empty) type; otherwise
      call the type's listeners from the last registered to the first, stopping as soon
      as the event is cancelled. `cancels` tells whether a listener calls `event.cancel()`.
      Returns the listeners called, in call order, and whether the event ends cancelled. */
  method Emit(b: Listeners, event: Option<Event>, cancels: Listener -> bool)
    returns (r: Result<(seq<Listener>, bool), BusError>)
    ensures r.Failure? <==> event.None? || event.value.typ.None? || event.value.typ.value == ""
    ensures r.Success? ==>
              var calls := r.value.0;
              var ls := ListOf(b, event.value.typ.value);
              && |calls| <= |ls|
              && (forall k | 0 <= k < |calls| :: calls[k] == ls[|ls| - 1 - k])
              && (forall k | 0 <= k < |calls| - 1 :: !cancels(calls[k]))
              && (event.value.cancelled ==> calls == [])
              && (!event.value.cancelled && |calls| < |ls| ==> 0 < |calls| && cancels(calls[|calls| - 1]))
              && (r.value.1 <==> event.value.cancelled || exists k | 0 <= k < |calls| :: cancels(calls[k]))
  {
    if event.None? || event.value.typ.None? || event.value.typ.value == "" {
      return Failure(NotAnEvent);
    }
    var ls := ListOf(b, event.value.typ.value);
    var calls: seq<Listener> := [];
    var cancelled := event.value.cancelled;
    var i := |ls| - 1;
    while i >= 0
      invariant -1 <= i < |ls|
      invariant |calls| == |ls| - 1 - i
      invariant forall k | 0 <= k < |calls| :: calls[k] == ls[|ls| - 1 - k]
      invariant forall k | 0 <= k < |calls| - 1 :: !cancels(calls[k])
      invariant event.value.cancelled ==> calls == []
      invariant cancelled && !event.value.cancelled ==> 0 < |calls| && cancels(calls[|calls| - 1])
      invariant cancelled <==> event.value.cancelled || exists k | 0 <= k < |calls| :: cancels(calls[k])
    {
      if cancelled {
        break;
      }
      calls := calls + [ls[i]];
      if cancels(ls[i]) {
        cancelled := true;
      }
      i := i - 1;
    }
    return Success((calls, cancelled));
  }
}

=== FILE: flow.dfy ===
/** The objects of a flow diagram as the registries see them. A Flow owns a node map keyed
    by numeric id (`_nodes`), a link map keyed by the link's string id (`_links`), the
    id counter `_idSeq` and the listener registry of its event bus. Nodes and links are
    values here; a link is named by a handle when it must be told apart as a listener
    context. */
module Flows {
  import opened Results
  import opened Values
  import opened Ports
  import opened EventBus

  /** `_options`, `_id`, the position `(_x, _y)` and the port map `_ports`. */
  datatype Node = Node(options: Options, id: Option<int>, pos: Option<(real, real)>, ports: map<string, Port>)

  /** The four endpoint ids, `_options`, `_id` and whether `_flow` is set. */
  datatype Link = Link(handle: nat, fromNode: int, fromPort: string, toNode: int, toPort: string,
                       options: Options, id: Option<string>, inFlow: bool)

  /** `hasNodes` and `hasGraph` say whether the `_nodes` and `_graph` properties are set. */
  datatype Flow = Flow(hasNodes: bool, hasGraph: bool, idSeq: int, nodes: map<int, Node>,
                       links: map<string, Link>, bus: Listeners)

  /** A flow as its constructor leaves it: counter 1, no nodes, no links, no listeners. */
  function NewFlow(): (f: Flow)
    ensures f.hasNodes && f.hasGraph
    ensures f.idSeq == 1 && f.nodes == map[] && f.links == map[] && f.bus == map[]
  {
    Flow(true, true, 1, map[], map[], map[])
  }
}

=== FILE: layout.dfy ===
/** The tidy-tree layout of src/util/Layout.js: Walker's algorithm in the linear-time
    form of Buchheim, Juenger and Leipert. The arena of `LayoutTree` objects is split in
    two: the static `Shape` (module LayoutTree) and the sequence of mutable `Cell`s,
    one per node, that the three walks update. Coordinates are exact rationals. */
module TreeLayout {
  import opened Results
  import opened LayoutTree

  /** The `distance` of `_firstWalk` and `_apportion`; every call uses the default 1. */
  const Distance: real := 1.0

  /** The mutable fields of one LayoutTree object. `thread` and `ancestor` are arena indices. */
  datatype Cell = Cell(x: real, y: int, thread: Option<nat>, mod: real, ancestor: nat, change: real, shift: real)

  /** One entry of the list `calc()` returns. */
  datatype Position = Position(id: string, x: real, y: int)

  /** The two ways the walk can go wrong. `MissingContour`: a contour cursor of
      `_apportion` would hold the number 0 (what `_left`/`_right` return for a leaf
      without a thread) and the source would then call `_left()` on it, a TypeError,
      or assign its `_ancestor`, a TypeError in strict module code.
      `NonFiniteShift`: `_moveSubtree` would divide by `wr._number - wl._number == 0`. */
  datatype LayoutError = MissingContour | NonFiniteShift

  ghost predicate CellOk(sh: Shape, cs: seq<Cell>, i: nat)
    requires |cs| == |sh| && i < |cs|
  {
    && (cs[i].thread.Some? ==> cs[i].thread.value < |sh| && sh[cs[i].thread.value].depth == sh[i].depth + 1)
    && cs[i].ancestor < |sh|
  }

  /** Cells for every node; threads lead one level down, ancestors are arena nodes. */
  ghost predicate CellsValid(sh: Shape, cs: seq<Cell>) {
    && |cs| == |sh|
    && forall i | 0 <= i < |cs| :: CellOk(sh, cs, i)
  }

  /** Writing fields other than `thread` and `ancestor` keeps the cells valid. */
  lemma {:induction false} SameLinks(sh: Shape, cs: seq<Cell>, r: seq<Cell>)
    requires CellsValid(sh, cs) && |r| == |cs|
    requires forall u | 0 <= u < |cs| :: r[u].thread == cs[u].thread && r[u].ancestor == cs[u].ancestor
    ensures CellsValid(sh, r)
  {
    assert forall u | 0 <= u < |r| :: CellOk(sh, cs, u) && CellOk(sh, r, u);
  }

  /** Replacing one cell by a cell whose links are valid keeps the cells valid. */
  lemma {:induction false} UpdateValid(sh: Shape, cs: seq<Cell>, u: nat, c: Cell)
    requires CellsValid(sh, cs) && u < |cs|
    requires c.thread.Some? ==> c.thread.value < |sh| && sh[c.thread.value].depth == sh[u].depth + 1
    requires c.ancestor < |sh|
    ensures CellsValid(sh, cs[u := c])
  {
    var r := cs[u := c];
    forall k | 0 <= k < |r|
      ensures CellOk(sh, r, k)
    {
      if k != u {
        assert CellOk(sh, cs, k);
      }
    }
  }

  /** The field values the constructor gives every node. */
  function InitCells(sh: Shape): (cs: seq<Cell>)
    ensures CellsValid(sh, cs)
    ensures forall i | 0 <= i < |cs| :: cs[i] == Cell(-1.0, sh[i].depth, None, 0.0, i, 0.0, 0.0)
  {
    var cs := seq(|sh|, i requires 0 <= i < |sh| => Cell(-1.0, sh[i].depth, None, 0.0, i, 0.0, 0.0));
    assert forall i | 0 <= i < |cs| :: CellOk(sh, cs, i);
    cs
  }

  /** An upper bound of every depth; the contour walk of `_apportion` descends towards it. */
  function MaxDepth(sh: Shape): (m: nat)
    ensures forall k | 0 <= k < |sh| :: sh[k].depth <= m
  {
    if sh == [] then 0
    else
      var m := MaxDepth(sh[1..]);
      assert forall k | 1 <= k < |sh| :: sh[k] == sh[1..][k - 1];
      if sh[0].depth > m then sh[0].depth else m
  }

  /** `_left()`: the thread if there is one, else the first child. */
  function Left(sh: Shape, cs: seq<Cell>, v: nat): (r: Option<nat>)
    requires Valid(sh) && CellsValid(sh, cs) && v < |sh|
    ensures r.Some? ==> r.value < |sh| && sh[r.value].depth == sh[v].depth + 1
    ensures r.None? <==> cs[v].thread.None? && sh[v].children == []
  {
    assert CellOk(sh, cs, v);
    if cs[v].thread.Some? then cs[v].thread
    else if |sh[v].children| > 0 then ChildFacts(sh, v, 0); Some(sh[v].children[0])
    else None
  }

  /** `_right()`: the thread if there is one, else the last child. */
  function Right(sh: Shape, cs: seq<Cell>, v: nat): (r: Option<nat>)
    requires Valid(sh) && CellsValid(sh, cs) && v < |sh|
    ensures r.Some? ==> r.value < |sh| && sh[r.value].depth == sh[v].depth + 1
    ensures r.None? <==> cs[v].thread.None? && sh[v].children == []
  {
    assert CellOk(sh, cs, v);
    if cs[v].thread.Some? then cs[v].thread
    else if |sh[v].children| > 0 then ChildFacts(sh, v, |sh[v].children| - 1); Some(sh[v].children[|sh[v].children| - 1])
    else None
  }

  /** Position of the first occurrence of `v` in `kids`, or `|kids|` when it is absent. */
  function FirstIndex(kids: seq<nat>, v: nat): (k: nat)
    ensures k <= |kids|
    ensures v !in kids[..k]
    ensures k < |kids| ==> kids[k] == v
  {
    if kids == [] then 0
    else if kids[0] == v then 0
    else
      var k := FirstIndex(kids[1..], v);
      assert kids[..k + 1] == [kids[0]] + kids[1..][..k];
      k + 1
  }

  /** The loop of `_lbrother()`: remember the previous sibling until `v` is met. */
  function ScanBrother(kids: seq<nat>, v: nat, i: nat, lb: Option<nat>): (r: Option<nat>)
    requires i <= |kids| && v !in kids[..i]
    requires lb == (if i == 0 then None else Some(kids[i - 1]))
    ensures r == (var k := FirstIndex(kids, v); if k == 0 then None else Some(kids[k - 1]))
    decreases |kids| - i
  {
    if i == |kids| then
      assert kids[..i] == kids;
      lb
    else if kids[i] == v then lb
    else
      assert kids[..i + 1] == kids[..i] + [kids[i]];
      ScanBrother(kids, v, i + 1, Some(kids[i]))
  }

  /** `_lbrother()`: the sibling just before `v`. The scan stops at the first sibling
      equal to `v`; should `v` be missing from its parent's list it ends on the last one. */
  function LBrother(sh: Shape, v: nat): (r: Option<nat>)
    requires Valid(sh) && v < |sh|
    ensures r == match sh[v].parent
                 case None => None
                 case Some(p) =>
                   if p < |sh| then
                     var k := FirstIndex(sh[p].children, v);
                     if k == 0 then None else Some(sh[p].children[k - 1])
                   else None
    ensures r.Some? ==> sh[v].parent.Some? && r.value != v && r.value < |sh|
                        && r.value in sh[sh[v].parent.value].children
  {
    match sh[v].parent
    case None => None
    case Some(p) =>
      ParentBefore(sh, v);
      ChildrenDistinct(sh, p);
      ScanBrother(sh[p].children, v, 0, None)
  }

  /** `_getLmostSibling()`: the parent's first child, unless that is `v` itself. The
      source caches the answer, but the children never change, so the cache is not
      modelled. */
  function LmostSibling(sh: Shape, v: nat): (r: Option<nat>)
    requires Valid(sh) && v < |sh|
    ensures r.Some? ==> sh[v].parent.Some? && sh[v].parent.value < v && r.value < |sh| && r.value != v
                        && |sh[sh[v].parent.value].children| > 0
                        && r.value == sh[sh[v].parent.value].children[0]
    ensures LBrother(sh, v).Some? ==> r.Some?
  {
    match sh[v].parent
    case None => None
    case Some(p) =>
      ParentBefore(sh, v);
      if |sh[p].children| > 0 && sh[p].children[0] != v then
        ChildFacts(sh, p, 0);
        Some(sh[p].children[0])
      else None
  }

  /** In a well-formed arena the left brother of a parent's `j`-th child is its `(j-1)`-th
      child, and the first child has none: the scan of `_lbrother()` finds each child at
      its own position because siblings are distinct. */
  lemma {:induction false} LBrotherOfChild(sh: Shape, p: nat, j: nat)
    requires Valid(sh) && p < |sh| && j < |sh[p].children|
    ensures sh[p].children[j] < |sh|
    ensures LBrother(sh, sh[p].children[j]) == if j == 0 then None else Some(sh[p].children[j - 1])
  {
    var kids := sh[p].children;
    ChildFacts(sh, p, j);
    ChildrenDistinct(sh, p);
    var k := FirstIndex(kids, kids[j]);
    assert k == j;
  }

  /** `_ancestor(vil, v, defaultAncestor)`: `vil`'s recorded ancestor when it is a sibling
      of `v`, otherwise the default ancestor. */
  function AncestorOf(sh: Shape, cs: seq<Cell>, vil: nat, v: nat, da: nat): (a: nat)
    requires Valid(sh) && CellsValid(sh, cs) && vil < |sh| && v < |sh| && da < |sh|
    ensures a < |sh|
    ensures sh[v].parent.Some? ==> sh[v].parent.value < v
    ensures sh[v].parent.Some? && cs[vil].ancestor in sh[sh[v].parent.value].children ==> a == cs[vil].ancestor
    ensures !(sh[v].parent.Some? && cs[vil].ancestor in sh[sh[v].parent.value].children) ==> a == da
  {
    assert CellOk(sh, cs, vil);
    match sh[v].parent
    case Some(p) =>
      ParentBefore(sh, v);
      if cs[vil].ancestor in sh[p].children then cs[vil].ancestor else da
    case None => da
  }

  /** `_moveSubtree(wl, wr, shift)`: move `wr` right by `shift` and spread the shift over
      the `wr._number - wl._number` subtrees between the two. */
  function MoveSubtree(sh: Shape, cs: seq<Cell>, wl: nat, wr: nat, shift: real): (r: seq<Cell>)
    requires |cs| == |sh| && wl < |sh| && wr < |sh|
    requires sh[wr].number != sh[wl].number
    ensures |r| == |cs|
    ensures var n := (sh[wr].number - sh[wl].number) as real;
            && r[wr] == cs[wr].(x := cs[wr].x + shift, mod := cs[wr].mod + shift,
                                shift := cs[wr].shift + shift, change := cs[wr].change - shift / n)
            && r[wl] == cs[wl].(change := cs[wl].change + shift / n)
    ensures forall u | 0 <= u < |cs| && u != wl && u != wr :: r[u] == cs[u]
    ensures r[wr].x - r[wr].mod == cs[wr].x - cs[wr].mod
    ensures r[wl].change + r[wr].change == cs[wl].change + cs[wr].change
  {
    var subtrees := (sh[wr].number - sh[wl].number) as real;
    var cs1 := cs[wr := cs[wr].(change := cs[wr].change - shift / subtrees)];
    var cs2 := cs1[wr := cs1[wr].(shift := cs1[wr].shift + shift)];
    var cs3 := cs2[wl := cs2[wl].(change := cs2[wl].change + shift / subtrees)];
    var cs4 := cs3[wr := cs3[wr].(x := cs3[wr].x + shift)];
    cs4[wr := cs4[wr].(mod := cs4[wr].mod + shift)]
  }

  /** Sum of the `change` fields of children `i..` (the `change` accumulator of
      `_executeShifts` once child `i` has been visited). */
  function ChangeFrom(cs: seq<Cell>, kids: seq<nat>, i: nat): real
    requires forall k | 0 <= k < |kids| :: kids[k] < |cs|
    decreases |kids| - i
  {
    if i >= |kids| then 0.0 else cs[kids[i]].change + ChangeFrom(cs, kids, i + 1)
  }

  /** The total shift `_executeShifts` applies to child `i`: for every child `j` to its
      right, that child's `shift` plus the `change`s of children `j..`. */
  function ShiftBefore(cs: seq<Cell>, kids: seq<nat>, i: nat): real
    requires forall k | 0 <= k < |kids| :: kids[k] < |cs|
    decreases |kids| - i
  {
    if i + 1 >= |kids| then 0.0
    else cs[kids[i + 1]].shift + ChangeFrom(cs, kids, i + 1) + ShiftBefore(cs, kids, i + 1)
  }

  /** Node `c` and, through `mod`, its whole subtree moved right by `d`. */
  function Moved(cs: seq<Cell>, c: nat, d: real): (r: seq<Cell>)
    requires c < |cs|
    ensures |r| == |cs| && r[c].x == cs[c].x + d && r[c].mod == cs[c].mod + d
    ensures r[c] == cs[c].(x := r[c].x, mod := r[c].mod)
    ensures forall u | 0 <= u < |cs| && u != c :: r[u] == cs[u]
  {
    cs[c := cs[c].(x := cs[c].x + d, mod := cs[c].mod + d)]
  }

  /** The loop of `_executeShifts` from child `i` down to child 0, with the running
      `shift` and `change` it carries. */
  function ShiftLoop(cs: seq<Cell>, kids: seq<nat>, i: int, shift: real, change: real): (r: seq<Cell>)
    requires -1 <= i < |kids|
    requires forall k | 0 <= k < |kids| :: kids[k] < |cs|
    ensures |r| == |cs|
    decreases i + 1
  {
    if i < 0 then cs
    else
      var c := kids[i];
      var cs1 := Moved(cs, c, shift);
      var change1 := change + cs1[c].change;
      ShiftLoop(cs1, kids, i - 1, shift + cs1[c].shift + change1, change1)
  }

  /** The loop writes only the `x` and `mod` of the children `kids[..i + 1]`. */
  lemma {:induction false} ShiftLoopFrame(cs: seq<Cell>, kids: seq<nat>, i: int, shift: real, change: real)
    requires -1 <= i < |kids|
    requires forall k | 0 <= k < |kids| :: kids[k] < |cs|
    ensures var r := ShiftLoop(cs, kids, i, shift, change);
            forall u | 0 <= u < |cs| && u !in kids[..i + 1] :: r[u] == cs[u]
    ensures var r := ShiftLoop(cs, kids, i, shift, change);
            forall u | 0 <= u < |cs| ::
              && r[u].thread == cs[u].thread && r[u].ancestor == cs[u].ancestor
              && r[u].change == cs[u].change && r[u].shift == cs[u].shift
    decreases i + 1
  {
    if i >= 0 {
      var c := kids[i];
      var cs1 := Moved(cs, c, shift);
      var change1 := change + cs1[c].change;
      ShiftLoopFrame(cs1, kids, i - 1, shift + cs1[c].shift + change1, change1);
      assert kids[..i + 1] == kids[..i] + [c];
    }
  }

  /** One pass of the loop, with the accumulators it hands on. */
  lemma {:induction false} ShiftLoopUnfold(cs: seq<Cell>, kids: seq<nat>, i: nat, shift: real, change: real, cs1: seq<Cell>, change1: real)
    requires i < |kids|
    requires forall k | 0 <= k < |kids| :: kids[k] < |cs|
    requires cs1 == Moved(cs, kids[i], shift) && change1 == change + cs1[kids[i]].change
    ensures ShiftLoop(cs, kids, i, shift, change) == ShiftLoop(cs1, kids, i - 1, shift + cs1[kids[i]].shift + change1, change1)
  {
  }

  /** Child `k` of `cs` appears in `r` moved right by its closed-form shift over `c0`. */
  ghost predicate ShiftedChild(c0: seq<Cell>, cs: seq<Cell>, r: seq<Cell>, kids: seq<nat>, k: nat)
    requires |c0| == |cs| == |r| && k < |kids|
    requires forall k | 0 <= k < |kids| :: kids[k] < |cs|
  {
    r[kids[k]] == cs[kids[k]].(x := cs[kids[k]].x + ShiftBefore(c0, kids, k),
                               mod := cs[kids[k]].mod + ShiftBefore(c0, kids, k))
  }

  /** While the accumulators hold their closed forms over the cells `c0` the loop
      started from, it moves child `k <= i` by `ShiftBefore(c0, kids, k)`. The loop
      writes only `x` and `mod`, so the `change` and `shift` it reads are those of `c0`. */
  lemma {:induction false} ShiftLoopEffect(c0: seq<Cell>, cs: seq<Cell>, kids: seq<nat>, i: int, shift: real, change: real, k: nat)
    requires -1 <= i < |kids| && |c0| == |cs| && k <= i
    requires forall k | 0 <= k < |kids| :: kids[k] < |cs|
    requires forall a, b | 0 <= a < b < |kids| :: kids[a] != kids[b]
    requires forall u | 0 <= u < |cs| :: cs[u].change == c0[u].change && cs[u].shift == c0[u].shift
    requires shift == ShiftBefore(c0, kids, i) && change == ChangeFrom(c0, kids, i + 1)
    ensures ShiftedChild(c0, cs, ShiftLoop(cs, kids, i, shift, change), kids, k)
    decreases i + 1
  {
    var c := kids[i];
    var cs1 := Moved(cs, c, shift);
    var change1 := change + cs1[c].change;
    var shift1 := shift + cs1[c].shift + change1;
    ShiftLoopUnfold(cs, kids, i, shift, change, cs1, change1);
    if k == i {
      ShiftLoopFrame(cs1, kids, i - 1, shift1, change1);
      NotInPrefix(kids, i);
    } else {
      AccumulatorStep(c0, kids, i, shift, change, change1, shift1);
      ShiftLoopEffect(c0, cs1, kids, i - 1, shift1, change1, k);
      assert cs1[kids[k]] == cs[kids[k]];
    }
  }

  /** The accumulators keep their closed forms from one pass to the next. */
  lemma {:induction false} AccumulatorStep(c0: seq<Cell>, kids: seq<nat>, i: nat, shift: real, change: real, change1: real, shift1: real)
    requires i < |kids| && forall k | 0 <= k < |kids| :: kids[k] < |c0|
    requires shift == ShiftBefore(c0, kids, i) && change == ChangeFrom(c0, kids, i + 1)
    requires change1 == change + c0[kids[i]].change && shift1 == shift + c0[kids[i]].shift + change1
    ensures change1 == ChangeFrom(c0, kids, i)
    ensures i >= 1 ==> shift1 == ShiftBefore(c0, kids, i - 1)
  {
  }

  /** In a list without repeats, entry `i` is not among the first `i`. */
  lemma {:induction false} NotInPrefix(kids: seq<nat>, i: nat)
    requires i < |kids|
    requires forall a, b | 0 <= a < b < |kids| :: kids[a] != kids[b]
    ensures kids[i] !in kids[..i]
  {
  }

  /** `_executeShifts(v)`: children visited right to left, each moved by the shift
      accumulated from the children on its right. */
  function ExecuteShifts(sh: Shape, cs: seq<Cell>, v: nat): (r: seq<Cell>)
    requires Valid(sh) && CellsValid(sh, cs) && v < |sh|
    ensures CellsValid(sh, r)
    ensures forall k | 0 <= k < |sh[v].children| :: v < sh[v].children[k] < |sh|
    ensures forall k | 0 <= k < |sh[v].children| ::
              var c := sh[v].children[k];
              r[c] == cs[c].(x := cs[c].x + ShiftBefore(cs, sh[v].children, k),
                             mod := cs[c].mod + ShiftBefore(cs, sh[v].children, k))
    ensures forall u | 0 <= u < |cs| && u !in sh[v].children :: r[u] == cs[u]
  {
    ChildrenDistinct(sh, v);
    var r := ShiftLoop(cs, sh[v].children, |sh[v].children| - 1, 0.0, 0.0);
    ExecuteShiftsMoves(sh, cs, v, r);
    ExecuteShiftsFrame(sh, cs, v, r);
    r
  }

  lemma {:induction false} ExecuteShiftsMoves(sh: Shape, cs: seq<Cell>, v: nat, r: seq<Cell>)
    requires Valid(sh) && CellsValid(sh, cs) && v < |sh|
    requires forall k | 0 <= k < |sh[v].children| :: sh[v].children[k] < |sh|
    requires r == ShiftLoop(cs, sh[v].children, |sh[v].children| - 1, 0.0, 0.0)
    ensures forall k | 0 <= k < |sh[v].children| ::
              var c := sh[v].children[k];
              r[c] == cs[c].(x := cs[c].x + ShiftBefore(cs, sh[v].children, k),
                             mod := cs[c].mod + ShiftBefore(cs, sh[v].children, k))
  {
    ChildrenDistinct(sh, v);
    ShiftLoopAll(cs, sh[v].children, r);
    forall k | 0 <= k < |sh[v].children|
      ensures var c := sh[v].children[k];
              r[c] == cs[c].(x := cs[c].x + ShiftBefore(cs, sh[v].children, k),
                             mod := cs[c].mod + ShiftBefore(cs, sh[v].children, k))
    {
      assert ShiftedChild(cs, cs, r, sh[v].children, k);
    }
  }

  lemma {:induction false} ExecuteShiftsFrame(sh: Shape, cs: seq<Cell>, v: nat, r: seq<Cell>)
    requires Valid(sh) && CellsValid(sh, cs) && v < |sh|
    requires forall k | 0 <= k < |sh[v].children| :: sh[v].children[k] < |sh|
    requires r == ShiftLoop(cs, sh[v].children, |sh[v].children| - 1, 0.0, 0.0)
    ensures CellsValid(sh, r)
    ensures forall u | 0 <= u < |cs| && u !in sh[v].children :: r[u] == cs[u]
  {
    ShiftLoopAllFrame(cs, sh[v].children, r);
    SameLinks(sh, cs, r);
  }

  /** The whole loop, started with both accumulators at 0, moves every child by its
      closed-form shift. */
  lemma {:induction false} ShiftLoopAll(cs: seq<Cell>, kids: seq<nat>, r: seq<Cell>)
    requires forall k | 0 <= k < |kids| :: kids[k] < |cs|
    requires forall a, b | 0 <= a < b < |kids| :: kids[a] != kids[b]
    requires r == ShiftLoop(cs, kids, |kids| - 1, 0.0, 0.0)
    ensures forall k | 0 <= k < |kids| :: ShiftedChild(cs, cs, r, kids, k)
  {
    forall k | 0 <= k < |kids|
      ensures ShiftedChild(cs, cs, r, kids, k)
    {
      ShiftLoopChild(cs, kids, k);
    }
  }

  /** One child's share of `ShiftLoopAll`. */
  lemma {:induction false} ShiftLoopChild(cs: seq<Cell>, kids: seq<nat>, k: nat)
    requires k < |kids|
    requires forall k | 0 <= k < |kids| :: kids[k] < |cs|
    requires forall a, b | 0 <= a < b < |kids| :: kids[a] != kids[b]
    ensures ShiftedChild(cs, cs, ShiftLoop(cs, kids, |kids| - 1, 0.0, 0.0), kids, k)
  {
    var last := |kids| - 1;
    assert ShiftBefore(cs, kids, last) == 0.0;
    assert ChangeFrom(cs, kids, last + 1) == 0.0;
    ShiftLoopEffect(cs, cs, kids, last, 0.0, 0.0, k);
  }

  /** ... and leaves every other node, and every node's links, alone. */
  lemma {:induction false} ShiftLoopAllFrame(cs: seq<Cell>, kids: seq<nat>, r: seq<Cell>)
    requires forall k | 0 <= k < |kids| :: kids[k] < |cs|
    requires r == ShiftLoop(cs, kids, |kids| - 1, 0.0, 0.0)
    ensures forall u | 0 <= u < |cs| && u !in kids :: r[u] == cs[u]
    ensures forall u | 0 <= u < |cs| :: r[u].thread == cs[u].thread && r[u].ancestor == cs[u].ancestor
  {
    assert kids[..|kids|] == kids;
    ShiftLoopFrame(cs, kids, |kids| - 1, 0.0, 0.0);
  }

  /** The leaf branch of `_firstWalk`: a leaf with a leftmost sibling and a left brother
      goes one unit right of the brother, any other leaf goes to 0. */
  function PlaceLeaf(sh: Shape, cs: seq<Cell>, v: nat): (r: seq<Cell>)
    requires Valid(sh) && CellsValid(sh, cs) && v < |sh|
    ensures CellsValid(sh, r)
    ensures r[v] == cs[v].(x := match LBrother(sh, v) case None => 0.0 case Some(w) => cs[w].x + 1.0)
    ensures forall u | 0 <= u < |cs| && u != v :: r[u] == cs[u]
  {
    var w := LBrother(sh, v);
    var x := if LmostSibling(sh, v).Some? && w.Some? then cs[w.value].x + Distance else 0.0;
    var r := cs[v := cs[v].(x := x)];
    SameLinks(sh, cs, r);
    r
  }

  /** The internal-node branch of `_firstWalk`, after the children are placed: execute the
      pending shifts, then put `v` one unit right of its left brother (recording in `mod`
      how far that is from the midpoint of its outer children) or, without a brother, at
      that midpoint. */
  function PlaceInternal(sh: Shape, cs: seq<Cell>, v: nat): (r: seq<Cell>)
    requires Valid(sh) && CellsValid(sh, cs) && v < |sh| && |sh[v].children| > 0
    ensures CellsValid(sh, r)
    ensures forall k | 0 <= k < |sh[v].children| :: v < sh[v].children[k] < |sh|
    ensures var kids := sh[v].children;
            var mid := (r[kids[0]].x + r[kids[|kids| - 1]].x) / 2.0;
            match LBrother(sh, v)
            case None => r[v].x == mid && r[v].mod == cs[v].mod
            case Some(w) => r[v].x == r[w].x + 1.0 && r[v].mod == r[v].x - mid
    ensures forall u | 0 <= u < |sh| :: r[u].thread == cs[u].thread && r[u].ancestor == cs[u].ancestor
  {
    var kids := sh[v].children;
    var cs1 := ExecuteShifts(sh, cs, v);
    ChildrenDistinct(sh, v);
    var midX := (cs1[kids[0]].x + cs1[kids[|kids| - 1]].x) / 2.0;
    var w := LBrother(sh, v);
    var r := if w.Some? then
               var x := cs1[w.value].x + Distance;
               cs1[v := cs1[v].(x := x, mod := x - midX)]
             else cs1[v := cs1[v].(x := midX)];
    SameLinks(sh, cs1, r);
    if w.Some? then
      BrotherNotChild(sh, v, w.value);
      r
    else r
  }

  /** A node's left brother is neither the node itself nor one of its children. */
  lemma {:induction false} BrotherNotChild(sh: Shape, v: nat, w: nat)
    requires Valid(sh) && v < |sh| && LBrother(sh, v) == Some(w)
    ensures w != v && w !in sh[v].children
  {
    var p := sh[v].parent.value;
    ParentBefore(sh, v);
    if w in sh[v].children {
      var k :| 0 <= k < |sh[v].children| && sh[v].children[k] == w;
      ChildFacts(sh, v, k);
      var m :| 0 <= m < |sh[p].children| && sh[p].children[m] == w;
      ChildFacts(sh, p, m);
      assert false;
    }
  }

  /** Of all the `x` fields only node `v`'s may change, and it may only grow: `_apportion`
      moves `v` (with its subtree, through `mod`) to the right and nothing else. */
  ghost predicate MovesOnlyRight(cs: seq<Cell>, r: seq<Cell>, v: nat) {
    && |r| == |cs| && v < |cs|
    && (forall u | 0 <= u < |cs| && u != v :: r[u].x == cs[u].x)
    && r[v].x >= cs[v].x
  }

  /** The four contour cursors of `_apportion` and their running `mod` sums. `vol` is
      absent once the source would be holding the number 0 instead of a node; `sol` is
      then meaningless (NaN in the source) and never read. */
  datatype Contours = Contours(cells: seq<Cell>, vil: nat, vir: nat, vol: Option<nat>, vor: nat,
                               sil: real, sir: real, sol: real, sor: real)

  /** All cursors are arena nodes at one depth. */
  ghost predicate ContoursOk(sh: Shape, st: Contours) {
    && CellsValid(sh, st.cells)
    && st.vil < |sh| && st.vir < |sh| && st.vor < |sh|
    && sh[st.vir].depth == sh[st.vil].depth
    && sh[st.vor].depth == sh[st.vil].depth
    && (st.vol.Some? ==> st.vol.value < |sh| && sh[st.vol.value].depth == sh[st.vil].depth)
  }

  /** The move of one pass of `_apportion`: `v`'s subtree goes right by `shift` when that
      is positive, and nothing moves otherwise. */
  function PushApart(sh: Shape, cs: seq<Cell>, a: nat, v: nat, shift: real): (r: seq<Cell>)
    requires Valid(sh) && CellsValid(sh, cs) && a < |sh| && v < |sh|
    requires shift > 0.0 ==> sh[a].number != sh[v].number
    ensures CellsValid(sh, r) && MovesOnlyRight(cs, r, v)
    ensures forall u | 0 <= u < |sh| :: r[u].thread == cs[u].thread && r[u].ancestor == cs[u].ancestor
  {
    if shift > 0.0 then
      var r := MoveSubtree(sh, cs, a, v, shift);
      SameLinks(sh, cs, r);
      r
    else cs
  }

  /** Recording `v` as the ancestor of `nor` and then moving only `v` right leaves every
      thread, and every other ancestor, as it was. */
  lemma {:induction false} StepFrame(cs: seq<Cell>, cs1: seq<Cell>, r: seq<Cell>, nor: nat, v: nat)
    requires nor < |cs| && cs1 == cs[nor := cs[nor].(ancestor := v)]
    requires MovesOnlyRight(cs1, r, v)
    requires forall u | 0 <= u < |cs| :: r[u].thread == cs1[u].thread && r[u].ancestor == cs1[u].ancestor
    ensures MovesOnlyRight(cs, r, v)
    ensures forall u | 0 <= u < |cs| :: r[u].thread == cs[u].thread
    ensures forall u | 0 <= u < |cs| :: r[u].ancestor == if u == nor then v else cs[u].ancestor
  {
    assert forall u | 0 <= u < |cs| :: cs1[u].x == cs[u].x && cs1[u].thread == cs[u].thread;
  }

  /** One pass of the `while` body of `_apportion`, with the cursors already advanced to
      `nil`, `nir`, `nol` and `nor`. */
  function ContourStep(sh: Shape, v: nat, da: nat, st: Contours, nil: nat, nir: nat, nol: Option<nat>, nor: nat)
    : (r: Result<Contours, LayoutError>)
    requires Valid(sh) && CellsValid(sh, st.cells) && v < |sh| && da < |sh|
    requires nil < |sh| && nir < |sh| && nor < |sh| && (nol.Some? ==> nol.value < |sh|)
    ensures r.Success? ==> CellsValid(sh, r.value.cells)
    ensures r.Success? ==> r.value.vil == nil && r.value.vir == nir && r.value.vol == nol && r.value.vor == nor
    ensures r.Success? ==> MovesOnlyRight(st.cells, r.value.cells, v)
    ensures r.Success? ==> forall u | 0 <= u < |sh| :: r.value.cells[u].thread == st.cells[u].thread
    ensures r.Success? ==> forall u | 0 <= u < |sh| ::
              r.value.cells[u].ancestor == if u == nor then v else st.cells[u].ancestor
  {
    assert CellOk(sh, st.cells, nor);
    var cs1 := st.cells[nor := st.cells[nor].(ancestor := v)];
    UpdateValid(sh, st.cells, nor, cs1[nor]);
    var shift := (cs1[nil].x + st.sil) - (cs1[nir].x + st.sir) + Distance;
    var a := AncestorOf(sh, cs1, nil, v, da);
    if shift > 0.0 && sh[a].number == sh[v].number then Failure(NonFiniteShift)
    else
      var cs2 := PushApart(sh, cs1, a, v, shift);
      StepFrame(st.cells, cs1, cs2, nor, v);
      var moved := if shift > 0.0 then shift else 0.0;
      Success(Contours(cs2, nil, nir, nol, nor,
                       st.sil + cs2[nil].mod,
                       st.sir + moved + cs2[nir].mod,
                       if nol.Some? then st.sol + cs2[nol.value].mod else st.sol,
                       st.sor + moved + cs2[nor].mod))
  }

  /** The `while` loop of `_apportion`: walk the right contour of the left siblings and
      the left contour of `v`'s subtree down together, one level per pass, pushing `v`
      right whenever the two come closer than `Distance`. */
  function ApportionLoop(sh: Shape, v: nat, da: nat, st: Contours): (r: Result<Contours, LayoutError>)
    requires Valid(sh) && ContoursOk(sh, st) && v < |sh| && da < |sh|
    ensures r.Success? ==> ContoursOk(sh, r.value)
    ensures r.Success? ==> Right(sh, r.value.cells, r.value.vil).None? || Left(sh, r.value.cells, r.value.vir).None?
    ensures r.Success? ==> sh[r.value.vil].depth >= sh[st.vil].depth
    ensures r.Success? ==> MovesOnlyRight(st.cells, r.value.cells, v)
    decreases MaxDepth(sh) - sh[st.vil].depth
  {
    var nil := Right(sh, st.cells, st.vil);
    var nir := Left(sh, st.cells, st.vir);
    if nil.None? || nir.None? then Success(st)
    else if st.vol.None? then Failure(MissingContour)
    else
      var nol := Left(sh, st.cells, st.vol.value);
      var nor := Right(sh, st.cells, st.vor);
      if nor.None? then Failure(MissingContour)
      else
        var st1 :- ContourStep(sh, v, da, st, nil.value, nir.value, nol, nor.value);
        ApportionLoop(sh, v, da, st1)
  }

  /** The tail of `_apportion`: thread the shorter contour onto the longer one. The
      default ancestor becomes `v` unless the left siblings' contour is the longer one. */
  function ApportionFinish(sh: Shape, v: nat, da: nat, st: Contours): (r: Result<(seq<Cell>, nat), LayoutError>)
    requires Valid(sh) && ContoursOk(sh, st) && v < |sh| && da < |sh|
    ensures r.Success? ==> CellsValid(sh, r.value.0) && (r.value.1 == da || r.value.1 == v)
    ensures r.Success? ==> forall u | 0 <= u < |sh| :: r.value.0[u].x == st.cells[u].x
  {
    var cs := st.cells;
    var ril := Right(sh, cs, st.vil);
    if ril.Some? && Right(sh, cs, st.vor).None? then
      assert CellOk(sh, cs, st.vor);
      var r := cs[st.vor := cs[st.vor].(thread := ril, mod := cs[st.vor].mod + (st.sil - st.sor))];
      UpdateValid(sh, cs, st.vor, r[st.vor]);
      Success((r, da))
    else
      var lir := Left(sh, cs, st.vir);
      if lir.None? then Success((cs, v))
      else
        match st.vol
        case None => Failure(MissingContour)
        case Some(vol) =>
          if Left(sh, cs, vol).None? then
            assert CellOk(sh, cs, vol);
            var r := cs[vol := cs[vol].(thread := lir, mod := cs[vol].mod + (st.sir - st.sol))];
            UpdateValid(sh, cs, vol, r[vol]);
            Success((r, v))
          else Success((cs, v))
  }

  /** `_apportion(v, defaultAncestor, distance)`; returns the cells and the new default
      ancestor. A node with no left brother is left where it is. */
  function Apportion(sh: Shape, cs: seq<Cell>, v: nat, da: nat): (r: Result<(seq<Cell>, nat), LayoutError>)
    requires Valid(sh) && CellsValid(sh, cs) && v < |sh| && da < |sh|
    requires sh[v].parent.Some? ==> sh[v].parent.value < |sh| && sh[sh[v].parent.value].depth + 1 == sh[v].depth
    ensures r.Success? ==> CellsValid(sh, r.value.0) && (r.value.1 == da || r.value.1 == v)
    ensures r.Success? ==> MovesOnlyRight(cs, r.value.0, v)
    ensures LBrother(sh, v).None? ==> r == Success((cs, da))
  {
    match LBrother(sh, v)
    case None => Success((cs, da))
    case Some(w) =>
      var p := sh[v].parent.value;
      ParentBefore(sh, v);
      var vol := LmostSibling(sh, v).value;
      var m :| 0 <= m < |sh[p].children| && sh[p].children[m] == w;
      ChildFacts(sh, p, m);
      ChildFacts(sh, p, 0);
      var st :- ApportionLoop(sh, v, da, Contours(cs, w, v, Some(vol), v, cs[w].mod, cs[v].mod, cs[vol].mod, cs[v].mod));
      ApportionFinish(sh, v, da, st)
  }

  /** `_firstWalk(v)`: the post-order pass that gives every node of `v`'s subtree a
      preliminary `x` and a `mod` for its descendants. */
  function FirstWalk(sh: Shape, cs: seq<Cell>, v: nat): (r: Result<seq<Cell>, LayoutError>)
    requires Valid(sh) && CellsValid(sh, cs) && v < |sh|
    ensures r.Success? ==> CellsValid(sh, r.value)
    decreases |sh| - v, 1
  {
    if |sh[v].children| == 0 then Success(PlaceLeaf(sh, cs, v))
    else
      ChildFacts(sh, v, 0);
      var cs1 :- FirstWalkKids(sh, cs, v, 0, sh[v].children[0]);
      Success(PlaceInternal(sh, cs1, v))
  }

  /** The `for` loop of `_firstWalk` from child `j` on: walk the child, then apportion it
      against its left siblings, threading the default ancestor through. */
  function FirstWalkKids(sh: Shape, cs: seq<Cell>, v: nat, j: nat, da: nat): (r: Result<seq<Cell>, LayoutError>)
    requires Valid(sh) && CellsValid(sh, cs) && v < |sh| && j <= |sh[v].children| && da < |sh|
    ensures r.Success? ==> CellsValid(sh, r.value)
    decreases |sh| - v, 0, |sh[v].children| - j
  {
    if j == |sh[v].children| then Success(cs)
    else
      ChildFacts(sh, v, j);
      var w := sh[v].children[j];
      var cs1 :- FirstWalk(sh, cs, w);
      var step :- Apportion(sh, cs1, w, da);
      FirstWalkKids(sh, step.0, v, j + 1, step.1)
  }

  /** `_secondWalk(v, m, depth, min)`: add the `mod`s of `v`'s ancestors (passed down in
      `m`) to every `x` of the subtree, set `y` to the depth and return the least `x` seen,
      starting from `min` (`None` for the source's `undefined`). */
  function SecondWalk(sh: Shape, cs: seq<Cell>, v: nat, m: real, depth: int, min: Option<real>): (r: (seq<Cell>, real))
    requires Valid(sh) && |cs| == |sh| && v < |sh|
    ensures |r.0| == |cs|
    ensures forall u | 0 <= u < |cs| :: r.0[u].mod == cs[u].mod && r.0[u].thread == cs[u].thread
    decreases |sh| - v, 1
  {
    var x := cs[v].x + m;
    var cs1 := cs[v := cs[v].(x := x, y := depth)];
    var min1 := if min.None? || x < min.value then x else min.value;
    SecondWalkKids(sh, cs1, v, 0, m + cs1[v].mod, depth + 1, min1)
  }

  function SecondWalkKids(sh: Shape, cs: seq<Cell>, v: nat, j: nat, m: real, depth: int, min: real): (r: (seq<Cell>, real))
    requires Valid(sh) && |cs| == |sh| && v < |sh| && j <= |sh[v].children|
    ensures |r.0| == |cs|
    ensures forall u | 0 <= u < |cs| :: r.0[u].mod == cs[u].mod && r.0[u].thread == cs[u].thread
    decreases |sh| - v, 0, |sh[v].children| - j
  {
    if j == |sh[v].children| then (cs, min)
    else
      ChildFacts(sh, v, j);
      var step := SecondWalk(sh, cs, sh[v].children[j], m, depth, Some(min));
      SecondWalkKids(sh, step.0, v, j + 1, m, depth, step.1)
  }

  /** `_thirdWalk(t, n)`: move every node of the subtree right by `n`. */
  function ThirdWalk(sh: Shape, cs: seq<Cell>, v: nat, n: real): (r: seq<Cell>)
    requires Valid(sh) && |cs| == |sh| && v < |sh|
    ensures |r| == |cs|
    decreases |sh| - v, 1
  {
    ThirdWalkKids(sh, cs[v := cs[v].(x := cs[v].x + n)], v, 0, n)
  }

  function ThirdWalkKids(sh: Shape, cs: seq<Cell>, v: nat, j: nat, n: real): (r: seq<Cell>)
    requires Valid(sh) && |cs| == |sh| && v < |sh| && j <= |sh[v].children|
    ensures |r| == |cs|
    decreases |sh| - v, 0, |sh[v].children| - j
  {
    if j == |sh[v].children| then cs
    else
      ChildFacts(sh, v, j);
      ThirdWalkKids(sh, ThirdWalk(sh, cs, sh[v].children[j], n), v, j + 1, n)
  }

  /** `_extractNodePositions(v)`: `{id, x, y}` of `v`, then of each child's subtree. */
  function Extract(sh: Shape, cs: seq<Cell>, v: nat): (r: seq<Position>)
    requires Valid(sh) && |cs| == |sh| && v < |sh|
    ensures |r| > 0 && r[0] == Position(sh[v].id, cs[v].x, cs[v].y)
    decreases |sh| - v, 1
  {
    [Position(sh[v].id, cs[v].x, cs[v].y)] + ExtractKids(sh, cs, v, 0)
  }

  function ExtractKids(sh: Shape, cs: seq<Cell>, v: nat, j: nat): seq<Position>
    requires Valid(sh) && |cs| == |sh| && v < |sh| && j <= |sh[v].children|
    decreases |sh| - v, 0, |sh[v].children| - j
  {
    if j == |sh[v].children| then []
    else
      ChildFacts(sh, v, j);
      Extract(sh, cs, sh[v].children[j]) + ExtractKids(sh, cs, v, j + 1)
  }

  /** The first two walks of `layout()`: the placed cells and the least `x`. */
  function Placement(sh: Shape): (r: Result<(seq<Cell>, real), LayoutError>)
    requires Valid(sh)
    ensures r.Success? ==> |r.value.0| == |sh|
  {
    var cs :- FirstWalk(sh, InitCells(sh), 0);
    Success(SecondWalk(sh, cs, 0, 0.0, 0, None))
  }

  /** The third walk of `layout()`, run only when the least `x` is negative. */
  function Normalize(sh: Shape, placed: seq<Cell>, min: real): (r: seq<Cell>)
    requires Valid(sh) && |placed| == |sh|
    ensures |r| == |sh|
  {
    if min < 0.0 then ThirdWalk(sh, placed, 0, -min) else placed
  }

  /** `layout()`: the three walks, then the positions in pre-order. */
  function Layout(sh: Shape): Result<seq<Position>, LayoutError>
    requires Valid(sh)
  {
    var placed :- Placement(sh);
    Success(Extract(sh, Normalize(sh, placed.0, placed.1), 0))
  }

  /** `new Layout(tree).calc()`. */
  function Calc(t: Tree): Result<seq<Position>, LayoutError> {
    BuildValid(t);
    Layout(Build(t))
  }
}

=== FILE: layout_fixture.dfy ===
/** The layout of the tree in test/util/Layout.test.js, derived step by step: the arena
    the constructor builds, the cells after each step of the first walk, the `mod` sums
    of the second walk, and finally the exact list `calc()` returns. */
module TreeLayoutFixture {
  import opened Results
  import opened LayoutTree
  import opened TreeLayout
  import opened TreeLayoutProps

  /** The shape of the test tree, with ids `ids[0]` to `ids[6]` in pre-order: a root with
      two children, the second of which has four leaves. */
  function TreeOf(ids: seq<string>): Tree
    requires |ids| == 7
  {
    Tree(ids[0], [Tree(ids[1], []),
                  Tree(ids[2], [Tree(ids[3], []), Tree(ids[4], []), Tree(ids[5], []), Tree(ids[6], [])])])
  }

  /** Its arena: pre-order indices, parent, children, depth and sibling number. */
  function ArenaOf(ids: seq<string>): Shape
    requires |ids| == 7
  {
    [ Info(ids[0], None, [1, 2], 0, 1),
      Info(ids[1], Some(0), [], 1, 1),
      Info(ids[2], Some(0), [3, 4, 5, 6], 1, 2),
      Info(ids[3], Some(2), [], 2, 1),
      Info(ids[4], Some(2), [], 2, 2),
      Info(ids[5], Some(2), [], 2, 3),
      Info(ids[6], Some(2), [], 2, 4) ]
  }

  function TestIds(): seq<string> {
    ["0-0", "1-0", "1-1", "2-0", "2-1", "2-2", "2-3"]
  }

  /** The test tree and its arena. */
  function Fixture(): Tree { TreeOf(TestIds()) }
  function Arena(): Shape { ArenaOf(TestIds()) }

  /** The entries the test expects, in the order `calc()` lists them. */
  function Expected(): seq<Position> {
    [ Position("0-0", 1.0, 0), Position("1-0", 0.5, 1), Position("1-1", 1.5, 1),
      Position("2-0", 0.0, 2), Position("2-1", 1.0, 2), Position("2-2", 2.0, 2), Position("2-3", 3.0, 2) ]
  }

  /** The four leaves of the second child flatten into the last four rows. */
  lemma {:induction false} LeavesFlat(ids: seq<string>, leaves: seq<Tree>, s: Shape)
    requires |ids| == 7 && leaves == TreeOf(ids).children[1].children && s == ArenaOf(ids)
    ensures SizeForest(leaves) == 4 && ChildIdx(leaves, 3) == [3, 4, 5, 6]
    ensures FlattenForest(leaves, 2, 2, 1, 3) == s[3..]
  {
    assert SizeForest(leaves[3..]) == 1;
    assert SizeForest(leaves[2..]) == 2;
    assert SizeForest(leaves[1..]) == 3;
    assert ChildIdx(leaves[3..], 6) == [6];
    assert ChildIdx(leaves[2..], 5) == [5, 6];
    assert ChildIdx(leaves[1..], 4) == [4, 5, 6];
    assert FlattenForest(leaves[3..], 2, 2, 4, 6) == s[6..];
    assert FlattenForest(leaves[2..], 2, 2, 3, 5) == s[5..];
    assert FlattenForest(leaves[1..], 2, 2, 2, 4) == s[4..];
  }

  /** The second child and its leaves flatten into rows 2 to 6. */
  lemma {:induction false} SecondChildFlat(ids: seq<string>, b: Tree, s: Shape)
    requires |ids| == 7 && b == TreeOf(ids).children[1] && s == ArenaOf(ids)
    ensures Size(b) == 5 && Flatten(b, Some(0), 1, 2, 2) == s[2..]
  {
    LeavesFlat(ids, b.children, s);
    assert Flatten(b, Some(0), 1, 2, 2) == [s[2]] + s[3..];
  }

  /** The root's two children flatten into rows 1 to 6. */
  lemma {:induction false} KidsFlat(ids: seq<string>, kids: seq<Tree>, s: Shape)
    requires |ids| == 7 && kids == TreeOf(ids).children && s == ArenaOf(ids)
    ensures SizeForest(kids) == 6 && ChildIdx(kids, 1) == [1, 2]
    ensures FlattenForest(kids, 0, 1, 1, 1) == s[1..]
  {
    SecondChildFlat(ids, kids[1], s);
    assert ChildIdx(kids[1..], 2) == [2];
    assert FlattenForest(kids[1..], 0, 1, 2, 2) == s[2..];
  }

  /** The constructor flattens a tree of that shape into exactly that arena. */
  lemma {:induction false} RootFlat(ids: seq<string>, t: Tree, s: Shape)
    requires |ids| == 7 && t == TreeOf(ids) && s == ArenaOf(ids)
    ensures Build(t) == s
  {
    KidsFlat(ids, t.children, s);
    assert Build(t) == [s[0]] + s[1..];
  }

  /** The constructor flattens the test tree into exactly that arena. */
  lemma {:induction false} FixtureArena()
    ensures Build(Fixture()) == Arena()
    ensures Valid(Arena()) && Embeds(Arena(), Fixture(), 0) && |Arena()| == Size(Fixture())
  {
    RootFlat(TestIds(), Fixture(), Arena());
    BuildValid(Fixture());
  }

  /** Every child's `change` and `shift` are zero. */
  ghost predicate NoShifts(cs: seq<Cell>) {
    forall u | 0 <= u < |cs| :: cs[u].change == 0.0 && cs[u].shift == 0.0
  }

  lemma {:induction false} ChangeFromZero(cs: seq<Cell>, kids: seq<nat>, i: nat)
    requires forall k | 0 <= k < |kids| :: kids[k] < |cs|
    requires NoShifts(cs)
    ensures ChangeFrom(cs, kids, i) == 0.0
    decreases |kids| - i
  {
    if i < |kids| {
      ChangeFromZero(cs, kids, i + 1);
    }
  }

  lemma {:induction false} ShiftBeforeZero(cs: seq<Cell>, kids: seq<nat>, i: nat)
    requires forall k | 0 <= k < |kids| :: kids[k] < |cs|
    requires NoShifts(cs)
    ensures ShiftBefore(cs, kids, i) == 0.0
    decreases |kids| - i
  {
    if i + 1 < |kids| {
      ChangeFromZero(cs, kids, i + 1);
      ShiftBeforeZero(cs, kids, i + 1);
    }
  }

  /** With no pending shift or change, `_executeShifts` moves nothing. */
  lemma {:induction false} ExecuteShiftsIdle(sh: Shape, cs: seq<Cell>, v: nat)
    requires Valid(sh) && CellsValid(sh, cs) && v < |sh| && NoShifts(cs)
    ensures ExecuteShifts(sh, cs, v) == cs
  {
    var r := ExecuteShifts(sh, cs, v);
    var kids := sh[v].children;
    forall k | 0 <= k < |kids|
      ensures ShiftBefore(cs, kids, k) == 0.0
    {
      ShiftBeforeZero(cs, kids, k);
    }
    forall u | 0 <= u < |cs|
      ensures r[u] == cs[u]
    {
      if u in kids {
        var k :| 0 <= k < |kids| && kids[k] == u;
      }
    }
  }

  /** A cell with no pending shift. */
  function C(x: real, y: int, thread: Option<nat>, mod: real, ancestor: nat): Cell {
    Cell(x, y, thread, mod, ancestor, 0.0, 0.0)
  }

  /** The cells before the first walk, then after each step that changes one of them:
      leaf `1-0` at 0; leaves `2-0` to `2-3` at 0, 1, 2, 3; `1-1` one unit right of
      `1-0` with `mod` -0.5 (its children's midpoint is 1.5); the thread from `1-0` to
      `2-0` with `mod` -0.5; the root at the midpoint 0.5 of its children. */
  function Stage0(): seq<Cell> {
    [C(-1.0, 0, None, 0.0, 0), C(-1.0, 1, None, 0.0, 1), C(-1.0, 1, None, 0.0, 2), C(-1.0, 2, None, 0.0, 3),
     C(-1.0, 2, None, 0.0, 4), C(-1.0, 2, None, 0.0, 5), C(-1.0, 2, None, 0.0, 6)]
  }
  function Stage1(): seq<Cell> { Stage0()[1 := C(0.0, 1, None, 0.0, 1)] }
  function Stage2(): seq<Cell> { Stage1()[3 := C(0.0, 2, None, 0.0, 3)] }
  function Stage3(): seq<Cell> { Stage2()[4 := C(1.0, 2, None, 0.0, 4)] }
  function Stage4(): seq<Cell> { Stage3()[5 := C(2.0, 2, None, 0.0, 5)] }
  function Stage5(): seq<Cell> { Stage4()[6 := C(3.0, 2, None, 0.0, 6)] }
  function Stage6(): seq<Cell> { Stage5()[2 := C(1.0, 1, None, -0.5, 2)] }
  function Stage7(): seq<Cell> { Stage6()[1 := C(0.0, 1, Some(3), -0.5, 1)] }
  function Stage8(): seq<Cell> { Stage7()[0 := C(0.5, 0, None, 0.0, 0)] }

  /** Cells whose only thread leads from `1-0` to `2-0` are valid for the arena. */
  lemma {:induction false} FixtureCellsValid(s: Shape, cs: seq<Cell>)
    requires Shaped(s) && |cs| == 7
    requires cs[0].thread == None && cs[2].thread == None && cs[3].thread == None && cs[4].thread == None
    requires cs[5].thread == None && cs[6].thread == None && (cs[1].thread == None || cs[1].thread == Some(3))
    requires cs[0].ancestor < 7 && cs[1].ancestor < 7 && cs[2].ancestor < 7 && cs[3].ancestor < 7
    requires cs[4].ancestor < 7 && cs[5].ancestor < 7 && cs[6].ancestor < 7
    ensures CellsValid(s, cs)
  {
    assert CellOk(s, cs, 0) && CellOk(s, cs, 1) && CellOk(s, cs, 2) && CellOk(s, cs, 3);
    assert CellOk(s, cs, 4) && CellOk(s, cs, 5) && CellOk(s, cs, 6);
  }

  lemma {:induction false} StagesValid(s: Shape)
    requires Shaped(s)
    ensures CellsValid(s, Stage0()) && CellsValid(s, Stage1()) && CellsValid(s, Stage2())
    ensures CellsValid(s, Stage3()) && CellsValid(s, Stage4()) && CellsValid(s, Stage5())
    ensures CellsValid(s, Stage6()) && CellsValid(s, Stage7()) && CellsValid(s, Stage8())
  {
    FixtureCellsValid(s, Stage0());
    FixtureCellsValid(s, Stage1());
    FixtureCellsValid(s, Stage2());
    FixtureCellsValid(s, Stage3());
    FixtureCellsValid(s, Stage4());
    FixtureCellsValid(s, Stage5());
    FixtureCellsValid(s, Stage6());
    FixtureCellsValid(s, Stage7());
    FixtureCellsValid(s, Stage8());
  }

  /** The constructor's cells are the first stage. */
  lemma {:induction false} FixtureInit(s: Shape)
    requires Shaped(s)
    ensures InitCells(s) == Stage0()
  {
    var ic, c0 := InitCells(s), Stage0();
    assert ic[0] == c0[0] && ic[1] == c0[1] && ic[2] == c0[2] && ic[3] == c0[3];
    assert ic[4] == c0[4] && ic[5] == c0[5] && ic[6] == c0[6];
  }

  lemma {:induction false} StagesIdle()
    ensures NoShifts(Stage5()) && NoShifts(Stage7())
  {
    var c5, c7 := Stage5(), Stage7();
    assert c5[0] == c7[0];
    assert c5[3] == c7[3] && c5[4] == c7[4] && c5[5] == c7[5] && c5[6] == c7[6];
  }

  /** What the walks need to know about the arena, node by node. */
  ghost predicate Shaped(s: Shape) {
    && Valid(s) && |s| == 7
    && s[0] == Info("0-0", None, [1, 2], 0, 1)
    && s[1] == Info("1-0", Some(0), [], 1, 1)
    && s[2] == Info("1-1", Some(0), [3, 4, 5, 6], 1, 2)
    && s[3] == Info("2-0", Some(2), [], 2, 1)
    && s[4] == Info("2-1", Some(2), [], 2, 2)
    && s[5] == Info("2-2", Some(2), [], 2, 3)
    && s[6] == Info("2-3", Some(2), [], 2, 4)
  }

  lemma {:induction false} Siblings(s: Shape)
    requires Shaped(s)
    ensures LBrother(s, 0) == None && LBrother(s, 1) == None && LBrother(s, 2) == Some(1)
    ensures LBrother(s, 3) == None && LBrother(s, 4) == Some(3)
    ensures LBrother(s, 5) == Some(4) && LBrother(s, 6) == Some(5)
    ensures LmostSibling(s, 2) == Some(1)
  {
    LBrotherOfChild(s, 0, 0);
    LBrotherOfChild(s, 0, 1);
    LBrotherOfChild(s, 2, 0);
    LBrotherOfChild(s, 2, 1);
    LBrotherOfChild(s, 2, 2);
    LBrotherOfChild(s, 2, 3);
  }

  lemma {:induction false} ArenaShaped(s: Shape)
    requires s == Arena() && Valid(s)
    ensures Shaped(s)
  {
  }

  /** `_firstWalk` of a leaf only sets its `x`. */
  lemma {:induction false} LeafWalk(sh: Shape, cs: seq<Cell>, v: nat)
    requires Valid(sh) && CellsValid(sh, cs) && v < |sh| && sh[v].children == []
    ensures FirstWalk(sh, cs, v)
         == Success(cs[v := cs[v].(x := match LBrother(sh, v) case None => 0.0 case Some(w) => cs[w].x + 1.0)])
  {
    var r := PlaceLeaf(sh, cs, v);
    var c := cs[v := cs[v].(x := match LBrother(sh, v) case None => 0.0 case Some(w) => cs[w].x + 1.0)];
    assert forall u | 0 <= u < |r| :: r[u] == c[u];
  }

  /** Apportioning a node whose left brother has no right contour and who has no left
      contour of its own changes nothing and makes it the default ancestor. */
  lemma {:induction false} ShallowApportion(sh: Shape, cs: seq<Cell>, v: nat, da: nat, w: nat)
    requires Valid(sh) && CellsValid(sh, cs) && v < |sh| && da < |sh|
    requires sh[v].parent.Some? ==> sh[v].parent.value < |sh| && sh[sh[v].parent.value].depth + 1 == sh[v].depth
    requires LBrother(sh, v) == Some(w) && Right(sh, cs, w).None? && Left(sh, cs, v).None?
    ensures Apportion(sh, cs, v, da) == Success((cs, v))
  {
  }

  /** The leaves `2-0` to `2-3`, one per lemma: walk, then apportion. */
  lemma {:induction false} KidsFrom3(s: Shape, a: seq<Cell>, b: seq<Cell>)
    requires Shaped(s) && LBrother(s, 6) == Some(5)
    requires a == Stage4() && b == Stage5() && CellsValid(s, a) && CellsValid(s, b)
    ensures FirstWalkKids(s, a, 2, 3, 5) == Success(b)
  {
    LeafWalk(s, a, 6);
    assert FirstWalk(s, a, 6) == Success(b);
    ShallowApportion(s, b, 6, 5, 5);
  }

  lemma {:induction false} KidsFrom2(s: Shape, a: seq<Cell>, b: seq<Cell>, c: seq<Cell>)
    requires Shaped(s) && LBrother(s, 5) == Some(4) && LBrother(s, 6) == Some(5)
    requires a == Stage3() && b == Stage4() && c == Stage5()
    requires CellsValid(s, a) && CellsValid(s, b) && CellsValid(s, c)
    ensures FirstWalkKids(s, a, 2, 2, 4) == Success(c)
  {
    LeafWalk(s, a, 5);
    assert FirstWalk(s, a, 5) == Success(b);
    ShallowApportion(s, b, 5, 4, 4);
    KidsFrom3(s, b, c);
  }

  lemma {:induction false} KidsFrom1(s: Shape, a: seq<Cell>, b: seq<Cell>, c: seq<Cell>)
    requires Shaped(s) && LBrother(s, 4) == Some(3) && LBrother(s, 5) == Some(4) && LBrother(s, 6) == Some(5)
    requires a == Stage2() && b == Stage3() && c == Stage5()
    requires CellsValid(s, a) && CellsValid(s, b) && CellsValid(s, Stage4()) && CellsValid(s, c)
    ensures FirstWalkKids(s, a, 2, 1, 3) == Success(c)
  {
    LeafWalk(s, a, 4);
    assert FirstWalk(s, a, 4) == Success(b);
    ShallowApportion(s, b, 4, 3, 3);
    KidsFrom2(s, b, Stage4(), c);
  }

  lemma {:induction false} KidsFrom0(s: Shape, a: seq<Cell>, b: seq<Cell>, c: seq<Cell>)
    requires Shaped(s) && LBrother(s, 3) == None && LBrother(s, 4) == Some(3)
    requires LBrother(s, 5) == Some(4) && LBrother(s, 6) == Some(5)
    requires a == Stage1() && b == Stage2() && c == Stage5()
    requires CellsValid(s, a) && CellsValid(s, b) && CellsValid(s, Stage3()) && CellsValid(s, Stage4())
    requires CellsValid(s, c)
    ensures FirstWalkKids(s, a, 2, 0, 3) == Success(c)
  {
    LeafWalk(s, a, 3);
    assert FirstWalk(s, a, 3) == Success(b);
    KidsFrom1(s, b, Stage3(), c);
  }

  /** With no pending shift or change, an internal node goes to its children's midpoint,
      or one unit right of its left brother with `mod` the difference. */
  lemma {:induction false} IdleInternal(sh: Shape, cs: seq<Cell>, v: nat)
    requires Valid(sh) && CellsValid(sh, cs) && v < |sh| && |sh[v].children| > 0 && NoShifts(cs)
    ensures forall k | 0 <= k < |sh[v].children| :: sh[v].children[k] < |sh|
    ensures var kids := sh[v].children;
            var mid := (cs[kids[0]].x + cs[kids[|kids| - 1]].x) / 2.0;
            PlaceInternal(sh, cs, v)
            == match LBrother(sh, v)
               case None => cs[v := cs[v].(x := mid)]
               case Some(w) => cs[v := cs[v].(x := cs[w].x + 1.0, mod := cs[w].x + 1.0 - mid)]
  {
    forall k | 0 <= k < |sh[v].children|
      ensures sh[v].children[k] < |sh|
    {
      ChildFacts(sh, v, k);
    }
    ChildrenDistinct(sh, v);
    ExecuteShiftsIdle(sh, cs, v);
  }

  /** `1-1` goes one unit right of `1-0`, 0.5 left of its children's midpoint 1.5. */
  lemma {:induction false} MiddlePlace(s: Shape, c: seq<Cell>, b: seq<Cell>)
    requires Shaped(s) && LBrother(s, 2) == Some(1)
    requires c == Stage5() && b == Stage6() && CellsValid(s, c) && NoShifts(c)
    ensures PlaceInternal(s, c, 2) == b
  {
    IdleInternal(s, c, 2);
  }

  /** `_firstWalk` of an internal node: the loop over its children, then its own
      placement. */
  lemma {:induction false} InternalWalk(sh: Shape, cs: seq<Cell>, v: nat, r1: seq<Cell>)
    requires Valid(sh) && CellsValid(sh, cs) && v < |sh| && |sh[v].children| > 0 && sh[v].children[0] < |sh|
    requires FirstWalkKids(sh, cs, v, 0, sh[v].children[0]) == Success(r1)
    ensures CellsValid(sh, r1) && FirstWalk(sh, cs, v) == Success(PlaceInternal(sh, r1, v))
  {
  }

  lemma {:induction false} MiddleWalk(s: Shape, a: seq<Cell>, c: seq<Cell>, b: seq<Cell>)
    requires Shaped(s) && LBrother(s, 2) == Some(1) && LBrother(s, 3) == None && LBrother(s, 4) == Some(3)
    requires LBrother(s, 5) == Some(4) && LBrother(s, 6) == Some(5)
    requires a == Stage1() && c == Stage5() && b == Stage6()
    requires CellsValid(s, a) && CellsValid(s, Stage2()) && CellsValid(s, Stage3()) && CellsValid(s, Stage4())
    requires CellsValid(s, c) && NoShifts(c)
    ensures FirstWalk(s, a, 2) == Success(b)
  {
    KidsFrom0(s, a, Stage2(), c);
    MiddlePlace(s, c, b);
    InternalWalk(s, a, 2, c);
  }

  /** Apportioning `1-1` against `1-0`: the contours meet at once, and `1-0` gets a
      thread to `2-0` with `mod` -0.5. */
  lemma {:induction false} MiddleApportion(s: Shape, a: seq<Cell>, b: seq<Cell>)
    requires Shaped(s) && LBrother(s, 2) == Some(1) && LmostSibling(s, 2) == Some(1)
    requires a == Stage6() && b == Stage7() && CellsValid(s, a)
    ensures Apportion(s, a, 2, 1) == Success((b, 2))
  {
    assert Right(s, a, 1) == None && Left(s, a, 2) == Some(3) && Left(s, a, 1) == None;
    var st := Contours(a, 1, 2, Some(1), 2, a[1].mod, a[2].mod, a[1].mod, a[2].mod);
    assert ApportionLoop(s, 2, 1, st) == Success(st);
    assert a[1].(thread := Some(3), mod := a[1].mod + (a[2].mod - a[1].mod)) == C(0.0, 1, Some(3), -0.5, 1);
  }

  /** The root's two children: `1-0`, then `1-1` apportioned against it. */
  lemma {:induction false} RootKids(s: Shape, a: seq<Cell>, c1: seq<Cell>, c6: seq<Cell>, c7: seq<Cell>)
    requires Shaped(s) && a == Stage0() && c1 == Stage1() && c6 == Stage6() && c7 == Stage7()
    ensures CellsValid(s, a) && FirstWalkKids(s, a, 0, 0, 1) == Success(c7)
  {
    StagesValid(s);
    StagesIdle();
    Siblings(s);
    LeafWalk(s, a, 1);
    assert FirstWalk(s, a, 1) == Success(c1);
    MiddleWalk(s, c1, Stage5(), c6);
    MiddleApportion(s, c6, c7);
    assert FirstWalkKids(s, c1, 0, 1, 1) == Success(c7);
  }

  /** The root goes to the midpoint 0.5 of its children. */
  lemma {:induction false} RootPlace(s: Shape, c: seq<Cell>, b: seq<Cell>)
    requires Shaped(s) && LBrother(s, 0) == None
    requires c == Stage7() && b == Stage8() && CellsValid(s, c) && NoShifts(c)
    ensures PlaceInternal(s, c, 0) == b
  {
    IdleInternal(s, c, 0);
  }

  /** The whole first walk ends in the last stage. */
  lemma {:induction false} FixtureFirstWalk(s: Shape, b: seq<Cell>)
    requires Shaped(s) && b == Stage8()
    ensures CellsValid(s, InitCells(s)) && FirstWalk(s, InitCells(s), 0) == Success(b)
  {
    FixtureInit(s);
    StagesValid(s);
    StagesIdle();
    RootKids(s, Stage0(), Stage1(), Stage6(), Stage7());
    Siblings(s);
    RootPlace(s, Stage7(), b);
    InternalWalk(s, Stage0(), 0, Stage7());
  }

  /** The `mod` sums of the second walk: -0.5 under `1-1`, 0 elsewhere. */
  lemma {:induction false} FixtureRootMods(s: Shape, cs: seq<Cell>)
    requires Shaped(s) && cs == Stage8()
    ensures RootMod(s, cs, 0) == 0.0 && RootMod(s, cs, 1) == 0.0 && RootMod(s, cs, 2) == 0.0
    ensures RootMod(s, cs, 3) == -0.5 && RootMod(s, cs, 4) == -0.5 && RootMod(s, cs, 5) == -0.5
    ensures RootMod(s, cs, 6) == -0.5
  {
    assert RootMod(s, cs, 2) == 0.0;
  }

  /** After the second walk the `x`s are 0.5, 0, 1, -0.5, 0.5, 1.5, 2.5 and the least
      of them is -0.5. */
  lemma {:induction false} FixturePlacement(s: Shape, t: Tree)
    requires Shaped(s) && Embeds(s, t, 0) && |s| == Size(t)
    ensures Placement(s).Success?
    ensures var p := Placement(s).value;
            && |p.0| == 7 && p.1 == -0.5
            && p.0[0].x == 0.5 && p.0[1].x == 0.0 && p.0[2].x == 1.0 && p.0[3].x == -0.5
            && p.0[4].x == 0.5 && p.0[5].x == 1.5 && p.0[6].x == 2.5
            && p.0[0].y == 0 && p.0[1].y == 1 && p.0[2].y == 1 && p.0[3].y == 2
            && p.0[4].y == 2 && p.0[5].y == 2 && p.0[6].y == 2
  {
    var cs := Stage8();
    FixtureFirstWalk(s, cs);
    FixtureRootMods(s, cs);
    PlacementEffect(s, t);
    PlacedValues(s, cs, Placement(s).value);
  }

  /** The arithmetic of the second walk on the last stage's cells. */
  lemma {:induction false} PlacedValues(s: Shape, cs: seq<Cell>, p: (seq<Cell>, real))
    requires Shaped(s) && cs == Stage8() && |p.0| == 7
    requires RootMod(s, cs, 0) == 0.0 && RootMod(s, cs, 1) == 0.0 && RootMod(s, cs, 2) == 0.0
    requires RootMod(s, cs, 3) == -0.5 && RootMod(s, cs, 4) == -0.5 && RootMod(s, cs, 5) == -0.5
    requires RootMod(s, cs, 6) == -0.5
    requires forall u | 0 <= u < 7 :: p.0[u] == cs[u].(x := cs[u].x + RootMod(s, cs, u), y := s[u].depth)
    requires LeastX(p.0, 0, 7, None, p.1)
    ensures p.1 == -0.5
    ensures p.0[0].x == 0.5 && p.0[1].x == 0.0 && p.0[2].x == 1.0 && p.0[3].x == -0.5
    ensures p.0[4].x == 0.5 && p.0[5].x == 1.5 && p.0[6].x == 2.5
    ensures p.0[0].y == 0 && p.0[1].y == 1 && p.0[2].y == 1 && p.0[3].y == 2
    ensures p.0[4].y == 2 && p.0[5].y == 2 && p.0[6].y == 2
  {
    assert p.0[0] == cs[0].(x := cs[0].x + RootMod(s, cs, 0), y := s[0].depth);
    assert p.0[1] == cs[1].(x := cs[1].x + RootMod(s, cs, 1), y := s[1].depth);
    assert p.0[2] == cs[2].(x := cs[2].x + RootMod(s, cs, 2), y := s[2].depth);
    assert p.0[3] == cs[3].(x := cs[3].x + RootMod(s, cs, 3), y := s[3].depth);
    assert p.0[4] == cs[4].(x := cs[4].x + RootMod(s, cs, 4), y := s[4].depth);
    assert p.0[5] == cs[5].(x := cs[5].x + RootMod(s, cs, 5), y := s[5].depth);
    assert p.0[6] == cs[6].(x := cs[6].x + RootMod(s, cs, 6), y := s[6].depth);
    assert p.1 <= p.0[3].x;
  }

  /** `layout()` on the arena: every `x` raised by 0.5. */
  lemma {:induction false} FixtureLayout(s: Shape, t: Tree)
    requires Shaped(s) && Embeds(s, t, 0) && |s| == Size(t)
    ensures Layout(s) == Success(Expected())
  {
    FixturePlacement(s, t);
    LayoutEffect(s, t);
    var r := Layout(s).value;
    var want := Expected();
    assert r[0] == want[0] && r[1] == want[1] && r[2] == want[2] && r[3] == want[3];
    assert r[4] == want[4] && r[5] == want[5] && r[6] == want[6];
    assert r == want;
  }

  /** The test's assertions: `calc()` on the test tree returns exactly these seven
      entries, ids in pre-order, `x` after the shift by 0.5 and `y` the depth. */
  lemma {:induction false} FixtureEntries()
    ensures Calc(Fixture()) == Success(Expected())
  {
    FixtureArena();
    ArenaShaped(Arena());
    FixtureLayout(Arena(), Fixture());
  }
}

=== FILE: layout_props.dfy ===
/** What the walks of src/util/Layout.js compute, stated over a tree laid out in the
    arena exactly as the constructor builds it (`Embeds`). */
module TreeLayoutProps {
  import opened Results
  import opened LayoutTree
  import opened TreeLayout
  import TreeLayoutSuccess

  /** The sum of the `mod` fields of the strict ancestors of `u`: what the second walk
      has accumulated in `m` when it reaches `u` from the root. */
  function RootMod(sh: Shape, cs: seq<Cell>, u: nat): real
    requires Valid(sh) && |cs| == |sh| && u < |sh|
    decreases u
  {
    match sh[u].parent
    case None => 0.0
    case Some(p) =>
      ParentBefore(sh, u);
      RootMod(sh, cs, p) + cs[p].mod
  }

  lemma {:induction false} RootModFrame(sh: Shape, cs: seq<Cell>, cs': seq<Cell>, u: nat)
    requires Valid(sh) && |cs| == |sh| && |cs'| == |sh| && u < |sh|
    requires forall w | 0 <= w < |sh| :: cs'[w].mod == cs[w].mod
    ensures RootMod(sh, cs', u) == RootMod(sh, cs, u)
    decreases u
  {
    if sh[u].parent.Some? {
      ParentBefore(sh, u);
      RootModFrame(sh, cs, cs', sh[u].parent.value);
    }
  }

  /** Cells outside `lo..hi` are untouched. */
  ghost predicate Same(cs: seq<Cell>, r: seq<Cell>, lo: int, hi: int) {
    && |r| == |cs|
    && forall u | 0 <= u < |cs| && !(lo <= u < hi) :: r[u] == cs[u]
  }

  /** Cells `lo..hi` have had `off` plus their ancestors' `mod` sum added to `x`, and
      `y` set to their depth plus `dbase`. */
  ghost predicate Placed(sh: Shape, cs: seq<Cell>, r: seq<Cell>, lo: nat, hi: nat, off: real, dbase: int)
    requires Valid(sh) && |cs| == |sh| && |r| == |sh| && hi <= |sh|
  {
    forall u | lo <= u < hi ::
      r[u] == cs[u].(x := cs[u].x + off + RootMod(sh, cs, u), y := dbase + sh[u].depth)
  }

  /** `mn` is the least of `min` (when given) and the `x` of the cells `lo..hi`. */
  ghost predicate LeastX(r: seq<Cell>, lo: nat, hi: nat, min: Option<real>, mn: real)
    requires hi <= |r|
  {
    && (min.Some? ==> mn <= min.value)
    && (forall u | lo <= u < hi :: mn <= r[u].x)
    && ((min.Some? && mn == min.value) || exists u | lo <= u < hi :: mn == r[u].x)
  }

  lemma {:induction false} ComposePlaced(sh: Shape, cs: seq<Cell>, cs1: seq<Cell>, r: seq<Cell>, a: nat, b: nat, c: nat, off: real, dbase: int)
    requires Valid(sh) && |cs| == |sh| && |cs1| == |sh| && |r| == |sh| && a <= b <= c <= |sh|
    requires forall w | 0 <= w < |sh| :: cs1[w].mod == cs[w].mod
    requires Placed(sh, cs, cs1, a, b, off, dbase) && Same(cs, cs1, a, b)
    requires Placed(sh, cs1, r, b, c, off, dbase) && Same(cs1, r, b, c)
    ensures Placed(sh, cs, r, a, c, off, dbase) && Same(cs, r, a, c)
  {
    forall u | b <= u < c
      ensures r[u] == cs[u].(x := cs[u].x + off + RootMod(sh, cs, u), y := dbase + sh[u].depth)
    {
      RootModFrame(sh, cs, cs1, u);
    }
  }

  lemma {:induction false} ComposeLeast(cs1: seq<Cell>, r: seq<Cell>, a: nat, b: nat, c: nat, min: Option<real>, mn1: real, mn: real)
    requires a <= b <= c <= |cs1| && Same(cs1, r, b, c)
    requires LeastX(cs1, a, b, min, mn1) && LeastX(r, b, c, Some(mn1), mn)
    ensures LeastX(r, a, c, min, mn)
  {
    assert forall u | a <= u < b :: r[u] == cs1[u];
    if mn == mn1 && !(min.Some? && mn == min.value) {
      var u :| a <= u < b && mn1 == cs1[u].x;
      assert mn == r[u].x;
    }
  }

  /** The second walk from `v` with accumulated `m` at depth `depth` adds `m` and the
      `mod`s of the ancestors below `v` to every `x` of `v`'s subtree, sets each `y` to
      the depth, leaves the rest alone and returns the least `x`. */
  lemma {:induction false} SecondWalkEffect(sh: Shape, cs: seq<Cell>, t: Tree, v: nat, m: real, depth: int, min: Option<real>)
    requires Valid(sh) && |cs| == |sh| && Embeds(sh, t, v)
    ensures var p := SecondWalk(sh, cs, v, m, depth, min);
            && Placed(sh, cs, p.0, v, v + Size(t), m - RootMod(sh, cs, v), depth - sh[v].depth)
            && Same(cs, p.0, v, v + Size(t))
            && LeastX(p.0, v, v + Size(t), min, p.1)
    decreases t, 1, 0, 0
  {
    var x := cs[v].x + m;
    var cs1 := cs[v := cs[v].(x := x, y := depth)];
    var min1 := if min.None? || x < min.value then x else min.value;
    var p := SecondWalkKids(sh, cs1, v, 0, m + cs1[v].mod, depth + 1, min1);
    assert SecondWalk(sh, cs, v, m, depth, min) == p;
    SecondWalkRoot(sh, cs, cs1, p, t, v, m, depth, min, min1);
  }

  /** The root's step followed by the walk over all its children. */
  lemma {:induction false} SecondWalkRoot(sh: Shape, cs: seq<Cell>, cs1: seq<Cell>, p: (seq<Cell>, real), t: Tree, v: nat,
                                          m: real, depth: int, min: Option<real>, min1: real)
    requires Valid(sh) && |cs| == |sh| && Embeds(sh, t, v)
    requires cs1 == cs[v := cs[v].(x := cs[v].x + m, y := depth)]
    requires min1 == if min.None? || cs1[v].x < min.value then cs1[v].x else min.value
    requires p == SecondWalkKids(sh, cs1, v, 0, m + cs1[v].mod, depth + 1, min1)
    ensures && Placed(sh, cs, p.0, v, v + Size(t), m - RootMod(sh, cs, v), depth - sh[v].depth)
            && Same(cs, p.0, v, v + Size(t))
            && LeastX(p.0, v, v + Size(t), min, p.1)
    decreases t, 0, |t.children|, 2
  {
    assert t.children[..0] == [];
    SecondWalkKidsEffect(sh, cs1, t, v, 0, v + 1, m + cs1[v].mod, depth + 1, min1);
    SecondWalkJoin(sh, cs, cs1, p.0, v, v + Size(t), m, depth, min, min1, p.1);
  }

  /** The root's own step of the second walk, joined with the walk over its children. */
  lemma {:induction false} SecondWalkJoin(sh: Shape, cs: seq<Cell>, cs1: seq<Cell>, r: seq<Cell>, v: nat, hi: nat,
                       m: real, depth: int, min: Option<real>, min1: real, mn: real)
    requires Valid(sh) && |cs| == |sh| && |r| == |sh| && v < hi <= |sh|
    requires cs1 == cs[v := cs[v].(x := cs[v].x + m, y := depth)]
    requires min1 == if min.None? || cs1[v].x < min.value then cs1[v].x else min.value
    requires Placed(sh, cs1, r, v + 1, hi, m + cs1[v].mod - RootMod(sh, cs1, v) - cs1[v].mod, depth + 1 - 1 - sh[v].depth)
    requires Same(cs1, r, v + 1, hi)
    requires LeastX(r, v + 1, hi, Some(min1), mn)
    ensures Placed(sh, cs, r, v, hi, m - RootMod(sh, cs, v), depth - sh[v].depth)
    ensures Same(cs, r, v, hi)
    ensures LeastX(r, v, hi, min, mn)
  {
    SecondWalkJoinPlaced(sh, cs, cs1, r, v, hi, m, depth);
    assert LeastX(cs1, v, v + 1, min, min1);
    ComposeLeast(cs1, r, v, v + 1, hi, min, min1, mn);
  }

  lemma {:induction false} SecondWalkJoinPlaced(sh: Shape, cs: seq<Cell>, cs1: seq<Cell>, r: seq<Cell>, v: nat, hi: nat, m: real, depth: int)
    requires Valid(sh) && |cs| == |sh| && |r| == |sh| && v < hi <= |sh|
    requires cs1 == cs[v := cs[v].(x := cs[v].x + m, y := depth)]
    requires Placed(sh, cs1, r, v + 1, hi, m + cs1[v].mod - RootMod(sh, cs1, v) - cs1[v].mod, depth + 1 - 1 - sh[v].depth)
    requires Same(cs1, r, v + 1, hi)
    ensures Placed(sh, cs, r, v, hi, m - RootMod(sh, cs, v), depth - sh[v].depth)
    ensures Same(cs, r, v, hi)
  {
    var off, db := m - RootMod(sh, cs, v), depth - sh[v].depth;
    RootModFrame(sh, cs, cs1, v);
    assert Placed(sh, cs1, r, v + 1, hi, off, db);
    assert Placed(sh, cs, cs1, v, v + 1, off, db);
    ComposePlaced(sh, cs, cs1, r, v, v + 1, hi, off, db);
  }

  /** The `for` loop of the second walk from child `j`, whose subtree starts at `lo`, on. */
  lemma {:induction false} SecondWalkKidsEffect(sh: Shape, cs: seq<Cell>, t: Tree, v: nat, j: nat, lo: nat, m: real, depth: int, min: real)
    requires Valid(sh) && |cs| == |sh| && Embeds(sh, t, v) && j <= |t.children|
    requires lo == v + 1 + SizeForest(t.children[..j])
    ensures lo <= v + Size(t)
    ensures var p := SecondWalkKids(sh, cs, v, j, m, depth, min);
            && Placed(sh, cs, p.0, lo, v + Size(t), m - RootMod(sh, cs, v) - cs[v].mod, depth - 1 - sh[v].depth)
            && Same(cs, p.0, lo, v + Size(t))
            && LeastX(p.0, lo, v + Size(t), Some(min), p.1)
    decreases t, 0, |t.children| - j, 1
  {
    EmbedsEnd(sh, t, v);
    if j == |t.children| {
      assert t.children[..j] == t.children;
    } else {
      SecondWalkKidsStep(sh, cs, t, v, j, lo, m, depth, min);
    }
  }

  /** One pass of that loop: walk child `j`, then the children after it. */
  lemma {:induction false} SecondWalkKidsStep(sh: Shape, cs: seq<Cell>, t: Tree, v: nat, j: nat, lo: nat, m: real, depth: int, min: real)
    requires Valid(sh) && |cs| == |sh| && Embeds(sh, t, v) && j < |t.children|
    requires lo == v + 1 + SizeForest(t.children[..j])
    ensures lo <= v + Size(t)
    ensures var p := SecondWalkKids(sh, cs, v, j, m, depth, min);
            && Placed(sh, cs, p.0, lo, v + Size(t), m - RootMod(sh, cs, v) - cs[v].mod, depth - 1 - sh[v].depth)
            && Same(cs, p.0, lo, v + Size(t))
            && LeastX(p.0, lo, v + Size(t), Some(min), p.1)
    decreases t, 0, |t.children| - j, 0
  {
    EmbedsChild(sh, t, v, j);
    var c := sh[v].children[j];
    var p1 := SecondWalk(sh, cs, c, m, depth, Some(min));
    SecondWalkEffect(sh, cs, t.children[j], c, m, depth, Some(min));
    SecondWalkKidsRest(sh, cs, p1, t, v, j, lo, m, depth, min);
  }

  /** The children after child `j`, walked from the cells `p1` that child `j`'s walk
      left, complete that pass. */
  lemma {:induction false} SecondWalkKidsRest(sh: Shape, cs: seq<Cell>, p1: (seq<Cell>, real), t: Tree, v: nat, j: nat,
                                              lo: nat, m: real, depth: int, min: real)
    requires Valid(sh) && |cs| == |sh| && |p1.0| == |sh| && Embeds(sh, t, v) && j < |t.children|
    requires |sh[v].children| == |t.children|
    requires lo == v + 1 + SizeForest(t.children[..j]) && lo == sh[v].children[j]
    requires lo + Size(t.children[j]) == v + 1 + SizeForest(t.children[..j + 1]) <= v + Size(t)
    requires sh[lo].parent == Some(v) && sh[lo].depth == sh[v].depth + 1
    requires forall u | 0 <= u < |sh| :: p1.0[u].mod == cs[u].mod
    requires Placed(sh, cs, p1.0, lo, lo + Size(t.children[j]), m - RootMod(sh, cs, lo), depth - sh[lo].depth)
    requires Same(cs, p1.0, lo, lo + Size(t.children[j])) && LeastX(p1.0, lo, lo + Size(t.children[j]), Some(min), p1.1)
    ensures lo <= v + Size(t)
    ensures var p := SecondWalkKids(sh, p1.0, v, j + 1, m, depth, p1.1);
            && Placed(sh, cs, p.0, lo, v + Size(t), m - RootMod(sh, cs, v) - cs[v].mod, depth - 1 - sh[v].depth)
            && Same(cs, p.0, lo, v + Size(t))
            && LeastX(p.0, lo, v + Size(t), Some(min), p.1)
    decreases t, 0, |t.children| - j - 1, 2
  {
    var mid, hi := lo + Size(t.children[j]), v + Size(t);
    var p := SecondWalkKids(sh, p1.0, v, j + 1, m, depth, p1.1);
    SecondWalkKidsEffect(sh, p1.0, t, v, j + 1, mid, m, depth, p1.1);
    SecondWalkKidsCompose(sh, cs, p1, p, v, lo, mid, hi, m, depth, min);
  }

  /** Joins the walk of one child (`lo..mid`) with the walk of the children after it
      (`mid..hi`). */
  lemma {:induction false} SecondWalkKidsCompose(sh: Shape, cs: seq<Cell>, p1: (seq<Cell>, real), p: (seq<Cell>, real),
                              v: nat, lo: nat, mid: nat, hi: nat, m: real, depth: int, min: real)
    requires Valid(sh) && |cs| == |sh| && |p1.0| == |sh| && |p.0| == |sh| && v < lo < mid <= hi <= |sh|
    requires sh[lo].parent == Some(v) && sh[lo].depth == sh[v].depth + 1
    requires Placed(sh, cs, p1.0, lo, mid, m - RootMod(sh, cs, lo), depth - sh[lo].depth)
    requires Same(cs, p1.0, lo, mid) && LeastX(p1.0, lo, mid, Some(min), p1.1)
    requires Placed(sh, p1.0, p.0, mid, hi, m - RootMod(sh, p1.0, v) - p1.0[v].mod, depth - 1 - sh[v].depth)
    requires Same(p1.0, p.0, mid, hi) && LeastX(p.0, mid, hi, Some(p1.1), p.1)
    ensures Placed(sh, cs, p.0, lo, hi, m - RootMod(sh, cs, v) - cs[v].mod, depth - 1 - sh[v].depth)
    ensures Same(cs, p.0, lo, hi)
    ensures LeastX(p.0, lo, hi, Some(min), p.1)
  {
    var off, db := m - RootMod(sh, cs, v) - cs[v].mod, depth - 1 - sh[v].depth;
    assert RootMod(sh, cs, lo) == RootMod(sh, cs, v) + cs[v].mod;
    assert Placed(sh, cs, p1.0, lo, mid, off, db);
    RootModFrame(sh, cs, p1.0, v);
    assert p1.0[v] == cs[v];
    assert Placed(sh, p1.0, p.0, mid, hi, off, db);
    ComposePlaced(sh, cs, p1.0, p.0, lo, mid, hi, off, db);
    ComposeLeast(p1.0, p.0, lo, mid, hi, Some(min), p1.1, p.1);
  }

  /** Cells `lo..hi` have had `n` added to `x`. */
  ghost predicate Raised(cs: seq<Cell>, r: seq<Cell>, lo: nat, hi: nat, n: real)
    requires hi <= |cs| && |r| == |cs|
  {
    forall u | lo <= u < hi :: r[u] == cs[u].(x := cs[u].x + n)
  }

  /** The third walk from `v` adds `n` to every `x` of `v`'s subtree and nothing else. */
  lemma {:induction false} ThirdWalkEffect(sh: Shape, cs: seq<Cell>, t: Tree, v: nat, n: real)
    requires Valid(sh) && |cs| == |sh| && Embeds(sh, t, v)
    ensures var r := ThirdWalk(sh, cs, v, n);
            Raised(cs, r, v, v + Size(t), n) && Same(cs, r, v, v + Size(t))
    decreases t, 1
  {
    var cs1 := cs[v := cs[v].(x := cs[v].x + n)];
    assert t.children[..0] == [];
    ThirdWalkKidsEffect(sh, cs1, t, v, 0, v + 1, n);
  }

  lemma {:induction false} ThirdWalkKidsEffect(sh: Shape, cs: seq<Cell>, t: Tree, v: nat, j: nat, lo: nat, n: real)
    requires Valid(sh) && |cs| == |sh| && Embeds(sh, t, v) && j <= |t.children|
    requires lo == v + 1 + SizeForest(t.children[..j])
    ensures lo <= v + Size(t)
    ensures var r := ThirdWalkKids(sh, cs, v, j, n);
            Raised(cs, r, lo, v + Size(t), n) && Same(cs, r, lo, v + Size(t))
    decreases t, 0, |t.children| - j
  {
    EmbedsEnd(sh, t, v);
    if j == |t.children| {
      assert t.children[..j] == t.children;
    } else {
      EmbedsChild(sh, t, v, j);
      var c := sh[v].children[j];
      var cs1 := ThirdWalk(sh, cs, c, n);
      ThirdWalkEffect(sh, cs, t.children[j], c, n);
      ThirdWalkKidsEffect(sh, cs1, t, v, j + 1, c + Size(t.children[j]), n);
    }
  }

  /** The rows `lo..hi` of the arena as `{id, x, y}` entries. */
  function Rows(sh: Shape, cs: seq<Cell>, lo: nat, hi: nat): (r: seq<Position>)
    requires lo <= hi <= |sh| && |cs| == |sh|
    ensures |r| == hi - lo
    ensures forall k | 0 <= k < hi - lo :: r[k] == Position(sh[lo + k].id, cs[lo + k].x, cs[lo + k].y)
  {
    seq(hi - lo, k requires 0 <= k < hi - lo => Position(sh[lo + k].id, cs[lo + k].x, cs[lo + k].y))
  }

  lemma {:induction false} RowsSplit(sh: Shape, cs: seq<Cell>, lo: nat, mid: nat, hi: nat)
    requires lo <= mid <= hi <= |sh| && |cs| == |sh|
    ensures Rows(sh, cs, lo, mid) + Rows(sh, cs, mid, hi) == Rows(sh, cs, lo, hi)
  {
    assert forall k | 0 <= k < hi - lo :: (Rows(sh, cs, lo, mid) + Rows(sh, cs, mid, hi))[k] == Rows(sh, cs, lo, hi)[k];
  }

  /** `_extractNodePositions` lists `v`'s subtree in pre-order, which is arena order. */
  lemma {:induction false} ExtractRows(sh: Shape, cs: seq<Cell>, t: Tree, v: nat)
    requires Valid(sh) && |cs| == |sh| && Embeds(sh, t, v)
    ensures Extract(sh, cs, v) == Rows(sh, cs, v, v + Size(t))
    decreases t, 1
  {
    assert t.children[..0] == [];
    ExtractKidsRows(sh, cs, t, v, 0, v + 1);
    RowsSplit(sh, cs, v, v + 1, v + Size(t));
  }

  lemma {:induction false} ExtractKidsRows(sh: Shape, cs: seq<Cell>, t: Tree, v: nat, j: nat, lo: nat)
    requires Valid(sh) && |cs| == |sh| && Embeds(sh, t, v) && j <= |t.children|
    requires lo == v + 1 + SizeForest(t.children[..j])
    ensures lo <= v + Size(t)
    ensures ExtractKids(sh, cs, v, j) == Rows(sh, cs, lo, v + Size(t))
    decreases t, 0, |t.children| - j
  {
    EmbedsEnd(sh, t, v);
    var hi := v + Size(t);
    if j == |t.children| {
      assert t.children[..j] == t.children;
      assert lo == hi;
      assert Rows(sh, cs, lo, hi) == [];
    } else {
      EmbedsChild(sh, t, v, j);
      var c := sh[v].children[j];
      var mid := c + Size(t.children[j]);
      assert lo == c;
      var head, rest := Extract(sh, cs, c), ExtractKids(sh, cs, v, j + 1);
      assert ExtractKids(sh, cs, v, j) == head + rest;
      ExtractRows(sh, cs, t.children[j], c);
      ExtractKidsRows(sh, cs, t, v, j + 1, mid);
      RowsSplit(sh, cs, lo, mid, hi);
    }
  }

  /** After the first walk, the second walk adds to every `x` the `mod` sum of the node's
      ancestors, sets every `y` to the depth, and reports the least resulting `x`. */
  lemma {:induction false} PlacementEffect(sh: Shape, t: Tree)
    requires Valid(sh) && Embeds(sh, t, 0) && |sh| == Size(t)
    ensures Placement(sh).Success? <==> FirstWalk(sh, InitCells(sh), 0).Success?
    ensures Placement(sh).Success? ==>
              var c1 := FirstWalk(sh, InitCells(sh), 0).value;
              var p := Placement(sh).value;
              && |p.0| == |sh|
              && (forall u | 0 <= u < |sh| :: p.0[u] == c1[u].(x := c1[u].x + RootMod(sh, c1, u), y := sh[u].depth))
              && LeastX(p.0, 0, |sh|, None, p.1)
  {
    var fw := FirstWalk(sh, InitCells(sh), 0);
    if fw.Success? {
      SecondWalkEffect(sh, fw.value, t, 0, 0.0, 0, None);
      assert RootMod(sh, fw.value, 0) == 0.0;
    }
  }

  /** `layout()`: when the least `x` is negative, every `x` is raised by exactly its
      negation; otherwise nothing moves. Either way the entries are the arena rows. */
  lemma {:induction false} LayoutEffect(sh: Shape, t: Tree)
    requires Valid(sh) && Embeds(sh, t, 0) && |sh| == Size(t)
    ensures Layout(sh).Success? <==> Placement(sh).Success?
    ensures Layout(sh).Success? ==>
              var p := Placement(sh).value;
              var r := Layout(sh).value;
              && |r| == |sh|
              && forall k | 0 <= k < |sh| ::
                   r[k] == Position(sh[k].id, p.0[k].x + (if p.1 < 0.0 then -p.1 else 0.0), p.0[k].y)
  {
    var pl := Placement(sh);
    if pl.Success? {
      var p := pl.value;
      var n := if p.1 < 0.0 then -p.1 else 0.0;
      var cs := Normalize(sh, p.0, p.1);
      NormalizeEffect(sh, t, p.0, p.1);
      ExtractRows(sh, cs, t, 0);
      var r := Extract(sh, cs, 0);
      forall k | 0 <= k < |sh|
        ensures r[k] == Position(sh[k].id, p.0[k].x + n, p.0[k].y)
      {
        assert r[k] == Rows(sh, cs, 0, |sh|)[k];
      }
    }
  }

  /** The third walk, when it runs, raises every `x` by exactly `-min`. */
  lemma {:induction false} NormalizeEffect(sh: Shape, t: Tree, placed: seq<Cell>, min: real)
    requires Valid(sh) && Embeds(sh, t, 0) && |sh| == Size(t) && |placed| == |sh|
    ensures var cs := Normalize(sh, placed, min);
            forall u | 0 <= u < |sh| :: cs[u] == placed[u].(x := placed[u].x + (if min < 0.0 then -min else 0.0))
  {
    if min < 0.0 {
      ThirdWalkEffect(sh, placed, t, 0, -min);
      assert Raised(placed, Normalize(sh, placed, min), 0, |sh|, -min);
    }
  }

  /** `calc()` never fails; it returns one entry per tree node, in pre-order, with `y`
      the node's depth and `x` never negative. */
  lemma {:induction false} CalcShape(t: Tree)
    ensures Calc(t).Success?
    ensures var r := Calc(t).value;
            && |r| == Size(t)
            && forall k | 0 <= k < |r| ::
                 r[k].id == PreorderIds(t)[k] && r[k].y == Build(t)[k].depth && r[k].x >= 0.0
  {
    TreeLayoutSuccess.CalcSucceeds(t);
    BuildValid(t);
    var sh := Build(t);
    PlacementEffect(sh, t);
    LayoutEffect(sh, t);
    var p := Placement(sh).value;
    var r := Calc(t).value;
    forall k | 0 <= k < |r|
      ensures r[k].x >= 0.0
    {
      assert p.1 <= p.0[k].x;
    }
  }

  /** The root sits at arena index 0 with depth 0; with `ChildFacts` (a child is one
      level below its parent) every node's depth is its distance from the root. */
  lemma {:induction false} RootDepth(t: Tree)
    ensures Build(t)[0].depth == 0 && Build(t)[0].id == t.id
  {
    BuildValid(t);
    FlattenHead(t, None, 0, 1, 0);
  }
}

=== FILE: layout_success.dfy ===
/** Why the walks of src/util/Layout.js never fail on a tree the constructor built.
    Neither `MissingContour` nor `NonFiniteShift` can happen:

    - After `_firstWalk(v)`, the left contour of `v` (follow `_left()` from `v`) and its
      right contour (follow `_right()`) both reach exactly `Height(t)` levels down.
      After the children loop has handled children `0..j-1`, the left contour from the
      first child and the right contour from child `j - 1` both reach the greatest
      height among them. `_apportion` walks its four cursors down these contours in
      step, so the outer cursors always exist while the inner ones do. It then threads
      the shorter contour onto the longer one, which restores the statement for child `j`.
    - Every thread and every recorded `_ancestor` of a node in a subtree points inside
      that subtree. So the ancestor `_ancestor` picks is an earlier sibling of `v`, and
      so is the default ancestor: its `_number` is smaller than `v`'s and the division
      of `_moveSubtree` is by a positive count. */
module TreeLayoutSuccess {
  import opened Results
  import opened LayoutTree
  import opened TreeLayout

  function Max(a: nat, b: nat): nat { if a < b then b else a }

  function Min(a: nat, b: nat): nat { if a < b then a else b }

  /** The number of levels below a tree's root: 0 for a leaf. */
  function Height(t: Tree): nat
    decreases t, 1
  {
    if t.children == [] then 0 else 1 + ForestHeight(t.children)
  }

  /** The greatest height in a forest, 0 for the empty forest. */
  function ForestHeight(ts: seq<Tree>): nat
    decreases ts, 0
  {
    if ts == [] then 0 else Max(ForestHeight(ts[..|ts| - 1]), Height(ts[|ts| - 1]))
  }

  lemma {:induction false} ForestHeightSnoc(ts: seq<Tree>, j: nat)
    requires j < |ts|
    ensures ForestHeight(ts[..j + 1]) == Max(ForestHeight(ts[..j]), Height(ts[j]))
  {
    assert ts[..j + 1][..j] == ts[..j];
  }

  /** Arena index where the subtree of child `j` of `v` starts (or, for `j` equal to the
      number of children, where `v`'s subtree ends). */
  function Mid(t: Tree, v: nat, j: nat): (m: nat)
    requires j <= |t.children|
    ensures v < m <= v + Size(t)
  {
    SizeForestMono(t.children, j, |t.children|);
    assert t.children[..|t.children|] == t.children;
    v + 1 + SizeForest(t.children[..j])
  }

  lemma {:induction false} SizeForestMono(ts: seq<Tree>, a: nat, b: nat)
    requires a <= b <= |ts|
    ensures SizeForest(ts[..a]) <= SizeForest(ts[..b])
    decreases b
  {
    if a < b {
      SizeForestMono(ts, a, b - 1);
      SizeForestSnoc(ts, b - 1);
    }
  }

  // ---- Contours -----------------------------------------------------------------

  /** One step of `_left()` (when `left`) or `_right()` from `x`: the thread, else the
      first or last child, else nothing. */
  function Next(sh: Shape, cs: seq<Cell>, x: nat, left: bool): Option<nat>
    requires |cs| == |sh| && x < |sh|
  {
    if cs[x].thread.Some? then cs[x].thread
    else if sh[x].children == [] then None
    else if left then Some(sh[x].children[0])
    else Some(sh[x].children[|sh[x].children| - 1])
  }

  /** `k` steps down from `u`. The result is `None` once a step finds neither a thread
      nor a child. */
  function Walk(sh: Shape, cs: seq<Cell>, u: nat, k: nat, left: bool): Option<nat>
    requires |cs| == |sh|
  {
    if k == 0 then Some(u)
    else
      match Walk(sh, cs, u, k - 1, left)
      case None => None
      case Some(x) => if x < |sh| then Next(sh, cs, x, left) else None
  }

  /** The contour of `u` on one side reaches exactly `h` levels below `u`. */
  ghost predicate Reaches(sh: Shape, cs: seq<Cell>, u: nat, h: nat, left: bool)
    requires |cs| == |sh|
  {
    Walk(sh, cs, u, h, left).Some? && Walk(sh, cs, u, h + 1, left).None?
  }

  /** The left contour from the first child of `p` and the right contour from child
      `j - 1` both reach `h` levels down. */
  ghost predicate ForestReaches(sh: Shape, cs: seq<Cell>, p: nat, j: nat, h: nat)
    requires |cs| == |sh| && p < |sh|
  {
    && 0 < j <= |sh[p].children|
    && Reaches(sh, cs, sh[p].children[0], h, true)
    && Reaches(sh, cs, sh[p].children[j - 1], h, false)
  }

  /** Child `j` of `u`. Facts about every child are stated through it, so that they are
      used only where a proof names a child. */
  ghost function Kid(sh: Shape, u: nat, j: nat): nat
    requires u < |sh| && j < |sh[u].children|
  {
    sh[u].children[j]
  }

  /** The children of the nodes of `lo..hi` stay in `lo..hi`. */
  ghost predicate KidsClosed(sh: Shape, lo: nat, hi: nat)
    requires hi <= |sh|
  {
    forall u, j | lo <= u < hi && 0 <= j < |sh[u].children| :: lo <= Kid(sh, u, j) < hi
  }

  /** The threads of the nodes of `lo..hi` stay in `lo..hi`. */
  ghost predicate ThreadsIn(cs: seq<Cell>, lo: nat, hi: nat)
    requires hi <= |cs|
  {
    forall u | lo <= u < hi :: cs[u].thread.Some? ==> lo <= cs[u].thread.value < hi
  }

  /** The recorded ancestors of the nodes of `lo..hi` lie in `lo..hi`. */
  ghost predicate AncIn(cs: seq<Cell>, lo: nat, hi: nat)
    requires hi <= |cs|
  {
    forall u | lo <= u < hi :: lo <= cs[u].ancestor < hi
  }

  /** The nodes of `lo..hi` are as the constructor left them: no thread, own ancestor. */
  ghost predicate Fresh(cs: seq<Cell>, lo: nat, hi: nat)
    requires hi <= |cs|
  {
    forall u | lo <= u < hi :: cs[u].thread.None? && cs[u].ancestor == u
  }

  /** Outside `lo..hi`, threads and ancestors are unchanged. */
  ghost predicate LinksOutside(cs: seq<Cell>, r: seq<Cell>, lo: nat, hi: nat) {
    && |r| == |cs|
    && forall u | 0 <= u < |cs| && !(lo <= u < hi) :: r[u].thread == cs[u].thread && r[u].ancestor == cs[u].ancestor
  }

  ghost predicate SameThreads(cs: seq<Cell>, r: seq<Cell>) {
    && |r| == |cs|
    && forall u | 0 <= u < |cs| :: r[u].thread == cs[u].thread
  }

  /** The nodes of `p`'s child list that lie in `lo..c` have smaller numbers than `c`. */
  ghost predicate EarlierSiblings(sh: Shape, p: nat, c: nat, lo: nat)
    requires p < |sh| && c < |sh|
  {
    forall i | 0 <= i < |sh[p].children| && lo <= sh[p].children[i] < c ::
      sh[sh[p].children[i]].number < sh[c].number
  }

  // ---- Walks --------------------------------------------------------------------

  /** On valid cells a step is a call of `_left()` or `_right()`. */
  lemma {:induction false} NextIsStep(sh: Shape, cs: seq<Cell>, x: nat, left: bool)
    requires Valid(sh) && CellsValid(sh, cs) && x < |sh|
    ensures Next(sh, cs, x, left) == if left then Left(sh, cs, x) else Right(sh, cs, x)
  {
  }

  /** Every node of a walk is an arena node, one level deeper per step. */
  lemma {:induction false} WalkDepth(sh: Shape, cs: seq<Cell>, u: nat, k: nat, left: bool)
    requires Valid(sh) && CellsValid(sh, cs) && u < |sh| && Walk(sh, cs, u, k, left).Some?
    ensures Walk(sh, cs, u, k, left).value < |sh|
    ensures sh[Walk(sh, cs, u, k, left).value].depth == sh[u].depth + k
    decreases k
  {
    if k > 0 {
      var x := Walk(sh, cs, u, k - 1, left).value;
      WalkDepth(sh, cs, u, k - 1, left);
      NextIsStep(sh, cs, x, left);
    }
  }

  /** Step `k + 1` of a walk over `cs` is `_left()`/`_right()` on cells with the same threads. */
  lemma {:induction false} StepWalk(sh: Shape, cs: seq<Cell>, cells: seq<Cell>, u: nat, k: nat, x: nat, left: bool)
    requires Valid(sh) && CellsValid(sh, cells) && |cs| == |sh| && SameThreads(cs, cells)
    requires x < |sh| && Walk(sh, cs, u, k, left) == Some(x)
    ensures Walk(sh, cs, u, k + 1, left) == if left then Left(sh, cells, x) else Right(sh, cells, x)
  {
    NextIsStep(sh, cells, x, left);
    assert Next(sh, cs, x, left) == Next(sh, cells, x, left);
  }

  lemma {:induction false} WalkStops(sh: Shape, cs: seq<Cell>, u: nat, k: nat, n: nat, left: bool)
    requires |cs| == |sh| && k <= n && Walk(sh, cs, u, k, left).None?
    ensures Walk(sh, cs, u, n, left).None?
    decreases n
  {
    if n > k {
      WalkStops(sh, cs, u, k, n - 1, left);
    }
  }

  /** A contour that reaches `h` levels has a node on every level up to `h` and none below. */
  lemma {:induction false} ReachesIff(sh: Shape, cs: seq<Cell>, u: nat, h: nat, k: nat, left: bool)
    requires |cs| == |sh| && Reaches(sh, cs, u, h, left)
    ensures Walk(sh, cs, u, k, left).Some? <==> k <= h
  {
    if k <= h {
      if Walk(sh, cs, u, k, left).None? {
        WalkStops(sh, cs, u, k, h, left);
      }
    } else {
      WalkStops(sh, cs, u, h + 1, k, left);
    }
  }

  /** Walking `a + i` steps is walking `a` steps, then `i` more. */
  lemma {:induction false} WalkSplice(sh: Shape, cs: seq<Cell>, u: nat, a: nat, i: nat, left: bool)
    requires |cs| == |sh| && Walk(sh, cs, u, a, left).Some?
    ensures Walk(sh, cs, u, a + i, left) == Walk(sh, cs, Walk(sh, cs, u, a, left).value, i, left)
    decreases i
  {
    if i > 0 {
      WalkSplice(sh, cs, u, a, i - 1, left);
    }
  }

  /** Cells with the same threads have the same contours. */
  lemma {:induction false} WalkSameThreads(sh: Shape, cs: seq<Cell>, r: seq<Cell>, u: nat, k: nat, left: bool)
    requires |cs| == |sh| && SameThreads(cs, r)
    ensures Walk(sh, r, u, k, left) == Walk(sh, cs, u, k, left)
    decreases k
  {
    if k > 0 {
      WalkSameThreads(sh, cs, r, u, k - 1, left);
    }
  }

  /** A walk that starts in a closed range stays in it, and reads only the threads there. */
  lemma {:induction false} WalkInside(sh: Shape, cs: seq<Cell>, r: seq<Cell>, u: nat, k: nat, lo: nat, hi: nat, left: bool)
    requires |cs| == |sh| && |r| == |sh| && hi <= |sh|
    requires KidsClosed(sh, lo, hi) && ThreadsIn(cs, lo, hi) && lo <= u < hi
    requires forall x | lo <= x < hi :: r[x].thread == cs[x].thread
    ensures Walk(sh, r, u, k, left) == Walk(sh, cs, u, k, left)
    ensures Walk(sh, cs, u, k, left).Some? ==> lo <= Walk(sh, cs, u, k, left).value < hi
    decreases k
  {
    if k > 0 {
      WalkInside(sh, cs, r, u, k - 1, lo, hi, left);
      match Walk(sh, cs, u, k - 1, left)
      case None =>
      case Some(x) =>
        if sh[x].children != [] {
          assert lo <= Kid(sh, x, 0) < hi;
          assert lo <= Kid(sh, x, |sh[x].children| - 1) < hi;
        }
    }
  }

  /** A walk that has not yet reached the depth of `z` does not read `z`'s thread. */
  lemma {:induction false} WalkAbove(sh: Shape, cs: seq<Cell>, r: seq<Cell>, z: nat, u: nat, k: nat, left: bool)
    requires Valid(sh) && CellsValid(sh, cs) && |r| == |sh| && z < |sh| && u < |sh|
    requires forall x | 0 <= x < |sh| && x != z :: r[x].thread == cs[x].thread
    requires sh[u].depth + k <= sh[z].depth
    ensures Walk(sh, r, u, k, left) == Walk(sh, cs, u, k, left)
    decreases k
  {
    if k > 0 {
      WalkAbove(sh, cs, r, z, u, k - 1, left);
      if Walk(sh, cs, u, k - 1, left).Some? {
        WalkDepth(sh, cs, u, k - 1, left);
      }
    }
  }

  /** The contour facts carry over to cells whose threads agree on a closed range. */
  lemma {:induction false} ReachesInside(sh: Shape, cs: seq<Cell>, r: seq<Cell>, u: nat, h: nat, lo: nat, hi: nat, left: bool)
    requires |cs| == |sh| && |r| == |sh| && hi <= |sh|
    requires KidsClosed(sh, lo, hi) && ThreadsIn(cs, lo, hi) && lo <= u < hi
    requires forall x | lo <= x < hi :: r[x].thread == cs[x].thread
    requires Reaches(sh, cs, u, h, left)
    ensures Reaches(sh, r, u, h, left)
  {
    WalkInside(sh, cs, r, u, h, lo, hi, left);
    WalkInside(sh, cs, r, u, h + 1, lo, hi, left);
  }

  /** Once node `z`, the `a`-th node of `u`'s contour, has a thread, the contour's next
      node is the thread's target. */
  lemma {:induction false} GraftHead(sh: Shape, cs: seq<Cell>, r: seq<Cell>, u: nat, z: nat, a: nat, left: bool)
    requires Valid(sh) && CellsValid(sh, cs) && |r| == |sh| && u < |sh|
    requires Walk(sh, cs, u, a, left) == Some(z)
    requires forall x | 0 <= x < |sh| && x != z :: r[x].thread == cs[x].thread
    requires z < |sh| && r[z].thread.Some?
    ensures Walk(sh, r, u, a + 1, left) == r[z].thread
  {
    WalkDepth(sh, cs, u, a, left);
    WalkAbove(sh, cs, r, z, u, a, left);
  }

  /** Threading node `z`, the `a`-th node of `u`'s contour, onto the node on level
      `a + 1` of the contour from `src` makes `u`'s contour continue as that one. */
  lemma {:induction false} Graft(sh: Shape, cs: seq<Cell>, r: seq<Cell>, u: nat, z: nat, a: nat,
                                 src: nat, lo: nat, hi: nat, m: nat, left: bool)
    requires Valid(sh) && CellsValid(sh, cs) && |r| == |sh| && hi <= |sh| && u < |sh| && a < m
    requires Walk(sh, cs, u, a, left) == Some(z)
    requires forall x | 0 <= x < |sh| && x != z :: r[x].thread == cs[x].thread
    requires KidsClosed(sh, lo, hi) && ThreadsIn(cs, lo, hi) && !(lo <= z < hi)
    requires z < |sh| && r[z].thread.Some? && lo <= r[z].thread.value < hi
    requires Walk(sh, cs, src, a + 1, left) == r[z].thread
    ensures Walk(sh, r, u, m, left) == Walk(sh, cs, src, m, left)
  {
    GraftHead(sh, cs, r, u, z, a, left);
    var y := r[z].thread.value;
    var i := m - a - 1;
    assert Walk(sh, r, u, m, left) == Walk(sh, r, y, i, left) by {
      WalkSplice(sh, r, u, a + 1, i, left);
    }
    assert Walk(sh, r, y, i, left) == Walk(sh, cs, y, i, left) by {
      WalkInside(sh, cs, r, y, i, lo, hi, left);
    }
    assert Walk(sh, cs, src, m, left) == Walk(sh, cs, y, i, left) by {
      WalkSplice(sh, cs, src, a + 1, i, left);
    }
  }

  // ---- Ranges -------------------------------------------------------------------

  lemma {:induction false} KidsJoin(sh: Shape, a: nat, b: nat, c: nat)
    requires a <= b <= c <= |sh| && KidsClosed(sh, a, b) && KidsClosed(sh, b, c)
    ensures KidsClosed(sh, a, c)
  {
    forall u, j | a <= u < c && 0 <= j < |sh[u].children|
      ensures a <= Kid(sh, u, j) < c
    {
      if u < b {
        assert a <= Kid(sh, u, j) < b;
      } else {
        assert b <= Kid(sh, u, j) < c;
      }
    }
  }

  /** Threads that change only to point inside a closed range keep it closed. */
  lemma {:induction false} ThreadsFrame(cs: seq<Cell>, r: seq<Cell>, a: nat, b: nat, c: nat)
    requires a <= b <= c <= |cs| && |r| == |cs| && ThreadsIn(cs, a, b) && ThreadsIn(cs, b, c)
    requires forall x | a <= x < c :: r[x].thread == cs[x].thread || (r[x].thread.Some? && a <= r[x].thread.value < c)
    ensures ThreadsIn(r, a, c)
  {
  }

  lemma {:induction false} AncJoin(cs: seq<Cell>, r: seq<Cell>, a: nat, b: nat, c: nat)
    requires a <= b <= c <= |cs| && |r| == |cs| && AncIn(cs, a, b) && AncIn(cs, b, c)
    requires forall u | a <= u < c :: r[u].ancestor == cs[u].ancestor
    ensures AncIn(r, a, c)
  {
  }

  /** Two changes confined to ranges are confined to the larger range. */
  lemma {:induction false} LinksTrans(a: seq<Cell>, b: seq<Cell>, c: seq<Cell>, lo1: nat, hi1: nat, lo: nat, hi: nat)
    requires LinksOutside(a, b, lo1, hi1) && LinksOutside(b, c, lo, hi) && lo <= lo1 && hi1 <= hi
    ensures LinksOutside(a, c, lo, hi)
  {
  }

  /** The nodes of a subtree have their children inside the subtree. */
  lemma {:induction false} SubtreeKids(sh: Shape, t: Tree, v: nat)
    requires Valid(sh) && Embeds(sh, t, v)
    ensures KidsClosed(sh, v, v + Size(t))
  {
    var hi := v + Size(t);
    var s := sh[v .. hi];
    if sh[v].parent.Some? {
      ParentBefore(sh, v);
    }
    FlattenValid(t, sh[v].parent, sh[v].depth, sh[v].number, v);
    assert ValidSeg(s, v);
    forall u, j | v <= u < hi && 0 <= j < |sh[u].children|
      ensures v <= Kid(sh, u, j) < hi
    {
      assert NodeOk(s, v, u - v);
      assert s[u - v] == sh[u];
      assert ChildOk(s, v, u - v, j);
    }
  }

  /** Siblings appear in the arena in their order. */
  lemma {:induction false} KidBefore(sh: Shape, t: Tree, p: nat, i: nat, j: nat)
    requires Valid(sh) && Embeds(sh, t, p) && i < j < |t.children|
    ensures sh[p].children[i] < sh[p].children[j]
  {
    EmbedsChild(sh, t, p, i);
    EmbedsChild(sh, t, p, j);
    SizeForestMono(t.children, i + 1, j);
  }

  /** The children of `p` that come before child `j` in the arena are its earlier
      siblings, with smaller numbers. */
  lemma {:induction false} EarlierSiblingsOk(sh: Shape, t: Tree, p: nat, j: nat)
    requires Valid(sh) && Embeds(sh, t, p) && j < |t.children|
    ensures |sh[p].children| == |t.children| && sh[p].children[j] < |sh|
    ensures EarlierSiblings(sh, p, sh[p].children[j], p + 1)
  {
    EmbedsEnd(sh, t, p);
    ChildFacts(sh, p, j);
    var c := sh[p].children[j];
    forall i | 0 <= i < |sh[p].children| && p + 1 <= sh[p].children[i] < c
      ensures sh[sh[p].children[i]].number < sh[c].number
    {
      ChildFacts(sh, p, i);
      if i > j {
        KidBefore(sh, t, p, j, i);
      }
    }
  }

  // ---- _apportion ---------------------------------------------------------------

  /** The loop's state on level `k`: its cursors are the `k`-th nodes of the four
      contours, read in the cells `cs` from before the loop, whose threads the loop
      keeps, and the ancestors it records stay on their side of `c`. */
  ghost predicate LoopAt(sh: Shape, cs: seq<Cell>, c: nat, c0: nat, w: nat, e: nat, st: Contours, k: nat)
    requires |cs| == |sh| && c0 <= c <= e <= |sh|
  {
    && ContoursOk(sh, st) && SameThreads(cs, st.cells)
    && AncIn(st.cells, c0, c) && AncIn(st.cells, c, e)
    && Walk(sh, cs, w, k, false) == Some(st.vil) && Walk(sh, cs, c, k, true) == Some(st.vir)
    && Walk(sh, cs, c0, k, true) == st.vol && Walk(sh, cs, c, k, false) == Some(st.vor)
  }

  /** One pass of the loop succeeds: the ancestor it picks is an earlier sibling of `c`
      or the default ancestor, so its number is smaller than `c`'s. The pass records `c`
      as the ancestor of `nor`, inside `c..e`, and changes no thread. */
  lemma {:induction false} LoopStepOk(sh: Shape, p: nat, c: nat, c0: nat, e: nat, da: nat, st: Contours,
                                      nil: nat, nir: nat, nol: Option<nat>, nor: nat)
    returns (st1: Contours)
    requires Valid(sh) && CellsValid(sh, st.cells) && p < |sh| && c0 <= c < e <= |sh| && da < |sh|
    requires sh[c].parent == Some(p) && sh[da].number < sh[c].number && EarlierSiblings(sh, p, c, c0)
    requires AncIn(st.cells, c0, c) && AncIn(st.cells, c, e)
    requires c0 <= nil < c && c <= nor < e && nir < |sh| && (nol.Some? ==> nol.value < |sh|)
    ensures ContourStep(sh, c, da, st, nil, nir, nol, nor) == Success(st1)
    ensures AncIn(st1.cells, c0, c) && AncIn(st1.cells, c, e) && LinksOutside(st.cells, st1.cells, c, e)
  {
    var cs1 := st.cells[nor := st.cells[nor].(ancestor := c)];
    assert CellOk(sh, st.cells, nor);
    UpdateValid(sh, st.cells, nor, cs1[nor]);
    var a := AncestorOf(sh, cs1, nil, c, da);
    assert cs1[nil].ancestor == st.cells[nil].ancestor;
    if st.cells[nil].ancestor in sh[p].children {
      var i :| 0 <= i < |sh[p].children| && sh[p].children[i] == st.cells[nil].ancestor;
      assert c0 <= sh[p].children[i] < c;
    }
    assert sh[a].number != sh[c].number;
    var r := ContourStep(sh, c, da, st, nil, nir, nol, nor);
    assert r.Success?;
    st1 := r.value;
  }

  /** The `while` loop of `_apportion` for child `c` of `p`, entered with its cursors on
      level `k` of the four contours: right from `w` and left from the first child `c0`
      (the earlier siblings, in `c0..c`), left and right from `c` (its subtree `c..e`).
      It never fails and stops on level `Min(hf, hv)`. It writes no thread and records
      `c` as ancestor only inside `c..e`. */
  lemma {:induction false} LoopOk(sh: Shape, cs: seq<Cell>, p: nat, c: nat, c0: nat, w: nat, e: nat, da: nat,
                                  st: Contours, k: nat, hf: nat, hv: nat)
    returns (s: Contours)
    requires Valid(sh) && |cs| == |sh| && p < |sh| && c0 <= w < c < e <= |sh| && da < |sh|
    requires sh[c].parent == Some(p) && sh[da].number < sh[c].number && EarlierSiblings(sh, p, c, c0)
    requires KidsClosed(sh, c0, c) && ThreadsIn(cs, c0, c) && KidsClosed(sh, c, e) && ThreadsIn(cs, c, e)
    requires Reaches(sh, cs, c0, hf, true) && Reaches(sh, cs, w, hf, false)
    requires Reaches(sh, cs, c, hv, true) && Reaches(sh, cs, c, hv, false)
    requires k <= hf && k <= hv
    requires LoopAt(sh, cs, c, c0, w, e, st, k)
    ensures ApportionLoop(sh, c, da, st) == Success(s)
    ensures ContoursOk(sh, s) && SameThreads(cs, s.cells)
    ensures AncIn(s.cells, c0, c) && AncIn(s.cells, c, e) && LinksOutside(st.cells, s.cells, c, e)
    ensures Walk(sh, cs, w, Min(hf, hv), false) == Some(s.vil) && Walk(sh, cs, c, Min(hf, hv), true) == Some(s.vir)
    ensures Walk(sh, cs, c0, Min(hf, hv), true) == s.vol && Walk(sh, cs, c, Min(hf, hv), false) == Some(s.vor)
    decreases Min(hf, hv) - k, 1
  {
    if k == hf || k == hv {
      LoopBase(sh, cs, c, w, da, st, k, hf, hv);
      s := st;
    } else {
      s := LoopNext(sh, cs, p, c, c0, w, e, da, st, k, hf, hv);
    }
  }

  /** Above the last level the loop makes one pass and runs on from the level below. */
  lemma {:induction false} LoopNext(sh: Shape, cs: seq<Cell>, p: nat, c: nat, c0: nat, w: nat, e: nat, da: nat,
                                    st: Contours, k: nat, hf: nat, hv: nat)
    returns (s: Contours)
    requires Valid(sh) && |cs| == |sh| && p < |sh| && c0 <= w < c < e <= |sh| && da < |sh|
    requires sh[c].parent == Some(p) && sh[da].number < sh[c].number && EarlierSiblings(sh, p, c, c0)
    requires KidsClosed(sh, c0, c) && ThreadsIn(cs, c0, c) && KidsClosed(sh, c, e) && ThreadsIn(cs, c, e)
    requires Reaches(sh, cs, c0, hf, true) && Reaches(sh, cs, w, hf, false)
    requires Reaches(sh, cs, c, hv, true) && Reaches(sh, cs, c, hv, false)
    requires k < hf && k < hv
    requires LoopAt(sh, cs, c, c0, w, e, st, k)
    ensures ApportionLoop(sh, c, da, st) == Success(s)
    ensures ContoursOk(sh, s) && SameThreads(cs, s.cells)
    ensures AncIn(s.cells, c0, c) && AncIn(s.cells, c, e) && LinksOutside(st.cells, s.cells, c, e)
    ensures Walk(sh, cs, w, Min(hf, hv), false) == Some(s.vil) && Walk(sh, cs, c, Min(hf, hv), true) == Some(s.vir)
    ensures Walk(sh, cs, c0, Min(hf, hv), true) == s.vol && Walk(sh, cs, c, Min(hf, hv), false) == Some(s.vor)
    decreases Min(hf, hv) - k, 0
  {
    var st1 := LoopAdvance(sh, cs, p, c, c0, w, e, da, st, k, hf, hv);
    s := LoopOk(sh, cs, p, c, c0, w, e, da, st1, k + 1, hf, hv);
    LinksTrans(st.cells, st1.cells, s.cells, c, e, c, e);
  }

  /** On the last level of the shorter side the loop stops. */
  lemma {:induction false} LoopBase(sh: Shape, cs: seq<Cell>, c: nat, w: nat, da: nat, st: Contours, k: nat, hf: nat, hv: nat)
    requires Valid(sh) && |cs| == |sh| && c < |sh| && da < |sh|
    requires Reaches(sh, cs, w, hf, false) && Reaches(sh, cs, c, hv, true) && (k == hf || k == hv)
    requires ContoursOk(sh, st) && SameThreads(cs, st.cells)
    requires Walk(sh, cs, w, k, false) == Some(st.vil) && Walk(sh, cs, c, k, true) == Some(st.vir)
    ensures ApportionLoop(sh, c, da, st) == Success(st)
  {
    StepWalk(sh, cs, st.cells, w, k, st.vil, false);
    StepWalk(sh, cs, st.cells, c, k, st.vir, true);
    ReachesIff(sh, cs, w, hf, k + 1, false);
    ReachesIff(sh, cs, c, hv, k + 1, true);
  }

  /** Below both ends of the cursors' level there is one more level: the loop makes a
      pass, which succeeds and moves all four cursors one level down their contours. */
  lemma {:induction false} LoopAdvance(sh: Shape, cs: seq<Cell>, p: nat, c: nat, c0: nat, w: nat, e: nat, da: nat,
                                       st: Contours, k: nat, hf: nat, hv: nat)
    returns (st1: Contours)
    requires Valid(sh) && |cs| == |sh| && p < |sh| && c0 <= w < c < e <= |sh| && da < |sh|
    requires sh[c].parent == Some(p) && sh[da].number < sh[c].number && EarlierSiblings(sh, p, c, c0)
    requires KidsClosed(sh, c0, c) && ThreadsIn(cs, c0, c) && KidsClosed(sh, c, e) && ThreadsIn(cs, c, e)
    requires Reaches(sh, cs, c0, hf, true) && Reaches(sh, cs, w, hf, false)
    requires Reaches(sh, cs, c, hv, true) && Reaches(sh, cs, c, hv, false)
    requires k < hf && k < hv
    requires LoopAt(sh, cs, c, c0, w, e, st, k)
    ensures LoopAt(sh, cs, c, c0, w, e, st1, k + 1)
    ensures ApportionLoop(sh, c, da, st) == ApportionLoop(sh, c, da, st1)
    ensures LinksOutside(st.cells, st1.cells, c, e)
  {
    var cells := st.cells;
    ReachesIff(sh, cs, c0, hf, k, true);
    var vol := st.vol.value;
    var nil, nir, nol, nor := Cursors(sh, cs, st, c0, w, c, k, hf, hv);
    assert c0 <= nil < c by {
      WalkInside(sh, cs, cs, w, k + 1, c0, c, false);
    }
    assert c <= nor < e by {
      WalkInside(sh, cs, cs, c, k + 1, c, e, false);
    }
    st1 := LoopPass(sh, p, c, c0, e, da, st, nil, nir, nol, nor);
  }

  /** A pass of the loop from cursors whose next nodes are `nil`, `nir`, `nol`, `nor`
      leaves the rest of the loop to run from the pass's result. */
  lemma {:induction false} LoopPass(sh: Shape, p: nat, c: nat, c0: nat, e: nat, da: nat, st: Contours,
                                    nil: nat, nir: nat, nol: Option<nat>, nor: nat)
    returns (st1: Contours)
    requires Valid(sh) && ContoursOk(sh, st) && p < |sh| && c0 <= c < e <= |sh| && da < |sh|
    requires sh[c].parent == Some(p) && sh[da].number < sh[c].number && EarlierSiblings(sh, p, c, c0)
    requires AncIn(st.cells, c0, c) && AncIn(st.cells, c, e)
    requires c0 <= nil < c && c <= nor < e && nir < |sh| && (nol.Some? ==> nol.value < |sh|)
    requires st.vol.Some?
    requires Right(sh, st.cells, st.vil) == Some(nil) && Left(sh, st.cells, st.vir) == Some(nir)
    requires Left(sh, st.cells, st.vol.value) == nol && Right(sh, st.cells, st.vor) == Some(nor)
    ensures ContoursOk(sh, st1) && SameThreads(st.cells, st1.cells)
    ensures ApportionLoop(sh, c, da, st) == ApportionLoop(sh, c, da, st1)
    ensures AncIn(st1.cells, c0, c) && AncIn(st1.cells, c, e) && LinksOutside(st.cells, st1.cells, c, e)
    ensures st1.vil == nil && st1.vir == nir && st1.vol == nol && st1.vor == nor
  {
    st1 := LoopStepOk(sh, p, c, c0, e, da, st, nil, nir, nol, nor);
  }

  /** The cursors one level down: `_right(vil)`, `_left(vir)`, `_left(vol)`, `_right(vor)`
      are the next nodes of the four contours, and all but the last one of the earlier
      siblings' left contour exist. */
  lemma {:induction false} Cursors(sh: Shape, cs: seq<Cell>, st: Contours, c0: nat, w: nat, c: nat, k: nat, hf: nat, hv: nat)
    returns (nil: nat, nir: nat, nol: Option<nat>, nor: nat)
    requires Valid(sh) && |cs| == |sh| && ContoursOk(sh, st) && SameThreads(cs, st.cells)
    requires Reaches(sh, cs, c0, hf, true) && Reaches(sh, cs, w, hf, false)
    requires Reaches(sh, cs, c, hv, true) && Reaches(sh, cs, c, hv, false)
    requires k < hf && k < hv
    requires Walk(sh, cs, w, k, false) == Some(st.vil) && Walk(sh, cs, c, k, true) == Some(st.vir)
    requires Walk(sh, cs, c0, k, true) == st.vol && Walk(sh, cs, c, k, false) == Some(st.vor)
    ensures st.vol.Some?
    ensures Right(sh, st.cells, st.vil) == Some(nil) && Left(sh, st.cells, st.vir) == Some(nir)
    ensures Left(sh, st.cells, st.vol.value) == nol && Right(sh, st.cells, st.vor) == Some(nor)
    ensures Walk(sh, cs, w, k + 1, false) == Some(nil) && Walk(sh, cs, c, k + 1, true) == Some(nir)
    ensures Walk(sh, cs, c0, k + 1, true) == nol && Walk(sh, cs, c, k + 1, false) == Some(nor)
  {
    var cells := st.cells;
    ReachesIff(sh, cs, c0, hf, k, true);
    ReachesIff(sh, cs, w, hf, k + 1, false);
    ReachesIff(sh, cs, c, hv, k + 1, true);
    ReachesIff(sh, cs, c, hv, k + 1, false);
    StepWalk(sh, cs, cells, w, k, st.vil, false);
    StepWalk(sh, cs, cells, c, k, st.vir, true);
    StepWalk(sh, cs, cells, c0, k, st.vol.value, true);
    StepWalk(sh, cs, cells, c, k, st.vor, false);
    nil := Right(sh, cells, st.vil).value;
    nir := Left(sh, cells, st.vir).value;
    nol := Left(sh, cells, st.vol.value);
    nor := Right(sh, cells, st.vor).value;
  }

  /** The first case of the tail of `_apportion`: `vor` is threaded onto `_right(vil)`. */
  lemma {:induction false} FinishThreadRight(sh: Shape, c: nat, da: nat, s: Contours) returns (r: seq<Cell>)
    requires Valid(sh) && ContoursOk(sh, s) && c < |sh| && da < |sh|
    requires Right(sh, s.cells, s.vil).Some? && Right(sh, s.cells, s.vor).None?
    ensures ApportionFinish(sh, c, da, s) == Success((r, da))
    ensures |r| == |sh| && r[s.vor].thread == Right(sh, s.cells, s.vil)
    ensures forall x | 0 <= x < |sh| && x != s.vor :: r[x].thread == s.cells[x].thread
    ensures forall x | 0 <= x < |sh| :: r[x].ancestor == s.cells[x].ancestor
  {
    var cells := s.cells;
    r := cells[s.vor := cells[s.vor].(thread := Right(sh, cells, s.vil), mod := cells[s.vor].mod + (s.sil - s.sor))];
  }

  /** The second case: `vol` is threaded onto `_left(vir)`. */
  lemma {:induction false} FinishThreadLeft(sh: Shape, c: nat, da: nat, s: Contours) returns (r: seq<Cell>)
    requires Valid(sh) && ContoursOk(sh, s) && c < |sh| && da < |sh|
    requires Right(sh, s.cells, s.vil).None?
    requires Left(sh, s.cells, s.vir).Some? && s.vol.Some? && Left(sh, s.cells, s.vol.value).None?
    ensures ApportionFinish(sh, c, da, s) == Success((r, c))
    ensures |r| == |sh| && r[s.vol.value].thread == Left(sh, s.cells, s.vir)
    ensures forall x | 0 <= x < |sh| && x != s.vol.value :: r[x].thread == s.cells[x].thread
    ensures forall x | 0 <= x < |sh| :: r[x].ancestor == s.cells[x].ancestor
  {
    var cells := s.cells;
    var vol := s.vol.value;
    r := cells[vol := cells[vol].(thread := Left(sh, cells, s.vir), mod := cells[vol].mod + (s.sir - s.sol))];
  }

  /** The third case: neither contour continues, so nothing is threaded. */
  lemma {:induction false} FinishKeep(sh: Shape, c: nat, da: nat, s: Contours)
    requires Valid(sh) && ContoursOk(sh, s) && c < |sh| && da < |sh|
    requires Right(sh, s.cells, s.vil).None? && Left(sh, s.cells, s.vir).None?
    ensures ApportionFinish(sh, c, da, s) == Success((s.cells, c))
  {
  }

  /** A contour whose node `z` on level `a` is threaded onto level `a + 1` of a contour
      that reaches `h > a` levels reaches `h` levels itself. */
  lemma {:induction false} ThreadReaches(sh: Shape, cs: seq<Cell>, r: seq<Cell>, u: nat, z: nat, a: nat,
                                         src: nat, lo: nat, hi: nat, h: nat, left: bool)
    requires Valid(sh) && CellsValid(sh, cs) && |r| == |sh| && hi <= |sh| && u < |sh| && a < h
    requires Walk(sh, cs, u, a, left) == Some(z)
    requires forall x | 0 <= x < |sh| && x != z :: r[x].thread == cs[x].thread
    requires KidsClosed(sh, lo, hi) && ThreadsIn(cs, lo, hi) && !(lo <= z < hi)
    requires z < |sh| && r[z].thread.Some? && lo <= r[z].thread.value < hi
    requires Walk(sh, cs, src, a + 1, left) == r[z].thread
    requires Reaches(sh, cs, src, h, left)
    ensures Reaches(sh, r, u, h, left)
  {
    Graft(sh, cs, r, u, z, a, src, lo, hi, h, left);
    Graft(sh, cs, r, u, z, a, src, lo, hi, h + 1, left);
  }

  /** The tail of `_apportion` when the earlier siblings reach deeper (`hf > hv`): the
      bottom of `c`'s right contour is threaded onto theirs, so that contour now reaches
      `hf` levels as well. */
  lemma {:induction false} FinishDeeperLeft(sh: Shape, cs: seq<Cell>, p: nat, j: nat, c: nat, c0: nat, w: nat, e: nat,
                                            da: nat, s: Contours, hf: nat, hv: nat)
    returns (r: seq<Cell>)
    requires Valid(sh) && CellsValid(sh, cs) && p < |sh| && 0 < j < |sh[p].children|
    requires sh[p].children[0] == c0 && sh[p].children[j] == c && c0 <= w < c < e <= |sh| && da < |sh|
    requires KidsClosed(sh, c0, c) && ThreadsIn(cs, c0, c) && KidsClosed(sh, c, e) && ThreadsIn(cs, c, e)
    requires Reaches(sh, cs, c0, hf, true) && Reaches(sh, cs, w, hf, false) && Reaches(sh, cs, c, hv, false)
    requires hv < hf
    requires ContoursOk(sh, s) && SameThreads(cs, s.cells)
    requires AncIn(s.cells, c0, c) && AncIn(s.cells, c, e) && LinksOutside(cs, s.cells, c, e)
    requires Walk(sh, cs, w, hv, false) == Some(s.vil) && Walk(sh, cs, c, hv, false) == Some(s.vor)
    ensures ApportionFinish(sh, c, da, s) == Success((r, da))
    ensures ThreadsIn(r, c0, e) && AncIn(r, c0, e) && LinksOutside(cs, r, c0, e)
    ensures ForestReaches(sh, r, p, j + 1, hf)
  {
    DeeperLeftCase(sh, cs, c, w, s, hf, hv);
    r := FinishThreadRight(sh, c, da, s);
    DeeperLeftAfter(sh, cs, r, p, j, c, c0, w, e, s, hf, hv);
  }

  /** When the earlier siblings reach deeper, the loop stopped with `_right(vil)` defined
      (the next node of their right contour) and `_right(vor)` undefined. */
  lemma {:induction false} DeeperLeftCase(sh: Shape, cs: seq<Cell>, c: nat, w: nat, s: Contours, hf: nat, hv: nat)
    requires Valid(sh) && |cs| == |sh| && c < |sh| && w < |sh|
    requires Reaches(sh, cs, w, hf, false) && Reaches(sh, cs, c, hv, false) && hv < hf
    requires ContoursOk(sh, s) && SameThreads(cs, s.cells)
    requires Walk(sh, cs, w, hv, false) == Some(s.vil) && Walk(sh, cs, c, hv, false) == Some(s.vor)
    ensures Walk(sh, cs, w, hv + 1, false) == Right(sh, s.cells, s.vil) && Right(sh, s.cells, s.vil).Some?
    ensures Right(sh, s.cells, s.vor).None?
  {
    StepWalk(sh, cs, s.cells, w, hv, s.vil, false);
    StepWalk(sh, cs, s.cells, c, hv, s.vor, false);
    ReachesIff(sh, cs, w, hf, hv + 1, false);
    ReachesIff(sh, cs, c, hv, hv + 1, false);
  }

  /** After `vor` is threaded onto `_right(vil)`: the ranges stay closed and both contours
      of children `0..j` reach `hf` levels. */
  lemma {:induction false} DeeperLeftAfter(sh: Shape, cs: seq<Cell>, r: seq<Cell>, p: nat, j: nat, c: nat, c0: nat,
                                           w: nat, e: nat, s: Contours, hf: nat, hv: nat)
    requires Valid(sh) && CellsValid(sh, cs) && p < |sh| && 0 < j < |sh[p].children|
    requires sh[p].children[0] == c0 && sh[p].children[j] == c && c0 <= w < c < e <= |sh|
    requires KidsClosed(sh, c0, c) && ThreadsIn(cs, c0, c) && KidsClosed(sh, c, e) && ThreadsIn(cs, c, e)
    requires Reaches(sh, cs, c0, hf, true) && Reaches(sh, cs, w, hf, false) && hv < hf
    requires |s.cells| == |sh| && SameThreads(cs, s.cells) && s.vor < |sh|
    requires AncIn(s.cells, c0, c) && AncIn(s.cells, c, e) && LinksOutside(cs, s.cells, c, e)
    requires Walk(sh, cs, c, hv, false) == Some(s.vor)
    requires |r| == |sh|
    requires Walk(sh, cs, w, hv + 1, false) == r[s.vor].thread && r[s.vor].thread.Some?
    requires forall x | 0 <= x < |sh| && x != s.vor :: r[x].thread == s.cells[x].thread
    requires forall x | 0 <= x < |sh| :: r[x].ancestor == s.cells[x].ancestor
    ensures ThreadsIn(r, c0, e) && AncIn(r, c0, e) && LinksOutside(cs, r, c0, e)
    ensures ForestReaches(sh, r, p, j + 1, hf)
  {
    var vor := s.vor;
    assert c0 <= r[vor].thread.value < c by {
      WalkInside(sh, cs, cs, w, hv + 1, c0, c, false);
    }
    assert c <= vor < e by {
      WalkInside(sh, cs, cs, c, hv, c, e, false);
    }
    ThreadReaches(sh, cs, r, c, vor, hv, w, c0, c, hf, false);
    ReachesInside(sh, cs, r, c0, hf, c0, c, true);
    ThreadsFrame(cs, r, c0, c, e);
    AncJoin(s.cells, r, c0, c, e);
  }

  /** The tail of `_apportion` when both sides reach equally deep: nothing is threaded. */
  lemma {:induction false} FinishLevel(sh: Shape, cs: seq<Cell>, p: nat, j: nat, c: nat, c0: nat, w: nat, e: nat,
                                       da: nat, s: Contours, h: nat)
    requires Valid(sh) && |cs| == |sh| && p < |sh| && 0 < j < |sh[p].children|
    requires sh[p].children[0] == c0 && sh[p].children[j] == c && c0 <= w < c < e <= |sh| && da < |sh|
    requires ThreadsIn(cs, c0, c) && ThreadsIn(cs, c, e)
    requires Reaches(sh, cs, c0, h, true) && Reaches(sh, cs, w, h, false)
    requires Reaches(sh, cs, c, h, true) && Reaches(sh, cs, c, h, false)
    requires ContoursOk(sh, s) && SameThreads(cs, s.cells)
    requires AncIn(s.cells, c0, c) && AncIn(s.cells, c, e) && LinksOutside(cs, s.cells, c, e)
    requires Walk(sh, cs, w, h, false) == Some(s.vil) && Walk(sh, cs, c, h, true) == Some(s.vir)
    ensures ApportionFinish(sh, c, da, s) == Success((s.cells, c))
    ensures ThreadsIn(s.cells, c0, e) && AncIn(s.cells, c0, e) && LinksOutside(cs, s.cells, c0, e)
    ensures ForestReaches(sh, s.cells, p, j + 1, h)
  {
    var cells := s.cells;
    assert Right(sh, cells, s.vil).None? && Left(sh, cells, s.vir).None? by {
      StepWalk(sh, cs, cells, w, h, s.vil, false);
      StepWalk(sh, cs, cells, c, h, s.vir, true);
      ReachesIff(sh, cs, w, h, h + 1, false);
      ReachesIff(sh, cs, c, h, h + 1, true);
    }
    FinishKeep(sh, c, da, s);
    assert Reaches(sh, cells, c0, h, true) by {
      WalkSameThreads(sh, cs, cells, c0, h, true);
      WalkSameThreads(sh, cs, cells, c0, h + 1, true);
    }
    assert Reaches(sh, cells, c, h, false) by {
      WalkSameThreads(sh, cs, cells, c, h, false);
      WalkSameThreads(sh, cs, cells, c, h + 1, false);
    }
    ThreadsFrame(cs, cells, c0, c, e);
    AncJoin(cells, cells, c0, c, e);
  }

  /** The tail of `_apportion` when `c`'s subtree reaches deeper (`hf < hv`): the bottom
      of the earlier siblings' left contour is threaded onto `c`'s. */
  lemma {:induction false} FinishDeeperRight(sh: Shape, cs: seq<Cell>, p: nat, j: nat, c: nat, c0: nat, w: nat, e: nat,
                                             da: nat, s: Contours, hf: nat, hv: nat)
    returns (r: seq<Cell>)
    requires Valid(sh) && CellsValid(sh, cs) && p < |sh| && 0 < j < |sh[p].children|
    requires sh[p].children[0] == c0 && sh[p].children[j] == c && c0 <= w < c < e <= |sh| && da < |sh|
    requires KidsClosed(sh, c0, c) && ThreadsIn(cs, c0, c) && KidsClosed(sh, c, e) && ThreadsIn(cs, c, e)
    requires Reaches(sh, cs, c0, hf, true) && Reaches(sh, cs, w, hf, false)
    requires Reaches(sh, cs, c, hv, true) && Reaches(sh, cs, c, hv, false)
    requires hf < hv
    requires ContoursOk(sh, s) && SameThreads(cs, s.cells)
    requires AncIn(s.cells, c0, c) && AncIn(s.cells, c, e) && LinksOutside(cs, s.cells, c, e)
    requires Walk(sh, cs, w, hf, false) == Some(s.vil) && Walk(sh, cs, c, hf, true) == Some(s.vir)
    requires Walk(sh, cs, c0, hf, true) == s.vol
    ensures ApportionFinish(sh, c, da, s) == Success((r, c))
    ensures ThreadsIn(r, c0, e) && AncIn(r, c0, e) && LinksOutside(cs, r, c0, e)
    ensures ForestReaches(sh, r, p, j + 1, hv)
  {
    DeeperRightCase(sh, cs, c, c0, w, s, hf, hv);
    r := FinishThreadLeft(sh, c, da, s);
    DeeperRightAfter(sh, cs, r, p, j, c, c0, e, s, hf, hv);
  }

  /** When `c`'s subtree reaches deeper, the loop stopped with `_right(vil)` undefined,
      the earlier siblings' left contour ending at `vol`, and `_left(vir)` defined (the
      next node of `c`'s left contour). */
  lemma {:induction false} DeeperRightCase(sh: Shape, cs: seq<Cell>, c: nat, c0: nat, w: nat, s: Contours, hf: nat, hv: nat)
    requires Valid(sh) && |cs| == |sh| && c < |sh| && c0 < |sh| && w < |sh|
    requires Reaches(sh, cs, c0, hf, true) && Reaches(sh, cs, w, hf, false)
    requires Reaches(sh, cs, c, hv, true) && hf < hv
    requires ContoursOk(sh, s) && SameThreads(cs, s.cells)
    requires Walk(sh, cs, w, hf, false) == Some(s.vil) && Walk(sh, cs, c, hf, true) == Some(s.vir)
    requires Walk(sh, cs, c0, hf, true) == s.vol
    ensures s.vol.Some? && Right(sh, s.cells, s.vil).None? && Left(sh, s.cells, s.vol.value).None?
    ensures Walk(sh, cs, c, hf + 1, true) == Left(sh, s.cells, s.vir) && Left(sh, s.cells, s.vir).Some?
  {
    ReachesIff(sh, cs, c0, hf, hf, true);
    StepWalk(sh, cs, s.cells, w, hf, s.vil, false);
    StepWalk(sh, cs, s.cells, c, hf, s.vir, true);
    StepWalk(sh, cs, s.cells, c0, hf, s.vol.value, true);
    ReachesIff(sh, cs, w, hf, hf + 1, false);
    ReachesIff(sh, cs, c, hv, hf + 1, true);
    ReachesIff(sh, cs, c0, hf, hf + 1, true);
  }

  /** After `vol` is threaded onto `_left(vir)`: the ranges stay closed and both contours
      of children `0..j` reach `hv` levels. */
  lemma {:induction false} DeeperRightAfter(sh: Shape, cs: seq<Cell>, r: seq<Cell>, p: nat, j: nat, c: nat, c0: nat,
                                            e: nat, s: Contours, hf: nat, hv: nat)
    requires Valid(sh) && CellsValid(sh, cs) && p < |sh| && 0 < j < |sh[p].children|
    requires sh[p].children[0] == c0 && sh[p].children[j] == c && c0 < c < e <= |sh|
    requires KidsClosed(sh, c0, c) && ThreadsIn(cs, c0, c) && KidsClosed(sh, c, e) && ThreadsIn(cs, c, e)
    requires Reaches(sh, cs, c, hv, true) && Reaches(sh, cs, c, hv, false) && hf < hv
    requires |s.cells| == |sh| && SameThreads(cs, s.cells) && s.vol.Some? && s.vol.value < |sh|
    requires AncIn(s.cells, c0, c) && AncIn(s.cells, c, e) && LinksOutside(cs, s.cells, c, e)
    requires Walk(sh, cs, c0, hf, true) == s.vol
    requires |r| == |sh|
    requires Walk(sh, cs, c, hf + 1, true) == r[s.vol.value].thread && r[s.vol.value].thread.Some?
    requires forall x | 0 <= x < |sh| && x != s.vol.value :: r[x].thread == s.cells[x].thread
    requires forall x | 0 <= x < |sh| :: r[x].ancestor == s.cells[x].ancestor
    ensures ThreadsIn(r, c0, e) && AncIn(r, c0, e) && LinksOutside(cs, r, c0, e)
    ensures ForestReaches(sh, r, p, j + 1, hv)
  {
    var vol := s.vol.value;
    assert c0 <= vol < c by {
      WalkInside(sh, cs, cs, c0, hf, c0, c, true);
    }
    assert c <= r[vol].thread.value < e by {
      WalkInside(sh, cs, cs, c, hf + 1, c, e, true);
    }
    ThreadReaches(sh, cs, r, c0, vol, hf, c, c, e, hv, true);
    ReachesInside(sh, cs, r, c, hv, c, e, false);
    ThreadsFrame(cs, r, c0, c, e);
    AncJoin(s.cells, r, c0, c, e);
  }

  /** `_apportion` of a node with a left brother: the loop, then the tail. */
  lemma {:induction false} ApportionUnfold(sh: Shape, cs: seq<Cell>, c: nat, da: nat, w: nat, c0: nat, s: Contours)
    requires Valid(sh) && CellsValid(sh, cs) && c < |sh| && da < |sh|
    requires sh[c].parent.Some? && sh[c].parent.value < |sh| && sh[sh[c].parent.value].depth + 1 == sh[c].depth
    requires LBrother(sh, c) == Some(w) && LmostSibling(sh, c) == Some(c0)
    requires w < |sh| && c0 < |sh| && sh[w].depth == sh[c].depth && sh[c0].depth == sh[c].depth
    requires ApportionLoop(sh, c, da, Contours(cs, w, c, Some(c0), c, cs[w].mod, cs[c].mod, cs[c0].mod, cs[c].mod)) == Success(s)
    ensures Apportion(sh, cs, c, da) == ApportionFinish(sh, c, da, s)
  {
  }

  /** `_apportion` of child `j` (node `c`, subtree `c..e`) of `p` never fails. Afterwards
      children `0..j` form a closed range whose left contour from the first child and
      right contour from `c` both reach the greater of the two heights. The new default
      ancestor has a number at most `j + 1`. */
  lemma {:induction false} ApportionOk(sh: Shape, cs: seq<Cell>, p: nat, j: nat, c: nat, e: nat, da: nat, hf: nat, hv: nat)
    returns (r: seq<Cell>, d: nat)
    requires Valid(sh) && CellsValid(sh, cs) && p < |sh| && j < |sh[p].children|
    requires c == sh[p].children[j] && sh[p].children[0] <= c < e <= |sh| && da < |sh|
    requires sh[c].parent == Some(p) && sh[p].depth + 1 == sh[c].depth
    requires j > 0 ==> sh[p].children[0] <= sh[p].children[j - 1] < c
    requires EarlierSiblings(sh, p, c, sh[p].children[0])
    requires sh[da].number <= if j == 0 then 1 else j
    requires KidsClosed(sh, sh[p].children[0], c) && ThreadsIn(cs, sh[p].children[0], c) && AncIn(cs, sh[p].children[0], c)
    requires KidsClosed(sh, c, e) && ThreadsIn(cs, c, e) && AncIn(cs, c, e)
    requires Reaches(sh, cs, c, hv, true) && Reaches(sh, cs, c, hv, false)
    requires if j == 0 then hf == 0 else ForestReaches(sh, cs, p, j, hf)
    ensures Apportion(sh, cs, c, da) == Success((r, d))
    ensures CellsValid(sh, r) && d < |sh| && sh[d].number <= j + 1
    ensures var c0 := sh[p].children[0];
            ThreadsIn(r, c0, e) && AncIn(r, c0, e) && LinksOutside(cs, r, c0, e)
    ensures ForestReaches(sh, r, p, j + 1, Max(hf, hv))
  {
    var c0 := sh[p].children[0];
    ChildFacts(sh, p, j);
    LBrotherOfChild(sh, p, j);
    if j == 0 {
      r, d := cs, da;
    } else {
      var w := sh[p].children[j - 1];
      ChildFacts(sh, p, 0);
      ChildFacts(sh, p, j - 1);
      assert LmostSibling(sh, c) == Some(c0);
      var st0 := Contours(cs, w, c, Some(c0), c, cs[w].mod, cs[c].mod, cs[c0].mod, cs[c].mod);
      var s := LoopOk(sh, cs, p, c, c0, w, e, da, st0, 0, hf, hv);
      ApportionUnfold(sh, cs, c, da, w, c0, s);
      if hv < hf {
        r := FinishDeeperLeft(sh, cs, p, j, c, c0, w, e, da, s, hf, hv);
        d := da;
      } else if hf == hv {
        FinishLevel(sh, cs, p, j, c, c0, w, e, da, s, hf);
        r, d := s.cells, c;
      } else {
        r := FinishDeeperRight(sh, cs, p, j, c, c0, w, e, da, s, hf, hv);
        d := c;
      }
    }
  }

  // ---- _firstWalk ---------------------------------------------------------------

  /** `_firstWalk` of an untouched leaf: no contour below it. */
  lemma {:induction false} FirstWalkLeaf(sh: Shape, cs: seq<Cell>, v: nat) returns (r: seq<Cell>)
    requires Valid(sh) && CellsValid(sh, cs) && v < |sh| && sh[v].children == []
    requires cs[v].thread.None? && cs[v].ancestor == v
    ensures FirstWalk(sh, cs, v) == Success(r)
    ensures CellsValid(sh, r) && ThreadsIn(r, v, v + 1) && AncIn(r, v, v + 1) && LinksOutside(cs, r, v, v + 1)
    ensures Reaches(sh, r, v, 0, true) && Reaches(sh, r, v, 0, false)
  {
    r := PlaceLeaf(sh, cs, v);
    assert Walk(sh, r, v, 1, true) == Next(sh, r, v, true);
    assert Walk(sh, r, v, 1, false) == Next(sh, r, v, false);
  }

  /** A node without a thread whose first (last) child's contour reaches `h` levels has
      a left (right) contour of `h + 1` levels. */
  lemma {:induction false} ContourThroughChild(sh: Shape, cs: seq<Cell>, r: seq<Cell>, v: nat, x: nat, h: nat, left: bool)
    requires |cs| == |sh| && SameThreads(cs, r) && v < |sh| && r[v].thread.None? && sh[v].children != []
    requires x == if left then sh[v].children[0] else sh[v].children[|sh[v].children| - 1]
    requires Reaches(sh, cs, x, h, left)
    ensures Reaches(sh, r, v, h + 1, left)
  {
    assert Walk(sh, r, v, 1, left) == Some(x);
    WalkSplice(sh, r, v, 1, h, left);
    WalkSplice(sh, r, v, 1, h + 1, left);
    WalkSameThreads(sh, cs, r, x, h, left);
    WalkSameThreads(sh, cs, r, x, h + 1, left);
  }

  /** The internal-node case of `_firstWalk`, after the children loop: the contours of
      `v` go through its first and last child, one level longer than theirs. */
  lemma {:induction false} FirstWalkInternal(sh: Shape, cs: seq<Cell>, cs1: seq<Cell>, r: seq<Cell>,
                                             v: nat, hi: nat, n: nat, h: nat, hv: nat)
    requires |cs| == |sh| && |cs1| == |sh| && |r| == |sh| && v < hi <= |sh|
    requires 0 < n == |sh[v].children|
    requires cs[v].thread.None? && cs[v].ancestor == v
    requires ThreadsIn(cs1, v + 1, hi) && AncIn(cs1, v + 1, hi) && LinksOutside(cs, cs1, v + 1, hi)
    requires ForestReaches(sh, cs1, v, n, h)
    requires forall u | 0 <= u < |sh| :: r[u].thread == cs1[u].thread && r[u].ancestor == cs1[u].ancestor
    ensures ThreadsIn(r, v, hi) && AncIn(r, v, hi) && LinksOutside(cs, r, v, hi)
    requires hv == h + 1
    ensures Reaches(sh, r, v, hv, true) && Reaches(sh, r, v, hv, false)
  {
    assert r[v].thread.None?;
    ContourThroughChild(sh, cs1, r, v, sh[v].children[0], h, true);
    ContourThroughChild(sh, cs1, r, v, sh[v].children[n - 1], h, false);
  }

  /** `_firstWalk(v)` on a subtree the constructor left untouched never fails. It keeps
      threads and recorded ancestors inside the subtree and changes none outside it, and
      both contours of `v` reach exactly the subtree's height. */
  lemma {:induction false} FirstWalkOk(sh: Shape, cs: seq<Cell>, t: Tree, v: nat) returns (r: seq<Cell>)
    requires Valid(sh) && CellsValid(sh, cs) && Embeds(sh, t, v)
    requires Fresh(cs, v, v + Size(t))
    ensures FirstWalk(sh, cs, v) == Success(r)
    ensures CellsValid(sh, r)
    ensures ThreadsIn(r, v, v + Size(t)) && AncIn(r, v, v + Size(t)) && LinksOutside(cs, r, v, v + Size(t))
    ensures Reaches(sh, r, v, Height(t), true) && Reaches(sh, r, v, Height(t), false)
    decreases t, 2
  {
    assert |sh[v].children| == |t.children| by {
      EmbedsEnd(sh, t, v);
    }
    if t.children == [] {
      r := FirstWalkLeaf(sh, cs, v);
    } else {
      r := FirstWalkNodeOk(sh, cs, t, v);
    }
  }

  /** `_firstWalk(v)` of an internal node: the children loop, then `v` is centred over
      its first and last child. */
  lemma {:induction false} FirstWalkNodeOk(sh: Shape, cs: seq<Cell>, t: Tree, v: nat) returns (r: seq<Cell>)
    requires Valid(sh) && CellsValid(sh, cs) && Embeds(sh, t, v)
    requires |sh[v].children| == |t.children| > 0
    requires Fresh(cs, v, v + Size(t))
    ensures FirstWalk(sh, cs, v) == Success(r)
    ensures CellsValid(sh, r)
    ensures ThreadsIn(r, v, v + Size(t)) && AncIn(r, v, v + Size(t)) && LinksOutside(cs, r, v, v + Size(t))
    ensures Reaches(sh, r, v, Height(t), true) && Reaches(sh, r, v, Height(t), false)
    decreases t, 1
  {
    var c0 := sh[v].children[0];
    assert Mid(t, v, 0) == v + 1 && sh[c0].number == 1 by {
      ChildFacts(sh, v, 0);
      assert t.children[..0] == [];
    }
    var cs1 := FirstWalkKidsOk(sh, cs, t, v, 0, c0);
    r := PlaceInternal(sh, cs1, v);
    FirstWalkInternal(sh, cs, cs1, r, v, v + Size(t), |t.children|, ForestHeight(t.children), Height(t));
  }

  /** What the arena says about child `j` of `v`: the first child sits right after `v`,
      the children before child `j` are its earlier siblings, the nodes of its subtree
      have their children inside the subtree. */
  lemma {:induction false} KidFacts(sh: Shape, t: Tree, v: nat, j: nat)
    requires Valid(sh) && Embeds(sh, t, v) && j < |t.children|
    ensures |sh[v].children| == |t.children| && sh[v].children[0] == v + 1
    ensures sh[v].children[j] + Size(t.children[j]) <= |sh|
    ensures EarlierSiblings(sh, v, sh[v].children[j], v + 1)
    ensures j > 0 ==> v + 1 <= sh[v].children[j - 1] < sh[v].children[j]
  {
    EmbedsChild(sh, t, v, 0);
    assert t.children[..0] == [];
    EmbedsChild(sh, t, v, j);
    EarlierSiblingsOk(sh, t, v, j);
    if j > 0 {
      ChildFacts(sh, v, j - 1);
      KidBefore(sh, t, v, j - 1, j);
    }
  }

  /** One turn of the `for` loop of `_firstWalk(v)`: child `j` (node `c`, subtree `c..e`
      of `v`'s subtree `v..hi`) has been walked; apportioning it never fails and extends
      the statement about the walked children `0..j-1` to `0..j`. */
  lemma {:induction false} KidStep(sh: Shape, cs: seq<Cell>, cs1: seq<Cell>, t: Tree, v: nat, j: nat, da: nat,
                                   c: nat, e: nat, hi: nat)
    returns (cs2: seq<Cell>, d: nat)
    requires Valid(sh) && CellsValid(sh, cs) && CellsValid(sh, cs1)
    requires v < c < e <= hi <= |sh| && j < |t.children| && |sh[v].children| == |t.children|
    requires c == sh[v].children[j] && sh[v].children[0] == v + 1
    requires sh[c].parent == Some(v) && sh[v].depth + 1 == sh[c].depth
    requires EarlierSiblings(sh, v, c, v + 1) && KidsClosed(sh, c, e)
    requires j > 0 ==> v + 1 <= sh[v].children[j - 1] < c
    requires da < |sh| && sh[da].number <= if j == 0 then 1 else j
    requires Fresh(cs, c, hi)
    requires KidsClosed(sh, v + 1, c) && ThreadsIn(cs, v + 1, c) && AncIn(cs, v + 1, c)
    requires j > 0 ==> ForestReaches(sh, cs, v, j, ForestHeight(t.children[..j]))
    requires ThreadsIn(cs1, c, e) && AncIn(cs1, c, e) && LinksOutside(cs, cs1, c, e)
    requires Reaches(sh, cs1, c, Height(t.children[j]), true) && Reaches(sh, cs1, c, Height(t.children[j]), false)
    ensures Apportion(sh, cs1, c, da) == Success((cs2, d))
    ensures CellsValid(sh, cs2) && d < |sh| && sh[d].number <= j + 1
    ensures Fresh(cs2, e, hi)
    ensures KidsClosed(sh, v + 1, e) && ThreadsIn(cs2, v + 1, e) && AncIn(cs2, v + 1, e)
    ensures ForestReaches(sh, cs2, v, j + 1, ForestHeight(t.children[..j + 1]))
    ensures LinksOutside(cs, cs2, v + 1, e)
  {
    var hf := if j == 0 then 0 else ForestHeight(t.children[..j]);
    if j > 0 {
      KidsBefore(sh, cs, cs1, v, j, c, e, hf);
    }
    HeightStep(t, j);
    cs2, d := ApportionOk(sh, cs1, v, j, c, e, da, hf, Height(t.children[j]));
    KidFrame(sh, cs, cs1, cs2, v, c, e, hi);
  }

  /** The forest height of the first `j + 1` children. */
  lemma {:induction false} HeightStep(t: Tree, j: nat)
    requires j < |t.children|
    ensures ForestHeight(t.children[..j + 1])
            == Max(if j == 0 then 0 else ForestHeight(t.children[..j]), Height(t.children[j]))
  {
    ForestHeightSnoc(t.children, j);
    if j == 0 {
      assert t.children[..0] == [];
    }
  }

  /** The ranges after child `j` (nodes `c..e`) has been walked and apportioned: the rest
      of `v`'s subtree is still untouched, the walked children form a closed range, and
      nothing outside them changed. */
  lemma {:induction false} KidFrame(sh: Shape, cs: seq<Cell>, cs1: seq<Cell>, cs2: seq<Cell>, v: nat, c: nat, e: nat, hi: nat)
    requires v < c <= e <= hi <= |sh| && |cs| == |sh| && |cs1| == |sh|
    requires Fresh(cs, c, hi) && LinksOutside(cs, cs1, c, e) && LinksOutside(cs1, cs2, v + 1, e)
    requires KidsClosed(sh, v + 1, c) && KidsClosed(sh, c, e)
    ensures Fresh(cs2, e, hi) && KidsClosed(sh, v + 1, e) && LinksOutside(cs, cs2, v + 1, e)
  {
    KidsJoin(sh, v + 1, c, e);
    LinksTrans(cs, cs1, cs2, c, e, v + 1, e);
  }

  /** Walking child `j` leaves the contours of the earlier children as they were. */
  lemma {:induction false} KidsBefore(sh: Shape, cs: seq<Cell>, cs1: seq<Cell>, v: nat, j: nat, c: nat, e: nat, hf: nat)
    requires |cs| == |sh| && |cs1| == |sh| && v < c <= e <= |sh| && 0 < j <= |sh[v].children|
    requires v + 1 == sh[v].children[0] && v + 1 <= sh[v].children[j - 1] < c
    requires KidsClosed(sh, v + 1, c) && ThreadsIn(cs, v + 1, c) && LinksOutside(cs, cs1, c, e)
    requires ForestReaches(sh, cs, v, j, hf)
    ensures ForestReaches(sh, cs1, v, j, hf)
  {
    ReachesInside(sh, cs, cs1, v + 1, hf, v + 1, c, true);
    ReachesInside(sh, cs, cs1, sh[v].children[j - 1], hf, v + 1, c, false);
  }

  /** The `for` loop of `_firstWalk(v)` from child `j` on never fails. Children `0..j-1`
      have been walked and apportioned (nodes `v + 1 .. Mid(t, v, j)`); the rest of the
      subtree is untouched. */
  lemma {:induction false} FirstWalkKidsOk(sh: Shape, cs: seq<Cell>, t: Tree, v: nat, j: nat, da: nat)
    returns (r: seq<Cell>)
    requires Valid(sh) && CellsValid(sh, cs) && Embeds(sh, t, v) && |sh[v].children| == |t.children|
    requires j <= |t.children| && da < |sh| && sh[da].number <= if j == 0 then 1 else j
    requires Fresh(cs, Mid(t, v, j), v + Size(t))
    requires KidsClosed(sh, v + 1, Mid(t, v, j)) && ThreadsIn(cs, v + 1, Mid(t, v, j)) && AncIn(cs, v + 1, Mid(t, v, j))
    requires j > 0 ==> ForestReaches(sh, cs, v, j, ForestHeight(t.children[..j]))
    ensures FirstWalkKids(sh, cs, v, j, da) == Success(r)
    ensures CellsValid(sh, r)
    ensures ThreadsIn(r, v + 1, v + Size(t)) && AncIn(r, v + 1, v + Size(t)) && LinksOutside(cs, r, v + 1, v + Size(t))
    ensures |t.children| > 0 ==> ForestReaches(sh, r, v, |t.children|, ForestHeight(t.children))
    decreases t, 0, |t.children| - j, 1
  {
    if j == |t.children| {
      assert Mid(t, v, j) == v + Size(t) && t.children[..j] == t.children by {
        EmbedsEnd(sh, t, v);
        assert t.children[..j] == t.children;
      }
      r := cs;
    } else {
      var cs2, d := KidWalkOk(sh, cs, t, v, j, da);
      r := FirstWalkKidsOk(sh, cs2, t, v, j + 1, d);
      LinksTrans(cs, cs2, r, v + 1, Mid(t, v, j + 1), v + 1, v + Size(t));
    }
  }

  /** One turn of the `for` loop of `_firstWalk(v)`: walking and apportioning child `j`
      never fails and extends the statement about children `0..j-1` to `0..j`. */
  lemma {:induction false} KidWalkOk(sh: Shape, cs: seq<Cell>, t: Tree, v: nat, j: nat, da: nat)
    returns (cs2: seq<Cell>, d: nat)
    requires Valid(sh) && CellsValid(sh, cs) && Embeds(sh, t, v) && |sh[v].children| == |t.children|
    requires j < |t.children| && da < |sh| && sh[da].number <= if j == 0 then 1 else j
    requires Fresh(cs, Mid(t, v, j), v + Size(t))
    requires KidsClosed(sh, v + 1, Mid(t, v, j)) && ThreadsIn(cs, v + 1, Mid(t, v, j)) && AncIn(cs, v + 1, Mid(t, v, j))
    requires j > 0 ==> ForestReaches(sh, cs, v, j, ForestHeight(t.children[..j]))
    ensures CellsValid(sh, cs2) && d < |sh| && sh[d].number <= j + 1
    ensures FirstWalkKids(sh, cs, v, j, da) == FirstWalkKids(sh, cs2, v, j + 1, d)
    ensures var m := Mid(t, v, j + 1);
            && Fresh(cs2, m, v + Size(t))
            && KidsClosed(sh, v + 1, m) && ThreadsIn(cs2, v + 1, m) && AncIn(cs2, v + 1, m)
            && LinksOutside(cs, cs2, v + 1, m)
    ensures ForestReaches(sh, cs2, v, j + 1, ForestHeight(t.children[..j + 1]))
    decreases t, 0, |t.children| - j, 0
  {
    var c := sh[v].children[j];
    var tj := t.children[j];
    var e := c + Size(tj);
    assert c == Mid(t, v, j) && e == Mid(t, v, j + 1) && Embeds(sh, tj, c)
           && sh[c].parent == Some(v) && sh[v].depth + 1 == sh[c].depth
           && KidsClosed(sh, c, e) by {
      EmbedsChild(sh, t, v, j);
      SubtreeKids(sh, tj, c);
    }
    KidFacts(sh, t, v, j);
    var cs1 := FirstWalkOk(sh, cs, tj, c);
    cs2, d := KidStep(sh, cs, cs1, t, v, j, da, c, e, v + Size(t));
  }

  /** `layout()` never fails on a tree laid out as the constructor lays it out. */
  lemma {:induction false} LayoutSucceeds(sh: Shape, t: Tree)
    requires Valid(sh) && Embeds(sh, t, 0) && |sh| == Size(t)
    ensures FirstWalk(sh, InitCells(sh), 0).Success?
    ensures Placement(sh).Success? && Layout(sh).Success?
  {
    var r := FirstWalkOk(sh, InitCells(sh), t, 0);
  }

  /** `new Layout(tree).calc()` never fails. */
  lemma {:induction false} CalcSucceeds(t: Tree)
    ensures Calc(t).Success?
  {
    BuildValid(t);
    LayoutSucceeds(Build(t), t);
  }
}

=== FILE: layout_tree.dfy ===
/** The static part of `LayoutTree` (src/util/Layout.js): the tree the caller passes to
    `new Layout(tree)` and the arena of layout nodes its constructor builds from it.
    The constructor recurses over the children, giving each node its parent, its depth
    and its 1-based position among its siblings (`_number`). Here the nodes are numbered
    in pre-order, so every node's index in the arena is its pre-order rank. */
module LayoutTree {
  import opened Results

  /** The input tree: an id and an ordered list of children (`tree.children || []`). */
  datatype Tree = Tree(id: string, children: seq<Tree>)

  /** The fields of one LayoutTree object that never change after construction. */
  datatype Info = Info(id: string, parent: Option<nat>, children: seq<nat>, depth: nat, number: nat)

  type Shape = seq<Info>

  function Size(t: Tree): nat
    decreases t, 1
  {
    1 + SizeForest(t.children)
  }

  function SizeForest(ts: seq<Tree>): nat
    decreases ts, 0
  {
    if ts == [] then 0 else Size(ts[0]) + SizeForest(ts[1..])
  }

  /** Ids of a tree in pre-order: the root, then each child's subtree from left to right. */
  function PreorderIds(t: Tree): (ids: seq<string>)
    ensures |ids| == Size(t)
    decreases t, 1
  {
    [t.id] + PreorderIdsForest(t.children)
  }

  function PreorderIdsForest(ts: seq<Tree>): (ids: seq<string>)
    ensures |ids| == SizeForest(ts)
    decreases ts, 0
  {
    if ts == [] then [] else PreorderIds(ts[0]) + PreorderIdsForest(ts[1..])
  }

  /** Arena indices of the roots of a forest whose first node sits at `base`. */
  function ChildIdx(ts: seq<Tree>, base: nat): (idx: seq<nat>)
    ensures |idx| == |ts|
  {
    if ts == [] then [] else [base] + ChildIdx(ts[1..], base + Size(ts[0]))
  }

  /** The constructor `LayoutTree(tree, parent, depth, number)`, laid out in pre-order
      with the root at arena index `base`. */
  function Flatten(t: Tree, parent: Option<nat>, depth: nat, number: nat, base: nat): (s: Shape)
    ensures |s| == Size(t)
    decreases t, 1
  {
    [Info(t.id, parent, ChildIdx(t.children, base + 1), depth, number)]
      + FlattenForest(t.children, base, depth + 1, 1, base + 1)
  }

  /** The loop of the constructor: child `i` is built with `depth + 1` and number `i + 1`. */
  function FlattenForest(ts: seq<Tree>, parent: nat, depth: nat, number: nat, base: nat): (s: Shape)
    ensures |s| == SizeForest(ts)
    decreases ts, 0
  {
    if ts == [] then [] else
      Flatten(ts[0], Some(parent), depth, number, base)
        + FlattenForest(ts[1..], parent, depth, number + 1, base + Size(ts[0]))
  }

  /** `new LayoutTree(tree)`: depth 0, number 1, no parent. */
  function Build(t: Tree): Shape {
    Flatten(t, None, 0, 1, 0)
  }

  /** Child `j` of node `k` of a segment placed at arena index `b` lies after it inside
      the segment, points back to it, is one level deeper and is numbered `j + 1`. */
  ghost predicate ChildOk(s: Shape, b: nat, k: nat, j: nat)
    requires k < |s| && j < |s[k].children|
  {
    var c := s[k].children[j];
    && b + k < c < b + |s|
    && s[c - b].parent == Some(b + k)
    && s[c - b].depth == s[k].depth + 1
    && s[c - b].number == j + 1
  }

  ghost predicate NodeOk(s: Shape, b: nat, k: nat)
    requires k < |s|
  {
    && (forall j | 0 <= j < |s[k].children| :: ChildOk(s, b, k, j))
    && (s[k].parent.Some? ==> s[k].parent.value < b + k)
  }

  /** Well-formedness of a segment of the arena that starts at index `b`. */
  ghost predicate ValidSeg(s: Shape, b: nat) {
    forall k | 0 <= k < |s| :: NodeOk(s, b, k)
  }

  /** Well-formedness of a whole arena: a root at index 0, children after their parent
      and one level deeper, parents before their children. */
  ghost predicate Valid(sh: Shape) {
    && |sh| > 0
    && sh[0].parent.None?
    && sh[0].depth == 0
    && ValidSeg(sh, 0)
  }

  /** The subtree `t` sits in the arena at index `v`, exactly as the constructor built it. */
  ghost predicate Embeds(sh: Shape, t: Tree, v: nat) {
    && v + Size(t) <= |sh|
    && sh[v .. v + Size(t)] == Flatten(t, sh[v].parent, sh[v].depth, sh[v].number, v)
  }

  lemma {:induction false} SizeForestAppend(a: seq<Tree>, b: seq<Tree>)
    ensures SizeForest(a + b) == SizeForest(a) + SizeForest(b)
    decreases |a|
  {
    if a == [] {
      assert a + b == b;
    } else {
      assert (a + b)[1..] == a[1..] + b;
      SizeForestAppend(a[1..], b);
    }
  }

  /** Splitting a forest after its `j`-th tree. */
  lemma {:induction false} SizeForestSnoc(ts: seq<Tree>, j: nat)
    requires j < |ts|
    ensures SizeForest(ts[..j + 1]) == SizeForest(ts[..j]) + Size(ts[j])
  {
    assert ts[..j + 1] == ts[..j] + [ts[j]];
    SizeForestAppend(ts[..j], [ts[j]]);
    assert [ts[j]][1..] == [];
  }

  lemma {:induction false} ChildIdxAt(ts: seq<Tree>, base: nat, j: nat)
    requires j < |ts|
    ensures ChildIdx(ts, base)[j] == base + SizeForest(ts[..j])
    decreases j
  {
    if j > 0 {
      ChildIdxAt(ts[1..], base + Size(ts[0]), j - 1);
      assert ts[..j] == [ts[0]] + ts[1..][..j - 1];
      SizeForestAppend([ts[0]], ts[1..][..j - 1]);
      assert [ts[0]][1..] == [];
    }
  }

  lemma {:induction false} SliceOfConcat<T>(s: seq<T>, a: seq<T>, b: seq<T>, g: seq<T>, lo: nat, n: nat, at: nat)
    requires s == a + b
    requires lo + n <= |b| && b[lo .. lo + n] == g
    requires at == |a| + lo
    ensures at + n <= |s| && s[at .. at + n] == g
  {
  }

  /** The `j`-th tree of a flattened forest occupies the slice that starts at its root index. */
  lemma {:induction false} ForestSlice(ts: seq<Tree>, parent: nat, depth: nat, number: nat, base: nat, j: nat)
    requires j < |ts|
    ensures SizeForest(ts[..j]) + Size(ts[j]) <= SizeForest(ts)
    ensures FlattenForest(ts, parent, depth, number, base)[SizeForest(ts[..j]) .. SizeForest(ts[..j]) + Size(ts[j])]
         == Flatten(ts[j], Some(parent), depth, number + j, base + SizeForest(ts[..j]))
    decreases j
  {
    var head := Flatten(ts[0], Some(parent), depth, number, base);
    var tail := FlattenForest(ts[1..], parent, depth, number + 1, base + Size(ts[0]));
    if j == 0 {
      assert ts[..0] == [];
      assert (head + tail)[0 .. |head|] == head;
    } else {
      ForestSlice(ts[1..], parent, depth, number + 1, base + Size(ts[0]), j - 1);
      ForestSliceStep(ts, parent, depth, number, base, j, head, tail);
    }
  }

  lemma {:induction false} ForestSliceStep(ts: seq<Tree>, parent: nat, depth: nat, number: nat, base: nat, j: nat,
                                           head: Shape, tail: Shape)
    requires 0 < j < |ts|
    requires |head| == Size(ts[0])
    requires SizeForest(ts[1..][..j - 1]) + Size(ts[1..][j - 1]) <= |tail|
    requires tail[SizeForest(ts[1..][..j - 1]) .. SizeForest(ts[1..][..j - 1]) + Size(ts[1..][j - 1])]
          == Flatten(ts[1..][j - 1], Some(parent), depth, number + 1 + (j - 1), base + Size(ts[0]) + SizeForest(ts[1..][..j - 1]))
    ensures SizeForest(ts[..j]) + Size(ts[j]) <= |head| + |tail|
    ensures (head + tail)[SizeForest(ts[..j]) .. SizeForest(ts[..j]) + Size(ts[j])]
         == Flatten(ts[j], Some(parent), depth, number + j, base + SizeForest(ts[..j]))
  {
    SizeForestPrefix(ts, j);
    SliceOfConcat(head + tail, head, tail, Flatten(ts[j], Some(parent), depth, number + j, base + SizeForest(ts[..j])),
                  SizeForest(ts[1..][..j - 1]), Size(ts[j]), SizeForest(ts[..j]));
  }

  lemma {:induction false} SizeForestPrefix(ts: seq<Tree>, j: nat)
    requires 0 < j <= |ts|
    ensures SizeForest(ts[..j]) == Size(ts[0]) + SizeForest(ts[1..][..j - 1])
  {
    assert ts[..j] == [ts[0]] + ts[1..][..j - 1];
    SizeForestAppend([ts[0]], ts[1..][..j - 1]);
    assert [ts[0]][1..] == [];
  }

  lemma {:induction false} ConcatValid(a: Shape, c: Shape, b: nat)
    requires ValidSeg(a, b) && ValidSeg(c, b + |a|)
    ensures ValidSeg(a + c, b)
  {
    var s := a + c;
    forall k | 0 <= k < |s|
      ensures NodeOk(s, b, k)
    {
      if k < |a| {
        assert NodeOk(a, b, k);
        forall j | 0 <= j < |s[k].children|
          ensures ChildOk(s, b, k, j)
        {
          assert ChildOk(a, b, k, j);
        }
      } else {
        var k' := k - |a|;
        assert NodeOk(c, b + |a|, k');
        forall j | 0 <= j < |s[k].children|
          ensures ChildOk(s, b, k, j)
        {
          assert ChildOk(c, b + |a|, k', j);
          var ch := s[k].children[j];
          assert s[ch - b] == c[ch - (b + |a|)];
        }
      }
    }
  }

  lemma {:induction false} FlattenHead(t: Tree, parent: Option<nat>, depth: nat, number: nat, base: nat)
    ensures Flatten(t, parent, depth, number, base)[0] == Info(t.id, parent, ChildIdx(t.children, base + 1), depth, number)
  {
  }

  lemma {:induction false} PrependValid(root: Info, f: Shape, base: nat)
    requires ValidSeg(f, base + 1)
    requires root.parent.Some? ==> root.parent.value < base
    requires forall j | 0 <= j < |root.children| :: ChildOk([root] + f, base, 0, j)
    ensures ValidSeg([root] + f, base)
  {
    var s := [root] + f;
    forall k | 1 <= k < |s|
      ensures NodeOk(s, base, k)
    {
      assert NodeOk(f, base + 1, k - 1);
      forall j | 0 <= j < |s[k].children|
        ensures ChildOk(s, base, k, j)
      {
        assert ChildOk(f, base + 1, k - 1, j);
      }
    }
    assert NodeOk(s, base, 0);
  }

  /** The root's `j`-th child index points at the head of the `j`-th flattened subtree. */
  lemma {:induction false} RootChildOk(t: Tree, parent: Option<nat>, depth: nat, number: nat, base: nat, j: nat)
    requires j < |t.children|
    ensures ChildOk(Flatten(t, parent, depth, number, base), base, 0, j)
  {
    var s := Flatten(t, parent, depth, number, base);
    var f := FlattenForest(t.children, base, depth + 1, 1, base + 1);
    FlattenHead(t, parent, depth, number, base);
    ChildIdxAt(t.children, base + 1, j);
    ForestHead(t.children, base, depth + 1, 1, base + 1, j);
    var lo := SizeForest(t.children[..j]);
    assert s[1 + lo] == f[lo];
  }

  /** The head of the `j`-th flattened tree of a forest. */
  lemma {:induction false} ForestHead(ts: seq<Tree>, parent: nat, depth: nat, number: nat, base: nat, j: nat)
    requires j < |ts|
    ensures SizeForest(ts[..j]) < SizeForest(ts)
    ensures FlattenForest(ts, parent, depth, number, base)[SizeForest(ts[..j])]
         == Info(ts[j].id, Some(parent), ChildIdx(ts[j].children, base + SizeForest(ts[..j]) + 1), depth, number + j)
  {
    ForestSlice(ts, parent, depth, number, base, j);
    var lo := SizeForest(ts[..j]);
    var g := Flatten(ts[j], Some(parent), depth, number + j, base + lo);
    FlattenHead(ts[j], Some(parent), depth, number + j, base + lo);
    SliceHead(FlattenForest(ts, parent, depth, number, base), lo, Size(ts[j]), g);
  }

  lemma {:induction false} SliceHead<T>(s: seq<T>, lo: nat, n: nat, g: seq<T>)
    requires 0 < n && lo + n <= |s| && s[lo .. lo + n] == g
    ensures s[lo] == g[0]
  {
    assert s[lo .. lo + n][0] == s[lo];
  }

  lemma {:induction false} FlattenValid(t: Tree, parent: Option<nat>, depth: nat, number: nat, base: nat)
    requires parent.Some? ==> parent.value < base
    ensures ValidSeg(Flatten(t, parent, depth, number, base), base)
    decreases t, 1
  {
    var s := Flatten(t, parent, depth, number, base);
    var f := FlattenForest(t.children, base, depth + 1, 1, base + 1);
    FlattenForestValid(t.children, base, depth + 1, 1, base + 1);
    FlattenHead(t, parent, depth, number, base);
    forall j | 0 <= j < |s[0].children|
      ensures ChildOk(s, base, 0, j)
    {
      RootChildOk(t, parent, depth, number, base, j);
    }
    PrependValid(s[0], f, base);
  }

  lemma {:induction false} FlattenForestValid(ts: seq<Tree>, parent: nat, depth: nat, number: nat, base: nat)
    requires parent < base
    ensures ValidSeg(FlattenForest(ts, parent, depth, number, base), base)
    decreases ts, 0
  {
    if ts != [] {
      FlattenValid(ts[0], Some(parent), depth, number, base);
      FlattenForestValid(ts[1..], parent, depth, number + 1, base + Size(ts[0]));
      ConcatValid(Flatten(ts[0], Some(parent), depth, number, base),
                  FlattenForest(ts[1..], parent, depth, number + 1, base + Size(ts[0])), base);
    }
  }

  /** Facts about child `j` of node `v` of a well-formed arena. */
  lemma {:induction false} ChildFacts(sh: Shape, v: nat, j: nat)
    requires Valid(sh) && v < |sh| && j < |sh[v].children|
    ensures v < sh[v].children[j] < |sh|
    ensures sh[sh[v].children[j]].parent == Some(v)
    ensures sh[sh[v].children[j]].depth == sh[v].depth + 1
    ensures sh[sh[v].children[j]].number == j + 1
  {
    assert NodeOk(sh, 0, v);
    assert ChildOk(sh, 0, v, j);
  }

  /** Siblings are distinct nodes: their numbers differ. */
  lemma {:induction false} ChildrenDistinct(sh: Shape, v: nat)
    requires Valid(sh) && v < |sh|
    ensures forall a, b | 0 <= a < b < |sh[v].children| :: sh[v].children[a] != sh[v].children[b]
    ensures forall a | 0 <= a < |sh[v].children| :: v < sh[v].children[a] < |sh|
  {
    forall a | 0 <= a < |sh[v].children|
      ensures v < sh[v].children[a] < |sh| && sh[sh[v].children[a]].number == a + 1
    {
      ChildFacts(sh, v, a);
    }
  }

  /** A node's parent comes before it in the arena. */
  lemma {:induction false} ParentBefore(sh: Shape, v: nat)
    requires Valid(sh) && v < |sh| && sh[v].parent.Some?
    ensures sh[v].parent.value < v
  {
    assert NodeOk(sh, 0, v);
  }

  /** The constructor builds a well-formed arena with one node per tree node, the whole
      tree embedded at index 0, and the ids in pre-order. */
  lemma {:induction false} BuildValid(t: Tree)
    ensures |Build(t)| == Size(t)
    ensures Valid(Build(t))
    ensures Embeds(Build(t), t, 0)
    ensures forall k | 0 <= k < Size(t) :: Build(t)[k].id == PreorderIds(t)[k]
  {
    FlattenValid(t, None, 0, 1, 0);
    assert Build(t)[0 .. Size(t)] == Build(t);
    FlattenIds(t, None, 0, 1, 0);
  }

  lemma {:induction false} FlattenIds(t: Tree, parent: Option<nat>, depth: nat, number: nat, base: nat)
    ensures forall k | 0 <= k < Size(t) :: Flatten(t, parent, depth, number, base)[k].id == PreorderIds(t)[k]
    decreases t, 1
  {
    FlattenForestIds(t.children, base, depth + 1, 1, base + 1);
  }

  lemma {:induction false} FlattenForestIds(ts: seq<Tree>, parent: nat, depth: nat, number: nat, base: nat)
    ensures forall k | 0 <= k < SizeForest(ts) :: FlattenForest(ts, parent, depth, number, base)[k].id == PreorderIdsForest(ts)[k]
    decreases ts, 0
  {
    if ts != [] {
      FlattenIds(ts[0], Some(parent), depth, number, base);
      FlattenForestIds(ts[1..], parent, depth, number + 1, base + Size(ts[0]));
    }
  }

  lemma {:induction false} SliceOfSlice<T>(sh: seq<T>, s: seq<T>, v: nat, off: nat, n: nat, g: seq<T>)
    requires v + |s| <= |sh| && sh[v .. v + |s|] == s
    requires off + n <= |s| && s[off .. off + n] == g
    ensures sh[v + off .. v + off + n] == g
  {
    var a := sh[v + off .. v + off + n];
    forall i | 0 <= i < n
      ensures a[i] == g[i]
    {
      assert a[i] == sh[v .. v + |s|][off + i];
      assert g[i] == s[off .. off + n][i];
    }
  }

  /** The `j`-th subtree of a flattened tree, relative to the tree's own root. */
  lemma {:induction false} FlattenChildSlice(t: Tree, parent: Option<nat>, depth: nat, number: nat, base: nat, j: nat)
    requires j < |t.children|
    ensures 1 + SizeForest(t.children[..j]) + Size(t.children[j]) <= Size(t)
    ensures Flatten(t, parent, depth, number, base)[1 + SizeForest(t.children[..j]) .. 1 + SizeForest(t.children[..j]) + Size(t.children[j])]
         == Flatten(t.children[j], Some(base), depth + 1, 1 + j, base + 1 + SizeForest(t.children[..j]))
  {
    var s := Flatten(t, parent, depth, number, base);
    var f := FlattenForest(t.children, base, depth + 1, 1, base + 1);
    ForestSlice(t.children, base, depth + 1, 1, base + 1, j);
    var lo := SizeForest(t.children[..j]);
    assert s == [s[0]] + f;
    SliceOfConcat(s, [s[0]], f, Flatten(t.children[j], Some(base), depth + 1, 1 + j, base + 1 + lo), lo, Size(t.children[j]), 1 + lo);
  }

  /** What a parent's embedding says about its `j`-th child. */
  lemma {:induction false} EmbedsChild(sh: Shape, t: Tree, v: nat, j: nat)
    requires Embeds(sh, t, v) && j < |t.children|
    ensures |sh[v].children| == |t.children|
    ensures sh[v].children[j] == v + 1 + SizeForest(t.children[..j])
    ensures v < sh[v].children[j]
    ensures sh[v].children[j] + Size(t.children[j]) == v + 1 + SizeForest(t.children[..j + 1])
    ensures v + 1 + SizeForest(t.children[..j + 1]) <= v + Size(t)
    ensures Embeds(sh, t.children[j], sh[v].children[j])
    ensures sh[sh[v].children[j]].parent == Some(v)
    ensures sh[sh[v].children[j]].depth == sh[v].depth + 1
  {
    var p, d, n := sh[v].parent, sh[v].depth, sh[v].number;
    var s := Flatten(t, p, d, n, v);
    var c := v + 1 + SizeForest(t.children[..j]);
    EmbedsChildSlice(sh, s, t, p, d, n, v, j, c);
    ChildIdxAt(t.children, v + 1, j);
    SizeForestSnoc(t.children, j);
    assert sh[v].children[j] == c;
  }

  lemma {:induction false} EmbedsChildSlice(sh: Shape, s: Shape, t: Tree, p: Option<nat>, d: nat, n: nat, v: nat, j: nat, c: nat)
    requires j < |t.children| && c == v + 1 + SizeForest(t.children[..j])
    requires s == Flatten(t, p, d, n, v)
    requires v + |s| <= |sh| && sh[v .. v + |s|] == s
    ensures sh[v] == Info(t.id, p, ChildIdx(t.children, v + 1), d, n)
    ensures c + Size(t.children[j]) <= v + |s|
    ensures Embeds(sh, t.children[j], c)
    ensures sh[c].parent == Some(v) && sh[c].depth == d + 1
  {
    FlattenHead(t, p, d, n, v);
    assert sh[v] == s[0];
    FlattenChildSlice(t, p, d, n, v, j);
    var lo := SizeForest(t.children[..j]);
    var g := Flatten(t.children[j], Some(v), d + 1, 1 + j, c);
    SliceOfSlice(sh, s, v, 1 + lo, Size(t.children[j]), g);
    FlattenHead(t.children[j], Some(v), d + 1, 1 + j, c);
    assert sh[c] == g[0];
  }

  /** The last child's subtree ends where the parent's subtree ends. */
  lemma {:induction false} EmbedsEnd(sh: Shape, t: Tree, v: nat)
    requires Embeds(sh, t, v)
    ensures v + 1 + SizeForest(t.children) == v + Size(t)
    ensures |sh[v].children| == |t.children|
  {
    assert sh[v] == sh[v .. v + Size(t)][0];
    assert t.children[..|t.children|] == t.children;
  }
}

=== FILE: link.dfy ===
/** Links between ports (src/core/Link.js): their string id, their entry in the flow's
    link map, the two listeners each link keeps on the flow's bus, and the rule that an
    input port holds at most one link. */
module Links {
  import opened Results
  import opened Values
  import opened EventBus
  import opened Flows

  /** The defaults the constructor merges the caller's options over. */
  const DefaultOptions: Options := map["color" := Str("#999"), "width" := Num(2.0), "selectedColor" := Str("#000")]

  /** The prototype methods `_onNodeMove` and `_onLinkEstablished`: one function each,
      shared by every link, so a link's listeners differ from another's only by context. */
  const NodeMoveCallback: nat := 0
  const LinkEstablishedCallback: nat := 1

  /** The constructor: the four endpoint ids stored as given, options over the defaults,
      no id and no flow yet. */
  function NewLink(handle: nat, fromNode: int, fromPort: string, toNode: int, toPort: string, options: Options)
    : (l: Link)
    ensures l.fromNode == fromNode && l.fromPort == fromPort && l.toNode == toNode && l.toPort == toPort
    ensures forall k | k in options :: k in l.options && l.options[k] == options[k]
    ensures forall k | k in DefaultOptions && k !in options :: k in l.options && l.options[k] == DefaultOptions[k]
    ensures l.handle == handle && l.id.None? && !l.inFlow
  {
    Link(handle, fromNode, fromPort, toNode, toPort, Assign(DefaultOptions, options), None, false)
  }

  /** One decimal digit. */
  function Digit(d: nat): (c: char)
    requires d < 10
    ensures '0' <= c <= '9'
  {
    (48 + d) as char
  }

  /** The decimal digits of a natural number, as a template string prints them. */
  function Digits(n: nat): (s: string)
    ensures |s| > 0 && (|s| == 1 <==> n < 10)
    ensures forall k | 0 <= k < |s| :: '0' <= s[k] <= '9'
    decreases n
  {
    if n < 10 then [Digit(n)] else Digits(n / 10) + [Digit(n % 10)]
  }

  /** An integer as a template string prints it: a minus sign exactly for negatives. */
  function Decimal(n: int): (s: string)
    ensures ':' !in s
    ensures |s| > 0 && (s[0] == '-' <==> n < 0)
  {
    if n < 0 then "-" + Digits(-n) else Digits(n)
  }

  /** The id `_addToFlow` gives a link: `from:fromPort-to:toPort`. */
  function Key(fromNode: int, fromPort: string, toNode: int, toPort: string): string {
    Decimal(fromNode) + ":" + (fromPort + "-" + (Decimal(toNode) + ":" + toPort))
  }

  lemma {:induction false} DigitsInjective(a: nat, b: nat)
    requires Digits(a) == Digits(b)
    ensures a == b
    decreases a
  {
    if a >= 10 {
      var sa, sb := Digits(a / 10), Digits(b / 10);
      assert Digits(a)[|sa|] == Digit(a % 10) && Digits(b)[|sb|] == Digit(b % 10);
      assert Digits(a)[..|sa|] == sa && Digits(b)[..|sb|] == sb;
      DigitsInjective(a / 10, b / 10);
    }
  }

  lemma {:induction false} DecimalInjective(a: int, b: int)
    requires Decimal(a) == Decimal(b)
    ensures a == b
  {
    if a < 0 {
      assert Digits(-a) == Decimal(a)[1..] && Digits(-b) == Decimal(b)[1..];
      DigitsInjective(-a, -b);
    } else {
      DigitsInjective(a, b);
    }
  }

  /** Index of the first `c` in `w`, or `|w|`. */
  function Find(w: string, c: char): (k: nat)
    ensures k <= |w|
  {
    if w == [] then 0 else if w[0] == c then 0 else 1 + Find(w[1..], c)
  }

  lemma {:induction false} FindAfter(s: string, c: char, t: string)
    requires c !in s
    ensures Find(s + [c] + t, c) == |s|
    decreases |s|
  {
    if s == [] {
      assert s + [c] + t == [c] + t;
    } else {
      assert (s + [c] + t)[1..] == s[1..] + [c] + t;
      FindAfter(s[1..], c, t);
    }
  }

  /** Cutting at the first occurrence of a separator recovers both parts. */
  lemma {:induction false} SplitAt(s1: string, t1: string, s2: string, t2: string, c: char)
    requires c !in s1 && c !in s2
    requires s1 + [c] + t1 == s2 + [c] + t2
    ensures s1 == s2 && t1 == t2
  {
    var w := s1 + [c] + t1;
    FindAfter(s1, c, t1);
    FindAfter(s2, c, t2);
    assert s1 == w[..|s1|] == s2;
    assert t1 == w[|s1| + 1..] == t2;
  }

  /** Cutting at the last occurrence of a separator recovers both parts. */
  lemma {:induction false} SplitAtLast(s1: string, t1: string, s2: string, t2: string, c: char)
    requires c !in t1 && c !in t2
    requires s1 + [c] + t1 == s2 + [c] + t2
    ensures s1 == s2 && t1 == t2
  {
    var w := s1 + [c] + t1;
    assert w[|s1|] == c && w[|s2|] == c;
    assert |s1| == |s2|;
    assert s1 == w[..|s1|] == s2;
    assert t1 == w[|s1| + 1..] == t2;
  }

  /** A natural number prints without a minus sign. */
  lemma {:induction false} NoMinus(n: nat)
    ensures '-' !in Decimal(n)
  {
    var s := Decimal(n);
    assert forall k | 0 <= k < |s| :: s[k] != '-';
  }

  /** The id names the link's endpoints unambiguously, provided the from-port id has no
      ':' in it and the to-node id is not negative: the first ':' then ends the from-node
      id, the next one ends `fromPort-to`, and the last '-' before it starts the to-node
      id (otherwise the separators are ambiguous; see KeyCollision and
      KeyCollisionNegative). */
  lemma {:induction false} KeyInjective(a: int, p: string, b: nat, q: string, a': int, p': string, b': nat, q': string)
    requires ':' !in p && ':' !in p'
    requires Key(a, p, b, q) == Key(a', p', b', q')
    ensures a == a' && p == p' && b == b' && q == q'
  {
    SplitAt(Decimal(a), p + "-" + (Decimal(b) + ":" + q), Decimal(a'), p' + "-" + (Decimal(b') + ":" + q'), ':');
    assert p + "-" + (Decimal(b) + ":" + q) == (p + "-" + Decimal(b)) + [':'] + q;
    assert p' + "-" + (Decimal(b') + ":" + q') == (p' + "-" + Decimal(b')) + [':'] + q';
    SplitAt(p + "-" + Decimal(b), q, p' + "-" + Decimal(b'), q', ':');
    NoMinus(b);
    NoMinus(b');
    SplitAtLast(p, Decimal(b), p', Decimal(b'), '-');
    DecimalInjective(a, a');
    DecimalInjective(b, b');
  }

  /** With a ':' in a port id two different connections print the same id. */
  lemma {:induction false} KeyCollision()
    ensures Key(1, "a-2:x", 3, "y") == Key(1, "a", 2, "x-3:y")
  {
    assert Digits(1) == "1" && Digits(2) == "2" && Digits(3) == "3";
  }

  /** With a negative to-node id the '-' of the minus sign is ambiguous as well. */
  lemma {:induction false} KeyCollisionNegative()
    ensures Key(1, "p-", 5, "q") == Key(1, "p", -5, "q")
  {
    assert Digits(1) == "1" && Digits(5) == "5";
  }

  datatype LinkError = AlreadyInFlow | NotInFlow

  /** The key `delete flow._links[self._id]` uses: the id, or the string "undefined". */
  function IdKey(l: Link): string {
    if l.id.Some? then l.id.value else "undefined"
  }

  /** The two listeners a link registers. */
  function Register(b: Listeners, handle: nat): Listeners {
    On(On(b, "nodeMove", NodeMoveCallback, Some(Obj(handle))), "linkEstablished", LinkEstablishedCallback, Some(Obj(handle)))
  }

  /** Taking the two listeners of a link off the bus. */
  function Unregister(b: Listeners, handle: nat): Listeners {
    Off(Off(b, "nodeMove", Some(NodeMoveCallback), Some(Obj(handle))),
        "linkEstablished", Some(LinkEstablishedCallback), Some(Obj(handle)))
  }

  /** `_addToFlow(flow)`: refuse a link that is already in a flow; otherwise set its id,
      enter it in the link map under that id and register its two bus listeners, with
      the link itself as context. */
  function AddToFlow(f: Flow, l: Link): (r: Result<(Flow, Link), LinkError>)
    ensures l.inFlow <==> r.Failure?
    ensures r.Failure? ==> r.error == AlreadyInFlow
    ensures r.Success? ==>
              var (g, m) := r.value;
              var key := Key(l.fromNode, l.fromPort, l.toNode, l.toPort);
              && m == l.(id := Some(key), inFlow := true)
              && g.links.Keys == f.links.Keys + {key} && g.links[key] == m
              && (forall k | k in f.links && k != key :: g.links[k] == f.links[k])
              && ListOf(g.bus, "nodeMove") == ListOf(f.bus, "nodeMove") + [Listener(NodeMoveCallback, Obj(l.handle))]
              && ListOf(g.bus, "linkEstablished")
                 == ListOf(f.bus, "linkEstablished") + [Listener(LinkEstablishedCallback, Obj(l.handle))]
              && (forall t | t in f.bus && t != "nodeMove" && t != "linkEstablished" :: t in g.bus && g.bus[t] == f.bus[t])
              && g.nodes == f.nodes && g.idSeq == f.idSeq
  {
    if l.inFlow then Failure(AlreadyInFlow)
    else
      var key := Key(l.fromNode, l.fromPort, l.toNode, l.toPort);
      var m := l.(id := Some(key), inFlow := true);
      var b1 := On(f.bus, "nodeMove", NodeMoveCallback, Some(Obj(l.handle)));
      assert ListOf(Register(f.bus, l.handle), "nodeMove") == ListOf(b1, "nodeMove");
      Success((f.(links := f.links[key := m], bus := Register(f.bus, l.handle)), m))
  }

  /** `_remove()`: take the link's two listeners off the bus and delete its id from the
      link map. A link that never joined a flow has no `_flow` to do this on. */
  function Remove(f: Flow, l: Link): (r: Result<Flow, LinkError>)
    ensures !l.inFlow <==> r.Failure?
    ensures r.Failure? ==> r.error == NotInFlow
    ensures r.Success? ==>
              var g := r.value;
              && g.links == f.links - {IdKey(l)}
              && ListOf(g.bus, "nodeMove")
                 == Keep(ListOf(f.bus, "nodeMove"), NodeMoveCallback, Some(Obj(l.handle)))
              && ListOf(g.bus, "linkEstablished")
                 == Keep(ListOf(f.bus, "linkEstablished"), LinkEstablishedCallback, Some(Obj(l.handle)))
              && (forall t | t in f.bus && t != "nodeMove" && t != "linkEstablished" :: t in g.bus && g.bus[t] == f.bus[t])
              && g.nodes == f.nodes && g.idSeq == f.idSeq
  {
    if !l.inFlow then Failure(NotInFlow)
    else
      var b1 := Off(f.bus, "nodeMove", Some(NodeMoveCallback), Some(Obj(l.handle)));
      assert ListOf(Unregister(f.bus, l.handle), "nodeMove") == ListOf(b1, "nodeMove");
      Success(f.(links := f.links - {IdKey(l)}, bus := Unregister(f.bus, l.handle)))
  }

  /** No listener of the link's handle is registered yet. */
  ghost predicate Unheard(b: Listeners, handle: nat) {
    && (forall k | 0 <= k < |ListOf(b, "nodeMove")| ::
          !Matches(ListOf(b, "nodeMove")[k], NodeMoveCallback, Some(Obj(handle))))
    && (forall k | 0 <= k < |ListOf(b, "linkEstablished")| ::
          !Matches(ListOf(b, "linkEstablished")[k], LinkEstablishedCallback, Some(Obj(handle))))
  }

  /** Unregistering undoes registering, list by list. */
  lemma {:induction false} UnregisterUndoesRegister(b: Listeners, handle: nat)
    requires Unheard(b, handle)
    ensures forall t :: ListOf(Unregister(Register(b, handle), handle), t) == ListOf(b, t)
  {
    forall t
      ensures ListOf(Unregister(Register(b, handle), handle), t) == ListOf(b, t)
    {
      RestoredAt(b, handle, t);
    }
  }

  lemma {:induction false} RestoredAt(b: Listeners, handle: nat, t: string)
    requires Unheard(b, handle)
    ensures ListOf(Unregister(Register(b, handle), handle), t) == ListOf(b, t)
  {
    var ctx := Some(Obj(handle));
    var b1 := On(b, "nodeMove", NodeMoveCallback, ctx);
    var b2 := On(b1, "linkEstablished", LinkEstablishedCallback, ctx);
    var b3 := Off(b2, "nodeMove", Some(NodeMoveCallback), ctx);
    var b4 := Off(b3, "linkEstablished", Some(LinkEstablishedCallback), ctx);
    if t == "nodeMove" {
      OffUndoesOn(b, "nodeMove", NodeMoveCallback, ctx);
      assert ListOf(b3, "nodeMove") == Keep(ListOf(b1, "nodeMove"), NodeMoveCallback, ctx);
    } else if t == "linkEstablished" {
      assert ListOf(b1, "linkEstablished") == ListOf(b, "linkEstablished");
      OffUndoesOn(b1, "linkEstablished", LinkEstablishedCallback, ctx);
    } else {
      assert t in b4 <==> t in b;
    }
  }

  /** Removing a link just added restores the flow's link map and every listener list,
      when its id was free and the bus held no listener of that link. */
  lemma {:induction false} RemoveUndoesAdd(f: Flow, l: Link)
    requires !l.inFlow
    requires Key(l.fromNode, l.fromPort, l.toNode, l.toPort) !in f.links
    requires Unheard(f.bus, l.handle)
    ensures AddToFlow(f, l).Success?
    ensures var (g, m) := AddToFlow(f, l).value;
            && Remove(g, m).Success?
            && Remove(g, m).value.links == f.links
            && forall t :: ListOf(Remove(g, m).value.bus, t) == ListOf(f.bus, t)
  {
    AddThenRemove(f, l);
    var key := Key(l.fromNode, l.fromPort, l.toNode, l.toPort);
    PutThenDelete(f.links, key, AddToFlow(f, l).value.1);
    UnregisterUndoesRegister(f.bus, l.handle);
  }

  lemma {:induction false} PutThenDelete<K, V>(m: map<K, V>, k: K, v: V)
    requires k !in m
    ensures m[k := v] - {k} == m
  {
    assert (m[k := v] - {k}).Keys == m.Keys;
  }

  /** The state `_remove()` leaves right after `_addToFlow()`. */
  lemma {:induction false} AddThenRemove(f: Flow, l: Link)
    requires !l.inFlow
    ensures AddToFlow(f, l).Success?
    ensures var (g, m) := AddToFlow(f, l).value;
            && Remove(g, m).Success?
            && Remove(g, m).value.links == f.links[Key(l.fromNode, l.fromPort, l.toNode, l.toPort) := m]
                                           - {Key(l.fromNode, l.fromPort, l.toNode, l.toPort)}
            && Remove(g, m).value.bus == Unregister(Register(f.bus, l.handle), l.handle)
  {
  }

  /** The `data` of a `linkEstablished` event: the new link's id and endpoints. */
  datatype Established = Established(id: string, fromNode: int, fromPort: string, toNode: int, toPort: string)

  /** The link must give way to the newly established one: another id, same input port. */
  predicate Displaced(l: Link, e: Established) {
    l.id != Some(e.id) && l.toNode == e.toNode && l.toPort == e.toPort
  }

  /** `_onLinkEstablished(e)`: a link displaced by the new one removes itself. */
  function OnLinkEstablished(f: Flow, l: Link, e: Established): (r: Result<Flow, LinkError>)
    ensures r.Failure? <==> Displaced(l, e) && !l.inFlow
    ensures r.Success? ==> r.value.links == if Displaced(l, e) then f.links - {IdKey(l)} else f.links
    ensures !Displaced(l, e) ==> r == Success(f)
    ensures Displaced(l, e) ==> r == Remove(f, l)
  {
    if Displaced(l, e) then Remove(f, l) else Success(f)
  }

  /** Every link hears the event in turn (the order does not matter: each touches only
      its own entry). */
  function EstablishAll(f: Flow, ls: seq<Link>, e: Established): (r: Result<Flow, LinkError>)
    decreases |ls|
  {
    if ls == [] then Success(f)
    else
      var g :- OnLinkEstablished(f, ls[0], e);
      EstablishAll(g, ls[1..], e)
  }

  /** Each displaced link's id leaves the link map; every other entry stays as it was. */
  lemma {:induction false} EstablishAllEffect(f: Flow, ls: seq<Link>, e: Established)
    requires forall k | 0 <= k < |ls| :: ls[k].inFlow
    ensures EstablishAll(f, ls, e).Success?
    ensures var g := EstablishAll(f, ls, e).value;
            && (forall k | k in g.links :: k in f.links && g.links[k] == f.links[k])
            && (forall k | 0 <= k < |ls| && Displaced(ls[k], e) :: IdKey(ls[k]) !in g.links)
            && (forall k | k in f.links && (forall j | 0 <= j < |ls| && Displaced(ls[j], e) :: IdKey(ls[j]) != k)
                  :: k in g.links)
    decreases |ls|
  {
    if ls != [] {
      var g := OnLinkEstablished(f, ls[0], e).value;
      assert forall k | 1 <= k < |ls| :: ls[1..][k - 1] == ls[k];
      EstablishAllEffect(g, ls[1..], e);
    }
  }

  /** Each entry of the link map is a link in a flow, filed under its own id. */
  ghost predicate Filed(f: Flow) {
    forall k | k in f.links :: f.links[k].inFlow && f.links[k].id == Some(k)
  }

  /** One link per input port: once every filed link has heard a `linkEstablished`
      event, the only link left on that port is the one the event names. */
  lemma {:induction false} OneLinkPerInput(f: Flow, ls: seq<Link>, e: Established)
    requires Filed(f)
    requires forall k | 0 <= k < |ls| :: ls[k].inFlow
    requires forall k | k in f.links :: f.links[k] in ls
    ensures EstablishAll(f, ls, e).Success?
    ensures var g := EstablishAll(f, ls, e).value;
            forall k | k in g.links :: g.links[k].toNode == e.toNode && g.links[k].toPort == e.toPort ==> k == e.id
  {
    EstablishAllEffect(f, ls, e);
    var g := EstablishAll(f, ls, e).value;
    forall k | k in g.links && g.links[k].toNode == e.toNode && g.links[k].toPort == e.toPort
      ensures k == e.id
    {
      if k != e.id {
        assert false;
      }
    }
  }

  /** The guard of `_ensureShape()`: the path is recomputed only when both endpoint
      nodes are in the flow. */
  function EnsureShape(f: Flow, l: Link): (redraw: bool) {
    l.fromNode in f.nodes && l.toNode in f.nodes
  }

  /** `_onNodeMove(e)`: a move of either endpoint node leads to `_ensureShape()`. Returns
      whether the path is recomputed. */
  function OnNodeMove(f: Flow, l: Link, nodeId: int): (redraw: bool)
    ensures redraw <==> (l.fromNode == nodeId || l.toNode == nodeId) && l.fromNode in f.nodes && l.toNode in f.nodes
  {
    if l.fromNode == nodeId || l.toNode == nodeId then EnsureShape(f, l) else false
  }
}

=== FILE: node.dfy ===
/** Node construction and insertion into a flow (src/core/Node.js). */
module Nodes {
  import opened Results
  import opened Values
  import opened Flows

  /** The defaults the constructor merges the caller's options over. */
  const DefaultOptions: Options := map[
    "name" := Str("Unknown"),
    "nameSize" := Str("1.1em"),
    "desc" := Str("dafdsf"),
    "descSize" := Str("0.9em"),
    "gap" := Num(4.0),
    "bgSize" := Num(40.0),
    "bgRadius" := Num(4.0),
    "bgColor" := Str("#ccc"),
    "bgOpacity" := Num(0.8),
    "icon" := Str(""),
    "selectedColor" := Str("#000"),
    "selectedOpacity" := Num(1.0),
    "selectedWidth" := Num(1.0)
  ]

  /** The constructor: every option the caller names wins, every other default stays. */
  function NewNode(options: Options): (n: Node)
    ensures forall k | k in options :: k in n.options && n.options[k] == options[k]
    ensures forall k | k in DefaultOptions && k !in options :: k in n.options && n.options[k] == DefaultOptions[k]
    ensures n.options.Keys == DefaultOptions.Keys + options.Keys
    ensures n.id.None? && n.pos.None? && n.ports == map[]
  {
    Node(Assign(DefaultOptions, options), None, None, map[])
  }

  datatype NodeError = FlowNotFound | AlreadyInFlow

  /** `!!self._id`: the node already carries a (truthy) id. */
  predicate HasId(n: Node) {
    n.id.Some? && n.id.value != 0
  }

  /** `addToFlow(flow, x, y)`: refuse a missing or half-built flow and a node that already
      has an id; otherwise take the pre-incremented counter as id, store the node under
      it and place it at `(x, y)`. Returns the updated flow and node. */
  function AddToFlow(flow: Option<Flow>, n: Node, x: real, y: real): (r: Result<(Flow, Node), NodeError>)
    ensures flow.None? || !flow.value.hasNodes || !flow.value.hasGraph ==> r == Failure(FlowNotFound)
    ensures flow.Some? && flow.value.hasNodes && flow.value.hasGraph ==>
              (r == Failure(AlreadyInFlow) <==> HasId(n))
    ensures r.Success? ==>
              var f, id := flow.value, flow.value.idSeq + 1;
              var (g, m) := r.value;
              && m == n.(id := Some(id), pos := Some((x, y)))
              && g.idSeq == id
              && g.nodes.Keys == f.nodes.Keys + {id} && g.nodes[id] == m
              && (forall k | k in f.nodes && k != id :: g.nodes[k] == f.nodes[k])
              && g.links == f.links && g.bus == f.bus && g.hasNodes && g.hasGraph
  {
    if flow.None? || !flow.value.hasNodes || !flow.value.hasGraph then Failure(FlowNotFound)
    else if HasId(n) then Failure(AlreadyInFlow)
    else
      var f := flow.value;
      var id := f.idSeq + 1;
      var m := n.(id := Some(id), pos := Some((x, y)));
      Success((f.(idSeq := id, nodes := f.nodes[id := m]), m))
  }

  /** Insert the nodes one after another, at the given positions, collecting their ids. */
  function AddAll(f: Flow, ns: seq<Node>, ps: seq<(real, real)>): (r: Result<(Flow, seq<int>), NodeError>)
    requires |ps| == |ns|
    ensures r.Success? ==> |r.value.1| == |ns|
    decreases |ns|
  {
    if ns == [] then Success((f, []))
    else
      var (g, m) :- AddToFlow(Some(f), ns[0], ps[0].0, ps[0].1);
      var (h, ids) :- AddAll(g, ns[1..], ps[1..]);
      Success((h, [m.id.value] + ids))
  }

  /** Nodes that are not yet in a flow all go in, and receive the consecutive ids after
      the counter: successive insertions get strictly increasing, hence distinct, ids,
      each stored under its own id. */
  lemma {:induction false} AddAllIds(f: Flow, ns: seq<Node>, ps: seq<(real, real)>)
    requires |ps| == |ns| && f.hasNodes && f.hasGraph
    requires forall k | 0 <= k < |ns| :: !HasId(ns[k])
    ensures AddAll(f, ns, ps).Success?
    ensures var (g, ids) := AddAll(f, ns, ps).value;
            && g.idSeq == f.idSeq + |ns|
            && (forall k | 0 <= k < |ns| :: ids[k] == f.idSeq + 1 + k)
            && (forall k | 0 <= k < |ns| :: ids[k] in g.nodes && g.nodes[ids[k]].pos == Some(ps[k]))
            && (forall k | 0 <= k < |ns| :: g.nodes[ids[k]] == ns[k].(id := Some(ids[k]), pos := Some(ps[k])))
            && (forall k | k in f.nodes && !(f.idSeq < k <= f.idSeq + |ns|) :: k in g.nodes && g.nodes[k] == f.nodes[k])
    decreases |ns|
  {
    if ns != [] {
      var (g, m) := AddToFlow(Some(f), ns[0], ps[0].0, ps[0].1).value;
      assert forall k | 1 <= k < |ns| :: ns[1..][k - 1] == ns[k] && ps[1..][k - 1] == ps[k];
      AddAllIds(g, ns[1..], ps[1..]);
    }
  }

  /** In a new flow the first node gets id 2: the counter starts at 1 and is
      incremented before use. */
  lemma {:induction false} FirstNodeId(options: Options, x: real, y: real)
    ensures AddToFlow(Some(NewFlow()), NewNode(options), x, y).Success?
    ensures AddToFlow(Some(NewFlow()), NewNode(options), x, y).value.1.id == Some(2)
  {
    var n := NewNode(options);
    assert !HasId(n);
  }
}

=== FILE: options.dfy ===
/** Option objects as the constructors of Node, Port and Link see them: plain JavaScript
    objects, here maps from property name to value, merged with `Object.assign`. */
module Values {
  import opened Results

  /** The property values the option objects hold: strings, numbers, booleans and
      arrays of strings (the `dataTypes` lists of ports). */
  datatype Value = Str(s: string) | Num(n: real) | Bool(b: bool) | Strs(items: seq<string>)

  type Options = map<string, Value>

  /** `Object.assign({}, base, over)`: every property of `over`, and the properties of
      `base` that `over` does not name. */
  function Assign(base: Options, over: Options): (r: Options)
    ensures r.Keys == base.Keys + over.Keys
    ensures forall k | k in over :: r[k] == over[k]
    ensures forall k | k in base && k !in over :: r[k] == base[k]
  {
    base + over
  }

  /** `obj.name`: the property, or `undefined` (None) when it is missing. */
  function Get(o: Options, name: string): (r: Option<Value>)
    ensures r.Some? <==> name in o
    ensures r.Some? ==> r.value == o[name]
  {
    if name in o then Some(o[name]) else None
  }
}

=== FILE: port.dfy ===
/** A node's connection point (src/core/Port.js). The owning node is named by a handle;
    its port map is passed in and handed back. */
module Ports {
  import opened Results
  import opened Values

  /** `_options`, `_connectedLinks` (link handles), `_node`, `_id` and `_anchor`. */
  datatype Port = Port(options: Options, connectedLinks: seq<nat>, node: Option<nat>, id: Option<string>,
                       anchor: Option<(real, real)>)

  const DefaultOptions: Options := map[
    "type" := Str("input"),
    "optional" := Bool(false),
    "color" := Str("#000"),
    "borderColor" := Str("#000"),
    "borderWidth" := Num(1.0)
  ]

  /** The constructor: caller options over the defaults, no links, not in a node. */
  function NewPort(options: Options): (p: Port)
    ensures forall k | k in options :: k in p.options && p.options[k] == options[k]
    ensures forall k | k in DefaultOptions && k !in options :: k in p.options && p.options[k] == DefaultOptions[k]
    ensures p.options.Keys == DefaultOptions.Keys + options.Keys
    ensures p.connectedLinks == [] && p.node.None? && p.id.None?
  {
    Port(Assign(DefaultOptions, options), [], None, None, None)
  }

  /** `getType()`: the stored `type` option (`undefined` when it was removed). */
  function GetType(p: Port): (r: Option<Value>)
    ensures r.Some? <==> "type" in p.options
    ensures r.Some? ==> r.value == p.options["type"]
  {
    Get(p.options, "type")
  }

  /** `isOptional()`: the stored `optional` option. */
  function IsOptional(p: Port): (r: Option<Value>)
    ensures r.Some? <==> "optional" in p.options
    ensures r.Some? ==> r.value == p.options["optional"]
  {
    Get(p.options, "optional")
  }

  /** `isConnected()`. */
  function IsConnected(p: Port): (r: bool)
    ensures r <==> p.connectedLinks != []
  {
    |p.connectedLinks| > 0
  }

  /** A fresh port is an input, not optional and not connected, unless the caller's
      options say otherwise. */
  lemma {:induction false} NewPortDefaults(options: Options)
    ensures GetType(NewPort(options)) == Some(if "type" in options then options["type"] else Str("input"))
    ensures IsOptional(NewPort(options)) == Some(if "optional" in options then options["optional"] else Bool(false))
    ensures !IsConnected(NewPort(options))
  {
    var p := NewPort(options);
    assert "type" in DefaultOptions && "optional" in DefaultOptions;
  }

  datatype PortError = AlreadyInNode

  /** `_addToNode(node, idInNode, anchor)`: refuse a port that already has a node;
      otherwise take `idInNode` as id, enter the port in the node's port map under it and
      remember the node and anchor. */
  function AddToNode(p: Port, nodePorts: map<string, Port>, node: nat, idInNode: string, anchor: (real, real))
    : (r: Result<(Port, map<string, Port>), PortError>)
    ensures p.node.Some? <==> r.Failure?
    ensures r.Success? ==>
              var (q, ports) := r.value;
              && q == p.(id := Some(idInNode), node := Some(node), anchor := Some(anchor))
              && ports.Keys == nodePorts.Keys + {idInNode}
              && ports[idInNode] == q
              && forall k | k in nodePorts && k != idInNode :: ports[k] == nodePorts[k]
  {
    if p.node.Some? then Failure(AlreadyInNode)
    else
      var q := p.(id := Some(idInNode), node := Some(node), anchor := Some(anchor));
      Success((q, nodePorts[idInNode := q]))
  }

  /** The event `_onGraphMouseDown` hands to the flow: `portMouseDown` with the node's
      id, the port's id and the mouse position. */
  datatype PortMouseDown = PortMouseDown(nodeId: Option<int>, portId: Option<string>, x: real, y: real)

  datatype MouseError = NoNode

  /** `_onGraphMouseDown(e)`: only the left button (`e.which === 1`) on a port that is not
      an input emits; emitting reads the owning node, which a detached port lacks.
      `nodeId` is the owning node's `_id`. */
  function MouseDown(p: Port, which: int, nodeId: Option<int>, x: real, y: real)
    : (r: Result<Option<PortMouseDown>, MouseError>)
    ensures which != 1 || GetType(p) == Some(Str("input")) ==> r == Success(None)
    ensures r.Success? && r.value.Some? ==>
              which == 1 && GetType(p) != Some(Str("input")) && p.node.Some?
              && r.value.value == PortMouseDown(nodeId, p.id, x, y)
    ensures r.Failure? <==> which == 1 && GetType(p) != Some(Str("input")) && p.node.None?
    ensures which == 1 && GetType(p) != Some(Str("input")) && p.node.Some? ==>
              r == Success(Some(PortMouseDown(nodeId, p.id, x, y)))
  {
    if which != 1 then Success(None)
    else if Get(p.options, "type") == Some(Str("input")) then Success(None)
    else if p.node.None? then Failure(NoNode)
    else Success(Some(PortMouseDown(nodeId, p.id, x, y)))
  }

  /** A port built with default options never emits on mouse-down, whatever the
      button: ports are inputs unless told otherwise. */
  lemma {:induction false} DefaultPortSilent(which: int, nodeId: Option<int>, x: real, y: real)
    ensures MouseDown(NewPort(map[]), which, nodeId, x, y) == Success(None)
  {
    NewPortDefaults(map[]);
  }
}

=== FILE: results.dfy ===
/** Optional values and success/failure results shared by every module of the model.
    `Result` is failure-compatible, so `:-` propagates a failure. */
module Results {

  datatype Option<+T> = None | Some(value: T)

  datatype Result<+T, +E> = Success(value: T) | Failure(error: E) {

    predicate IsFailure() {
      Failure?
    }

    function PropagateFailure<U>(): Result<U, E>
      requires Failure?
    {
      Failure(error)
    }

    function Extract(): T
      requires Success?
    {
      value
    }
  }
}

=== FILE: validator.dfy ===
/** `Validator.isConnectable` (src/core/Validator.js): may the output port `fromPort` of
    node `fromNode` be linked to the input port `toPort` of node `toNode`? The flow is
    reduced to what the check reads: node id to port id to the port's option object. */
module Validator {
  import opened Results
  import opened Values

  type PortTable = map<int, map<string, Options>>

  /** `toDataTypes.length` on a missing `dataTypes` property throws a TypeError. */
  datatype ValidatorError = MissingDataTypes

  /** How the loops see a `dataTypes` property: a missing one is `undefined` (None); an
      array is its elements; a string is its characters; a number or boolean has no
      `length`, so the loop runs zero times. */
  function DataTypes(v: Option<Value>): (r: Option<seq<string>>)
    ensures v.None? <==> r.None?
    ensures v.Some? && v.value.Strs? ==> r == Some(v.value.items)
  {
    match v
    case None => None
    case Some(Strs(items)) => Some(items)
    case Some(Str(s)) => Some(seq(|s|, i requires 0 <= i < |s| => [s[i]]))
    case Some(_) => Some([])
  }

  /** `list[i]`: the element, or `undefined` past the end. */
  function At(list: seq<string>, i: nat): Option<string> {
    if i < |list| then Some(list[i]) else None
  }

  /** The test inside the loops: `fromT == 'any' || toT == 'any' || fromT == toT`. */
  predicate TypesMeet(fromT: string, toT: Option<string>) {
    fromT == "any" || toT == Some("any") || toT == Some(fromT)
  }

  /** Closed form of the data-type loops as written: the inner loop reads `toDataTypes[i]`
      whatever `j` is, so it matches exactly when the to-list is non-empty and some
      from-type meets the to-type at the same index (or is 'any'). */
  predicate MatchedAsWritten(from: seq<string>, to: seq<string>) {
    |to| > 0 && exists i | 0 <= i < |from| :: TypesMeet(from[i], At(to, i))
  }

  /** The evidently intended test: some pair of from- and to-types meets. */
  predicate MatchedIntended(from: seq<string>, to: seq<string>) {
    exists i, j | 0 <= i < |from| && 0 <= j < |to| :: TypesMeet(from[i], Some(to[j]))
  }

  /** The role and existence checks before the data types: false when a node or port
      is missing, when the from-port is an input or the to-port an output. Returns the
      two option objects when the check goes on. */
  function Endpoints(flow: PortTable, fromNode: int, fromPort: string, toNode: int, toPort: string)
    : (r: Option<(Options, Options)>)
    ensures r.Some? <==>
              && fromNode in flow && fromPort in flow[fromNode]
              && toNode in flow && toPort in flow[toNode]
              && Get(flow[fromNode][fromPort], "type") != Some(Str("input"))
              && Get(flow[toNode][toPort], "type") != Some(Str("output"))
    ensures r.Some? ==> r.value == (flow[fromNode][fromPort], flow[toNode][toPort])
  {
    if fromNode !in flow || fromPort !in flow[fromNode] || toNode !in flow || toPort !in flow[toNode] then None
    else
      var f, t := flow[fromNode][fromPort], flow[toNode][toPort];
      if Get(f, "type") == Some(Str("input")) then None
      else if Get(t, "type") == Some(Str("output")) then None
      else Some((f, t))
  }

  /** `isConnectable` as written, with the labelled double loop that compares
      `fromDataTypes[i]` with `toDataTypes[i]`. */
  method IsConnectable(flow: PortTable, fromNode: int, fromPort: string, toNode: int, toPort: string)
    returns (r: Result<bool, ValidatorError>)
    ensures Endpoints(flow, fromNode, fromPort, toNode, toPort).None? ==> r == Success(false)
    ensures Endpoints(flow, fromNode, fromPort, toNode, toPort).Some? ==>
              var (f, t) := Endpoints(flow, fromNode, fromPort, toNode, toPort).value;
              var from, to := DataTypes(Get(f, "dataTypes")), DataTypes(Get(t, "dataTypes"));
              if from.None? || (|from.value| > 0 && to.None?) then r == Failure(MissingDataTypes)
              else r == Success(to.Some? && MatchedAsWritten(from.value, to.value))
  {
    var ends := Endpoints(flow, fromNode, fromPort, toNode, toPort);
    if ends.None? {
      return Success(false);
    }
    var (f, t) := ends.value;
    var fromTypes, toTypes := DataTypes(Get(f, "dataTypes")), DataTypes(Get(t, "dataTypes"));
    if fromTypes.None? {
      return Failure(MissingDataTypes);
    }
    var from := fromTypes.value;
    var matched := false;
    var i := 0;
    label check:
    while i < |from|
      invariant 0 <= i <= |from|
      invariant !matched
      invariant i > 0 ==> toTypes.Some?
      invariant forall k | 0 <= k < i :: !(|toTypes.value| > 0 && TypesMeet(from[k], At(toTypes.value, k)))
    {
      if toTypes.None? {
        return Failure(MissingDataTypes);
      }
      var to := toTypes.value;
      var fromT := from[i];
      var j := 0;
      while j < |to|
        invariant 0 <= j <= |to|
        invariant j > 0 ==> !TypesMeet(fromT, At(to, i))
      {
        var toT := At(to, i);
        if TypesMeet(fromT, toT) {
          matched := true;
          break check;
        }
        j := j + 1;
      }
      i := i + 1;
    }
    if !matched {
      return Success(false);
    }
    return Success(true);
  }

  /** `isConnectable` with the inner loop reading `toDataTypes[j]`. */
  method IsConnectableIntended(flow: PortTable, fromNode: int, fromPort: string, toNode: int, toPort: string)
    returns (r: Result<bool, ValidatorError>)
    ensures Endpoints(flow, fromNode, fromPort, toNode, toPort).None? ==> r == Success(false)
    ensures Endpoints(flow, fromNode, fromPort, toNode, toPort).Some? ==>
              var (f, t) := Endpoints(flow, fromNode, fromPort, toNode, toPort).value;
              var from, to := DataTypes(Get(f, "dataTypes")), DataTypes(Get(t, "dataTypes"));
              if from.None? || (|from.value| > 0 && to.None?) then r == Failure(MissingDataTypes)
              else r == Success(to.Some? && MatchedIntended(from.value, to.value))
  {
    var ends := Endpoints(flow, fromNode, fromPort, toNode, toPort);
    if ends.None? {
      return Success(false);
    }
    var (f, t) := ends.value;
    var fromTypes, toTypes := DataTypes(Get(f, "dataTypes")), DataTypes(Get(t, "dataTypes"));
    if fromTypes.None? {
      return Failure(MissingDataTypes);
    }
    var from := fromTypes.value;
    var matched := false;
    var i := 0;
    label check:
    while i < |from|
      invariant 0 <= i <= |from|
      invariant !matched
      invariant i > 0 ==> toTypes.Some?
      invariant forall a, b | 0 <= a < i && 0 <= b < |toTypes.value| :: !TypesMeet(from[a], Some(toTypes.value[b]))
    {
      if toTypes.None? {
        return Failure(MissingDataTypes);
      }
      var to := toTypes.value;
      var fromT := from[i];
      var j := 0;
      while j < |to|
        invariant 0 <= j <= |to|
        invariant forall b | 0 <= b < j :: !TypesMeet(fromT, Some(to[b]))
      {
        var toT := Some(to[j]);
        if TypesMeet(fromT, toT) {
          matched := true;
          break check;
        }
        j := j + 1;
      }
      i := i + 1;
    }
    if !matched {
      return Success(false);
    }
    return Success(true);
  }

  /** The intended test is the symmetric one: the lists share a type, or one side
      offers 'any' while the other is non-empty. */
  lemma {:induction false} IntendedMeaning(from: seq<string>, to: seq<string>)
    ensures MatchedIntended(from, to) <==>
              || (exists i, j | 0 <= i < |from| && 0 <= j < |to| :: from[i] == to[j])
              || ("any" in from && |to| > 0)
              || ("any" in to && |from| > 0)
  {
    if "any" in from && |to| > 0 {
      var i :| 0 <= i < |from| && from[i] == "any";
      assert TypesMeet(from[i], Some(to[0]));
    }
    if "any" in to && |from| > 0 {
      var j :| 0 <= j < |to| && to[j] == "any";
      assert TypesMeet(from[0], Some(to[j]));
    }
    if exists i, j | 0 <= i < |from| && 0 <= j < |to| :: from[i] == to[j] {
      var i, j :| 0 <= i < |from| && 0 <= j < |to| && from[i] == to[j];
      assert TypesMeet(from[i], Some(to[j]));
    }
  }

  /** As written, an 'any' among the from-types connects to any non-empty to-list, and a
      match found by the index-wise test is also a match of the intended test. */
  lemma {:induction false} AsWrittenWithinIntended(from: seq<string>, to: seq<string>)
    ensures "any" in from && |to| > 0 ==> MatchedAsWritten(from, to)
    ensures MatchedAsWritten(from, to) ==> MatchedIntended(from, to)
  {
    if "any" in from && |to| > 0 {
      var i :| 0 <= i < |from| && from[i] == "any";
      assert TypesMeet(from[i], At(to, i));
    }
    if MatchedAsWritten(from, to) {
      var i :| 0 <= i < |from| && TypesMeet(from[i], At(to, i));
      if i < |to| {
        assert TypesMeet(from[i], Some(to[i]));
      } else {
        assert TypesMeet(from[i], Some(to[0]));
      }
    }
  }

  /** The input that shows the index slip: a port emitting numbers or strings cannot be
      linked to a port accepting strings, because "string" sits at index 1 of the
      from-list and the to-list has no index 1. */
  lemma {:induction false} AsWrittenMissesSharedType()
    ensures !MatchedAsWritten(["number", "string"], ["string"])
    ensures MatchedIntended(["number", "string"], ["string"])
  {
    var from, to := ["number", "string"], ["string"];
    assert TypesMeet(from[1], Some(to[0]));
    assert !TypesMeet(from[0], At(to, 0));
    assert !TypesMeet(from[1], At(to, 1));
  }
}
